=== FILE: README.md ===
# tcp-to-aedat4-converter: a Dafny model of the frame path

The converter accepts a TCP connection from an FPGA event camera. It reads fixed-size
binary frames, with an optional length header, and turns each frame into timestamped
events `(timestamp, x, y, polarity)`. A frame packs one pixel into 2 bits, four pixels
per byte, most significant pair first:
- `00` is no event;
- `01` is a positive event;
- `10` is a negative event;
- `11` is unused.

Python tools around the converter do three jobs:
- fake cameras synthesise such frames by drawing circles and bitmap text, and send them
  over TCP or UDP;
- a high-volume camera sends a separate two-channel, 1-bit-per-pixel layout behind a
  little-endian length header;
- viewers slice the incoming byte stream back into frames and keep statistics.

This project models that core as pure functions and small methods over byte and pixel
sequences, and proves what the code promises about them.

Modules, one per concern:
- `Wrappers`: `Option` and `Result`.
- `Bytes`: 2-bit slots of a byte, single bits, little-endian integers.
- `Seqs`: flattening and sums of sequences.
- `Geometry`: the configuration record's frame geometry (`include/config.hpp`).
- `PackedFrame`: the 2-bit codec.
  - The senders' `set_pixel` and `_pack_frame`.
  - The viewers' `unpack_frame`.
- `FrameUnpacker`: the converter's `FrameUnpacker` (constructor and `unpack`).
- `TcpReceiver`: the converter's `TcpReceiver` state.
  - `recv` is an oracle that returns a sequence of results.
  - Covers `receiveExact` and `receiveFrame` with its header, `connect`/`disconnect` flags and the move operations.
- `Demux`: fixed-size slicing of a byte stream and splitting into pieces.
  - The viewers' accumulate-and-slice loop.
  - Batching and UDP splitting.
- `Canvas`, `Circles`, `Text`: synthetic frames.
  - Pixel-level reading of `set_pixel`.
  - Both circle rasterisers and their overlap rules.
  - The bitmap font and text layout with blink and static frames.
- `BitPlane`: the high-volume camera's 1-bit channels, its header, and what a receiver configured with the defaults sees.
- `Sender`: the sending side.
  - Batch construction, cyclic selection and the send loop's counters and stop rule.
  - UDP datagram splitting and argument validation.
  - The pre-generation count.
- `Viewer`: the integer state of the professional viewer.
  - Frame processing, the logical tick and time surfaces, and the bounded event-rate history.
  - Statistics reset, key handling, the standard view colours and the runtime label.

The model follows the code in these places:
- When the peer closes the connection, the viewers silently drop any partial frame in their buffer; no error is raised (test/simple_viewer.py:139-142, test/pro_viewer.py:456-458; `Demux.Run`).
- `reset_stats` keeps the logical tick `current_time` and the view mode (test/pro_viewer.py:107-120; `Viewer.ResetStats`).
- `src/frame_unpacker.cpp` calls `config_.total_pixels()`, which `include/config.hpp` does not define. The model reads it as the channel's pixel count `width * height`.
- The unpacker's expected size is `frame_size()`, i.e. `2 * floor(width * height / 8)` (src/frame_unpacker.cpp:44). Its header comment (include/frame_unpacker.hpp:27-28) promises `(width * height + 3) / 4` instead. The model keeps the code's value; see "## Findings".

## Model

| member | source | states |
|---|---|---|
| Geometry.Config.BytesPerChannel | include/config.hpp:25 | one channel holds the pixel count divided by eight, rounded down |
| Geometry.Config.FrameSize | include/config.hpp:26 | a frame is two channels: even, and four times it lies within eight pixels below the pixel count |
| Geometry.PackedSize | include/frame_unpacker.hpp:27-28 | the 2-bit size is the least byte count whose four slots per byte cover every pixel |
| Geometry.FrameSizeIsPackedSizeIff | include/config.hpp:24-26 | the two-channel size equals the 2-bit packed size exactly when the pixel count is a multiple of eight |
| Geometry.DefaultSizes | include/config.hpp:20-53 | the defaults expect no header, a 4-byte header when enabled, 524,288-byte channels and 1,048,576-byte frames; 1280x720 gives 230,400 bytes |
| Geometry.IndexCoordinates | test/pro_viewer.py:141-142 | the row-major index of an in-row coordinate gives back that column and row by modulo and division |
| Geometry.CoordinatesOfIndex | src/frame_unpacker.cpp:97-98 | every pixel index below the pixel count splits into an in-bounds column and row that index back to it |
| Bytes.SetSlot | test/demo_fake_camera.py:94-97 | the masked write sets the addressed 2-bit slot and leaves the other three slots of the byte unchanged |
| Bytes.Pack4 | test/realistic_camera.py:451-456 | the packed byte holds pixel k of its group in slot k, i.e. bits 7-2k to 6-2k |
| Bytes.SlotsDetermineByte | include/frame_unpacker.hpp:17-19 | a byte is determined by its four slots |
| Bytes.ZeroByteSlots | src/frame_unpacker.cpp:68-72 | a byte is zero exactly when all four of its pixels are "no event" |
| Bytes.SlotIsShiftAndMask | src/frame_unpacker.cpp:79-81 | slot k is the byte shifted right by 6-2k and masked with 3 |
| Bytes.LittleEndian | test/fast_fake_camera.py:90 | the n-byte little-endian encoding of a value reads back as that value |
| Bytes.LittleEndianOfValue | test/fast_fake_camera.py:90 | encoding the value a byte string reads as gives back the same byte string |
| PackedFrame.PixelAt | include/frame_unpacker.hpp:17-25 | the value of pixel p is a 2-bit value taken from byte p/4 |
| PackedFrame.Encode | test/realistic_camera.py:439-458 | the packed frame has (n+3)/4 bytes, each pixel reads back at its index, and padding slots are zero |
| PackedFrame.Decode | test/simple_viewer.py:42-58 | the decoded pixels are the interleaved slots, truncated to the pixel count, each a 2-bit value |
| PackedFrame.DecodeEncode | test/realistic_camera.py:432-458 | decoding an encoded pixel sequence returns it unchanged |
| PackedFrame.EncodeDecode | test/simple_viewer.py:42-58 | a frame of the packed size with zero padding is the encoding of its own decoding |
| PackedFrame.LiteralExample | include/frame_unpacker.hpp:17-25 | pixels positive, negative, none, positive pack into the byte 0x61 and back |
| PackedFrame.SetPixel | test/demo_fake_camera.py:89-97 | an out-of-range coordinate leaves the frame unchanged; otherwise only the addressed pixel changes and it reads the new value |
| PackedFrame.UpdateSlotPixels | test/fake_camera_udp.py:68-75 | rewriting one slot of byte p/4 changes pixel p alone |
| PackedFrame.SetPixelTouchesOneByte | test/fake_camera.py:55-59 | set_pixel leaves every byte except byte index/4 unchanged |
| PackedFrame.DecodeSetPixel | test/fake_camera.py:44-59 | the decoded frame after set_pixel is the old decoding with that one pixel replaced |
| PackedFrame.PackFrame | test/realistic_camera.py:432-458 | each pixel encodes as negative if in the negative mask, else positive if in the positive mask, else none; padding is zero and value 3 never appears |
| PackedFrame.UnpackMasks | test/pro_viewer.py:122-148 | the masks exist iff the data covers the pixel count; the positive mask marks value 1 and the negative mask value 2 |
| PackedFrame.MasksDisjoint | test/pro_viewer.py:145-146 | no pixel is in both masks and an unused pixel is in neither |
| PackedFrame.MasksRoundTrip | test/realistic_camera.py:435-437 | unpacking a packed frame returns the negative mask, and the positive mask minus the negatives; disjoint masks come back unchanged |
| PackedFrame.GrayImage | test/simple_viewer.py:57-65 | the grey image exists iff the data covers the pixel count and has one entry per pixel |
| PackedFrame.GrayAgreesWithMasks | test/simple_viewer.py:60-62 | grey 255 marks exactly the positive pixels, 0 the negative ones, and 128 the rest, including unused |
| PackedFrame.Reshape | test/pro_viewer.py:142 | the row-major reshape puts pixel y*width+x at row y, column x |
| FrameUnpacker.BuildBaseTable | src/frame_unpacker.cpp:11-16 | the base table has one entry per byte and entry i is 4i |
| FrameUnpacker.New | src/frame_unpacker.cpp:7-22 | the unpacker's expected size is the configuration's two-channel frame size |
| FrameUnpacker.NewCorrected | include/frame_unpacker.hpp:27-28 | the corrected unpacker expects the 2-bit packed size |
| FrameUnpacker.Int16 | src/frame_unpacker.cpp:97-98 | the 16-bit cast lands in the signed 16-bit range and is congruent to its input modulo 65536 |
| FrameUnpacker.EventPixels | src/frame_unpacker.cpp:65-94 | the emitting pixels below a bound are listed in strictly increasing order and include every pixel that emits |
| FrameUnpacker.EventsBelowStep | src/frame_unpacker.cpp:79-104 | one more pixel adds one event exactly when that pixel is 01 or 10 and inside the frame |
| FrameUnpacker.ZeroByteAddsNothing | src/frame_unpacker.cpp:68-72 | a zero byte contributes no events, so skipping it changes nothing |
| FrameUnpacker.Unpack | src/frame_unpacker.cpp:37-113 | a short frame returns 0 and leaves the event list as it was; otherwise the events are those of the first expected-size bytes and the count is their number |
| FrameUnpacker.UnpackByte | src/frame_unpacker.cpp:74-105 | the inner loop over one byte's four pixels appends exactly that byte's events |
| FrameUnpacker.ShiftAndMaskIsPixel | src/frame_unpacker.cpp:79-81 | the shift 6-2k and mask 3 read pixel 4*byte+k |
| FrameUnpacker.TrailingBytesIgnoredEvents | src/frame_unpacker.cpp:65-66 | bytes past the expected size never affect the events |
| FrameUnpacker.EventFields | src/frame_unpacker.cpp:55-104 | each event has x = p mod width, y = p div width inside the frame, polarity true iff the value is 01, and timestamp frame number times the frame interval |
| FrameUnpacker.EventsInPixelOrder | src/frame_unpacker.cpp:65-104 | events appear in strictly increasing pixel-index order |
| FrameUnpacker.EventCount | src/frame_unpacker.cpp:112 | the number of events equals the number of positive or negative pixels in the decoded frame |
| FrameUnpacker.FullCoverage | src/frame_unpacker.cpp:65-94 | when the expected size covers every pixel, a pixel yields an event iff its value is 01 or 10 |
| FrameUnpacker.NoEventsPastFrame | src/frame_unpacker.cpp:91-94 | padding pixels past the pixel count never yield events |
| FrameUnpacker.AsWrittenSizeDropsPixels | src/frame_unpacker.cpp:44-65 | for a 2x2 frame [0x40] the code's expected size is 0 bytes, so the positive pixel at (0,0) is never reported |
| FrameUnpacker.CorrectedSizeCoversEveryPixel | include/frame_unpacker.hpp:27-28 | with the packed size every pixel with value 01 or 10 yields an event |
| FrameUnpacker.AsWrittenSizeCoversIff | src/frame_unpacker.cpp:44-65 | the code's expected size covers every pixel iff the pixel count is a multiple of eight |
| TcpReceiver.New | src/tcp_receiver.cpp:15-24 | a new receiver is disconnected with invalid sockets and zero counters |
| TcpReceiver.Recv | src/tcp_receiver.cpp:209-212 | a read returns between 1 and n bytes as the prefix of what is queued, or nothing when the peer closed or failed |
| TcpReceiver.ReceiveExact | src/tcp_receiver.cpp:204-229 | it succeeds iff enough bytes arrive; it then fills the buffer with the next bytes; on failure it disconnects; the byte counter grows by every byte received, including those before a failure |
| TcpReceiver.ChosenFrameSize | src/tcp_receiver.cpp:238-251 | with headers on and a header value h with 0 < h < 100,000,000 the frame size is h; in every other case, headers off or h out of range, it is the configured frame_size() |
| TcpReceiver.Resize | src/tcp_receiver.cpp:259 | resizing keeps the old prefix and zero-fills new bytes |
| TcpReceiver.ReceiveFrame | src/tcp_receiver.cpp:231-273 | when disconnected it reads nothing; success means a whole header and frame arrived, the buffer is the chosen-size frame and the frame counter grows by one; failure disconnects and leaves the frame counter unchanged |
| TcpReceiver.ReadHeader | src/tcp_receiver.cpp:241-251 | the header read succeeds iff header-size bytes arrive and yields the chosen frame size |
| TcpReceiver.Disconnect | src/tcp_receiver.cpp:174-197 | both sockets end invalid and the receiver disconnected; counters are kept |
| TcpReceiver.DisconnectIdempotent | src/tcp_receiver.cpp:174-197 | disconnecting twice equals disconnecting once |
| TcpReceiver.Connect | src/tcp_receiver.cpp:86-172 | connecting while connected succeeds and changes nothing; otherwise success iff the peer is accepted, and success zeroes both counters |
| TcpReceiver.MoveConstruct | src/tcp_receiver.cpp:31-42 | the new object takes the source's state and the source ends disconnected with invalid sockets |
| TcpReceiver.MoveAssign | src/tcp_receiver.cpp:44-58 | self-assignment changes nothing; otherwise the target takes the source's sockets, flag and counters and the source ends disconnected |
| Demux.BlocksCount | test/simple_viewer.py:148-150 | a stream cuts into length div size frames and leaves length mod size bytes |
| Demux.BlocksThenRemainder | test/simple_viewer.py:148-150 | the frames followed by the leftover are the stream itself |
| Demux.BlockContents | test/pro_viewer.py:463-465 | frame i is bytes i*size to i*size+size of the stream |
| Demux.BlocksOfUniform | test/simple_viewer.py:144-150 | a stream of whole frames cuts back into exactly those frames with nothing left over |
| Demux.BlocksAppend | test/simple_viewer.py:144-150 | cutting a longer stream equals cutting the prefix, then cutting the leftover followed by the new bytes |
| Demux.Extract | test/pro_viewer.py:463-465 | the slicing loop removes the stream's consecutive frames and leaves fewer than a frame's bytes |
| Demux.Step | test/simple_viewer.py:139-154 | an empty chunk closes the session and drops the buffer; otherwise the chunk is appended and every whole frame is extracted and counted |
| Demux.Run | test/simple_viewer.py:136-154 | over any chunking the frames are the stream cut into consecutive frames; the count equals their number; an empty chunk ends the session and drops the remainder |
| Demux.PiecesJoin | test/fake_camera_udp.py:139-143 | the pieces concatenate back to the input |
| Demux.PiecesCount | test/fake_camera_udp.py:139-143 | there are ceil(n/k) pieces, none empty, all at most k long and all but the last exactly k |
| Demux.PieceAt | test/fake_camera_udp.py:141 | piece i is the slice from i*k of length k, clamped at the end |
| Sender.CreateBatches | test/demo_fake_camera.py:203-209 | batch size 0 is an error and a negative size gives no batches; otherwise batch k joins frames k*B to k*B+B |
| Sender.BatchesJoin | test/demo_fake_camera.py:203-209 | the batches concatenate to the frames concatenated, and there are ceil(n/B) of them |
| Sender.BatchesFull | test/demo_fake_camera.py:206-208 | every batch but the last holds exactly B frames |
| Sender.Cyclic | test/fake_camera.py:156 | cyclic selection returns the indexed item inside the list |
| Sender.CyclicPeriod | test/fast_fake_camera.py:118 | cyclic selection repeats with the list's length as period |
| Sender.CycleRounds | test/demo_fake_camera.py:326 | q full rounds over the batches send q copies of their concatenation |
| Sender.ViewerSeesCyclicFrames | test/demo_fake_camera.py:326-330 | whole rounds of batches are cut by a receiver into exactly the cyclic sequence of frames with nothing left over |
| Sender.TargetFrames | test/demo_fake_camera.py:237-239 | the frame target is the least frame count whose bytes reach the byte target |
| Sender.FramesSentExact | test/demo_fake_camera.py:327-334 | when every batch holds whole frames, the frame counter times the frame size is the number of bytes sent |
| Sender.SendLoop | test/demo_fake_camera.py:313-334 | the bytes sent are the cyclic batches concatenated and the counters match them; the target is checked before each send, so no batch follows reaching it |
| Sender.SendOne | test/demo_fake_camera.py:326-334 | one send advances the batch index by one and keeps the counters consistent with what was sent |
| Sender.SendFrameUdp | test/fake_camera_udp.py:139-143 | datagrams are consecutive slices, none empty, at most the packet size, all but the last exactly that size, concatenating to the frame, ceil(len/size) of them |
| Sender.ValidateUdpArgs | test/fake_camera_udp.py:156-178 | fps at most 0 or packet size outside 1..65535 is rejected, fps first; otherwise the packet count covers the 230,400-byte frame with less than one packet to spare |
| Sender.PregenerateCount | test/fake_camera.py:129 | pre-generation makes twice the rate in frames, at most 500 |
| Canvas.PixelOf | test/fake_camera_udp.py:118-122 | a coordinate's value is its 2-bit slot, always a pixel value |
| Canvas.SetPixelOf | test/fake_camera.py:44-59 | after set_pixel the target coordinate reads the new value and every other in-bounds coordinate keeps its value |
| Canvas.SetPixelPadding | test/fake_camera.py:53-59 | set_pixel never touches padding slots |
| Canvas.Zeros | test/fake_camera.py:82 | the zeroed buffer has every pixel "no event" |
| Canvas.FillSpan | test/fake_camera.py:69-72 | filling columns lo..hi of a row sets exactly the in-bounds pixels of that span and nothing else |
| Circles.ISqrt | test/fake_camera.py:68 | the integer square root s satisfies s^2 <= m < (s+1)^2 |
| Circles.RootSpan | test/fake_camera.py:68-69 | d^2 <= m exactly for -s <= d <= s |
| Circles.DiskRow | test/fake_camera.py:65-72 | on row dy the span of width isqrt(r^2-dy^2) is exactly the row's pixels with dx^2+dy^2 <= r^2 |
| Circles.DiskBox | test/fake_camera_udp.py:99-100 | every disk pixel lies in the bounding box |
| Circles.DrawCircle | test/fake_camera.py:62-72 | draw_circle sets exactly the in-bounds pixels with dx^2+dy^2 <= r^2 and leaves the rest |
| Circles.CreateFrame | test/fake_camera.py:75-98 | the frame has 230,400 bytes; the negative disk is drawn last and wins on overlap; the rest is "no event" |
| Circles.DrawDiskBox | test/fake_camera_udp.py:99-124 | the clamped box scan sets exactly the disk pixels, and only previously empty ones when asked to keep existing events |
| Circles.ReadPixel | test/fake_camera_udp.py:118-122 | the shift and mask read returns the pixel's value |
| Circles.CreateMovingPatternFrame | test/fake_camera_udp.py:78-126 | the frame has 230,400 bytes; positive pixels survive the overlap because the negative disk fills only empty pixels |
| Text.FontShape | test/demo_fake_camera.py:41-86 | every glyph in the font is 7 rows of 5 columns |
| Text.BlankGlyph | test/demo_fake_camera.py:102-103 | the space glyph lights nothing |
| Text.Upper | test/demo_fake_camera.py:102 | lower-case ASCII letters map to their upper case; any other character that changes and lands in the font is one of the two non-ASCII letters upper-casing to I or S |
| Text.GlyphOf | test/demo_fake_camera.py:102-103 | a character renders as its upper-cased font glyph, or as the blank glyph when absent |
| Text.UnknownCharLightsNothing | test/demo_fake_camera.py:102-103 | a character absent from the font covers no pixel |
| Text.FillBlock | test/demo_fake_camera.py:108-112 | a scaled block sets exactly its in-bounds s x s pixels |
| Text.RenderChar | test/demo_fake_camera.py:100-112 | rendering a character sets exactly the in-bounds pixels its glyph covers at the scale and leaves the rest |
| Text.RenderText | test/demo_fake_camera.py:115-120 | character i is placed at start + 6*scale*i and the text sets exactly the pixels some character covers |
| Text.TextWidth | test/demo_fake_camera.py:123-125 | a non-empty text is (n-1)*6*s + 5*s wide, i.e. n*6*s - s |
| Text.TextExtent | test/demo_fake_camera.py:115-125 | every lit pixel lies within the text's width and 7*scale height |
| Text.BlinkPolarity | test/demo_fake_camera.py:180 | polarity is positive iff (i div 20) is even, else negative |
| Text.BlinkPeriod | test/demo_fake_camera.py:180 | blinking repeats every 40 frames |
| Text.CentredTextInFrame | test/demo_fake_camera.py:172-175 | centred text that fits lights only in-frame pixels |
| Text.CentredTextFrame | test/demo_fake_camera.py:172-182 | a text frame has 230,400 bytes and exactly the centred text's pixels lit |
| Text.CreateBlinkFrames | test/demo_fake_camera.py:170-185 | n frames, frame i showing the centred text in the blink polarity of i |
| Text.CreateStaticFrames | test/demo_fake_camera.py:188-200 | n identical frames showing the centred text in positive polarity |
| BitPlane.SetBit | test/fast_fake_camera.py:38-41 | or-ing 1 << (i mod 8) into byte i div 8 sets LSB-first bit i and no other |
| BitPlane.CircleChannel | test/fast_fake_camera.py:30-42 | bit i of the channel is set iff pixel i is inside the disk |
| BitPlane.CircleFrame | test/fast_fake_camera.py:61-64 | a frame is the positive channel followed by the negative channel, 1,048,576 bytes |
| BitPlane.AgreesWithDefaultConfig | test/fast_fake_camera.py:17-21 | the camera's geometry and layout match the converter defaults: LSB first, positive first, row-major, same sizes |
| BitPlane.Header | test/fast_fake_camera.py:89-90 | the header is four bytes reading little-endian as the frame size |
| BitPlane.HeaderAccepted | src/tcp_receiver.cpp:241-251 | a receiver expecting a 4-byte header takes this header's value as the frame size |
| BitPlane.CyclicDelivery | test/fast_fake_camera.py:117-126 | n sends cut back, at header plus frame size, into header plus frame k mod the frame count, with nothing left over |
| Viewer.Init | test/pro_viewer.py:69-105 | a new viewer is in the standard mode with a zero tick and zero counters |
| Viewer.AppendBounded | test/pro_viewer.py:105 | appending keeps at most 100 entries, ends with the new value, and evicts the oldest only when full |
| Viewer.HistoryKeepsLatest | test/pro_viewer.py:105-171 | the history after any appends is the latest min(n, 100) values in order |
| Viewer.MaskCounts | test/pro_viewer.py:155-157 | positive plus negative mask counts equal the number of event pixels |
| Viewer.ViewerCountMatchesConverter | test/pro_viewer.py:150-157 | the viewer's event count for a frame equals the converter's count of 01 and 10 pixels |
| Viewer.Stamp | test/pro_viewer.py:178-179 | a stamped surface holds the tick where the mask is set and its old value elsewhere |
| Viewer.ProcessFrame | test/pro_viewer.py:150-186 | the frame counters grow by one, the event counters by the mask counts, and the tick by one; surfaces are stamped; a new second appends the rate to the history and zeroes the per-second counters |
| Viewer.StampsMonotone | test/pro_viewer.py:177-179 | surface entries never decrease, and equal the new tick iff the pixel has that polarity |
| Viewer.ResetStats | test/pro_viewer.py:107-120 | counters are zeroed, the history emptied and the surfaces zero-filled; the tick and mode are kept |
| Viewer.ResetKeepsTicksIncreasing | test/pro_viewer.py:107-179 | after a reset the next tick is still past every old surface stamp |
| Viewer.HandleKey | test/pro_viewer.py:485-512 | q and Esc stop the viewer, 1-4 select a mode, r resets the statistics, space toggles pause; a screenshot before any displayed frame ends the session through the loop's error handler, and after one changes no state; other keys change nothing |
| Viewer.RenderStandard | test/pro_viewer.py:188-193 | background everywhere, positive colour on the positive mask, and negative colour on the negative mask, drawn last |
| Viewer.StandardViewOfFrame | test/pro_viewer.py:266-272 | the standard view colours each pixel by its 2-bit value, with unused shown as background |
| Viewer.RuntimeRoundTrip | test/pro_viewer.py:352-361 | the runtime label reads back as the elapsed seconds, with two colons from one hour and one colon below it |
| Viewer.RuntimeFields | test/pro_viewer.py:355-361 | the label ends in `:SS`, two digits holding `elapsed % 60`; from one hour on the `:MM` before it holds `(elapsed % 3600) // 60` with the hours in front, and below one hour the whole minutes stand in front; with the read-back value this fixes the label |
| Viewer.TwoDigits | test/pro_viewer.py:359 | `{n:02d}` is all digits, at least two, and exactly the two digits of `n` below 100 |
| Viewer.LongLabel | test/pro_viewer.py:358-359 | an H:MM:SS label reads back as its seconds |
| Viewer.ShortLabel | test/pro_viewer.py:360-361 | an M:SS label reads back as its seconds |

## Left out

- Sockets and OS calls are not modelled: bind, listen, accept, `setsockopt`, `sendall`, `sendto`, timeouts, reconnect sleeps and platform macros. `recv` is a sequence of results, and connection set-up is one outcome value.
- `src/main.cpp` is not modelled: it is orchestration between the receiver, the unpacker and the AEDAT4 writer.
- The dv-processing library is not modelled: `EventStore` and the network writer. Events are a plain sequence of records.
- OpenCV drawing and windows, the stats overlay and graph, and screenshots are not modelled: they are foreign library calls and file writes. The screenshot key's file write is not modelled; its state effect is (`Viewer.HandleKey`).
- Floating point is not modelled: heatmap decay, time-surface age blending, FPS and Gbps rates, and sin-based positions. Circle centres are parameters. The event rate arrives as an integer in `Viewer.SecondTick`.
- Time surfaces are modelled as natural-number ticks, not float32 arrays.
- Wall-clock reads, rate limiting and duration stops are not modelled. Whether a second has passed is passed in as `Viewer.SecondTick`.
- Display-rate gating (test/pro_viewer.py:467-471) is not modelled: which frames reach `process_frame` depends on time.
- The viewer's time-surface, heatmap and split render modes are not modelled; they are floating point or OpenCV.
- Signal handlers, `running` flags, argparse and printing are not modelled.
- The scroll and wave text modes are not modelled: they depend on sin positions and time. Only blink and static frames are.
- realistic_camera's scene, edge and noise generation is not modelled: it uses random numbers and OpenCV. `_pack_frame` is modelled as `PackedFrame.PackFrame`, and its cyclic indexing as `Sender.Cyclic`.
- The unpacker's `msb_first`, `positive_first` and `row_major` switches are not modelled: `unpack` never reads them. The verbose printing is not modelled either.
- TcpReceiver.ReadHeader: requires a header size of at most 4, for the reason given on the next line.
- TcpReceiver.ReceiveFrame: requires a header size of at most 4, like TcpReceiver.ReadHeader. The header is read into a 4-byte `uint32_t`, so a larger size overflows it. The header is read as little-endian, the sender's byte order, not host order.
- TcpReceiver.Recv: a read never returns more than requested, and a closed or failed connection is one result; errno values are not modelled.
- FrameUnpacker.EventFields: requires width and height of at most 32768. Above that, the `int16_t` casts of x and y wrap. `FrameUnpacker.Int16` models the wrap itself.
- Counter widths (`uint64_t`, `int`, Python integers) are unbounded here; wrap-around of the byte and frame counters is not modelled.
- Geometry.Config: `width`, `height` and the sizes derived from them are C++ `int` (include/config.hpp:20-26), and `receiveFrame` keeps its frame size in an `int` (src/tcp_receiver.cpp:238). The model uses unbounded naturals, so it drops the signed overflow of `width * height` for geometries above 2^31 - 1 pixels and the negative sizes that overflow would give. A header value only replaces the size below 100,000,000, which fits an `int`.
- Viewer.HandleKey: whether a frame has been displayed is an input flag of the session (`shown`), because display gating depends on the clock. The screenshot key is modelled only on the main branch; during a receive timeout (test/pro_viewer.py:514-520) only q, Esc and space are handled.
- Sender.SendLoop: requires at least one batch. The source divides by `len(batches)` and fails on an empty list.
- Sender.Cyclic: requires a non-empty list. `frames[frame_idx % len(frames)]` raises ZeroDivisionError on an empty list (test/fake_camera.py:156, reached with an empty list when a non-positive `--fps` makes `min(args.fps * 2, 500)` at test/fake_camera.py:129 at most 0; the same indexing at test/realistic_camera.py:532), and that error path is not modelled.
- BitPlane.CyclicDelivery: requires a non-empty frame list, as do `BitPlane.Unit` and `BitPlane.Sent`. With `--pregenerate 0`, `frames[frame_idx % num_frames]` raises ZeroDivisionError (test/fast_fake_camera.py:118), and that error path is not modelled.
- Circles.ISqrt: is the exact integer square root. Python's float `int(math.sqrt(m))` equals it only for m below 2^52, i.e. radius below 2^26. For larger m the float root can round up: m = (2^26+1)^2 - 1 gives 67108865 instead of 67108864. That widens a row span by one pixel on each side, which `Circles.DrawCircle`'s exact-disk contract does not model. Every caller draws radius 40.
- Sender.CreateBatches: a zero batch size is an error value, modelling Python's `range` rejecting step 0.
- Text.Upper: only ASCII letters and the two non-ASCII letters that upper-case into the font are mapped. Other Unicode upper-casing maps to characters outside the font, which render blank either way.
- The full font table is modelled, but `Text.FontShape` is proved by groups of characters.
- `pro_viewer.py` keeps `events_per_second` as a float field. The model keeps only what reaches the history.

## Findings

| source | as written | input that shows it | evidently intended | confidence | as-written member | corrected member |
|---|---|---|---|---|---|---|
| src/frame_unpacker.cpp:44-65 | the unpacker expects and scans `frame_size()` = `2 * floor(width*height/8)` bytes | a 2x2 frame `[0x40]`: the expected size is 0, so the positive pixel (0,0) is never reported | `(width*height+3)/4` bytes, as include/frame_unpacker.hpp:27-28 states, so every pixel is scanned | not executed | FrameUnpacker.AsWrittenSizeDropsPixels | FrameUnpacker.CorrectedSizeCoversEveryPixel |

=== FILE: bitplane.dfy ===
/** The high-volume sender's frame format, which is the converter's configured layout:
    2048x2048 pixels, one bit per pixel (LSB first: pixel `i` is bit `i % 8` of byte
    `i / 8`), a positive channel followed by a negative channel, each optionally preceded
    by a 4-byte little-endian size header. */
module BitPlane {
  import opened Bytes
  import opened Seqs
  import Geometry
  import Circles
  import Demux
  import TcpReceiver

  const Width: nat := 2048
  const Height: nat := 2048
  const Pixels: nat := Width * Height
  const Channels: nat := 2
  const BytesPerChannel: nat := Pixels / 8
  const FrameSize: nat := Channels * BytesPerChannel

  /** The sender's circle test `dx*dx + dy*dy <= radius*radius`. Unlike the 2-bit
      senders it does not look at the sign of the radius. */
  predicate InCircle(cx: int, cy: int, r: int, x: int, y: int)
  {
    Circles.Sq(x - cx) + Circles.Sq(y - cy) <= Circles.Sq(r)
  }

  /** Bit `i` of a 1-bit channel: bit `i % 8`, counted from the least significant end,
      of byte `i / 8`. */
  predicate BitOf(data: seq<byte>, i: int)
    requires 0 <= i < 8 * |data|
  {
    BitSet(data[i / 8], i % 8)
  }

  /** `b | (1 << k)` sets bit `k` and keeps the others. */
  lemma OrBit(b: byte, k: int, j: int)
    requires 0 <= k < 8 && 0 <= j < 8
    ensures BitSet(b | (1 << k), j) <==> j == k || BitSet(b, j)
  {
  }

  /** `data[i // 8] |= 1 << (i % 8)`: bit `i` is set and every other bit is kept. */
  function SetBit(data: seq<byte>, i: int): (d: seq<byte>)
    requires 0 <= i < 8 * |data|
    ensures |d| == |data|
    ensures BitOf(d, i)
    ensures forall j :: 0 <= j < 8 * |data| && j != i ==> BitOf(d, j) == BitOf(data, j)
  {
    var d := data[i / 8 := data[i / 8] | (1 << (i % 8))];
    OrBit(data[i / 8], i % 8, i % 8);
    forall j | 0 <= j < 8 * |data| && j != i
      ensures BitOf(d, j) == BitOf(data, j)
    {
      SetBitOther(data, i, j);
    }
    d
  }

  /** Bit `j` lives in another byte than bit `i`, or in the same byte at another
      position. */
  lemma SetBitOther(data: seq<byte>, i: int, j: int)
    requires 0 <= i < 8 * |data| && 0 <= j < 8 * |data| && j != i
    ensures BitOf(data[i / 8 := data[i / 8] | (1 << (i % 8))], j) == BitOf(data, j)
  {
    if j / 8 == i / 8 {
      assert j % 8 != i % 8 by {
        assert i == 8 * (i / 8) + i % 8 && j == 8 * (j / 8) + j % 8;
      }
      OrBit(data[i / 8], i % 8, j % 8);
    }
  }

  /** One row `y` of `create_circle_frame`: the pixels of the row inside the circle get
      their bit set, in column order. */
  method CircleRow(data: seq<byte>, y: nat, cx: int, cy: int, r: int) returns (d: seq<byte>)
    requires y < Height && |data| == BytesPerChannel
    requires forall i :: 0 <= i < Pixels ==>
               BitOf(data, i) == (i < y * Width && InCircle(cx, cy, r, i % Width, i / Width))
    ensures |d| == BytesPerChannel
    ensures forall i :: 0 <= i < Pixels ==>
              BitOf(d, i) == (i < (y + 1) * Width && InCircle(cx, cy, r, i % Width, i / Width))
  {
    d := data;
    var x := 0;
    while x < Width
      invariant 0 <= x <= Width && |d| == BytesPerChannel
      invariant forall i :: 0 <= i < Pixels ==>
                  BitOf(d, i) == (i < y * Width + x && InCircle(cx, cy, r, i % Width, i / Width))
    {
      var i := y * Width + x;
      Geometry.DivModUnique(i, Width, y, x);
      if InCircle(cx, cy, r, x, y) {
        d := SetBit(d, i);
      }
      x := x + 1;
    }
  }

  /** `create_circle_frame`: one channel whose bit `i` is set iff pixel `i` (row-major)
      lies in the circle. */
  method CircleChannel(cx: int, cy: int, r: int) returns (data: seq<byte>)
    ensures |data| == BytesPerChannel
    ensures forall i :: 0 <= i < Pixels ==> BitOf(data, i) == InCircle(cx, cy, r, i % Width, i / Width)
  {
    data := seq(BytesPerChannel, _ => 0);
    var y := 0;
    while y < Height
      invariant 0 <= y <= Height && |data| == BytesPerChannel
      invariant forall i :: 0 <= i < Pixels ==>
                  BitOf(data, i) == (i < y * Width && InCircle(cx, cy, r, i % Width, i / Width))
    {
      data := CircleRow(data, y, cx, cy, r);
      y := y + 1;
    }
  }

  /** One pre-generated frame: the positive circle's channel followed by the negative
      circle's channel. */
  method CircleFrame(cxPos: int, cyPos: int, cxNeg: int, cyNeg: int, r: int) returns (frame: seq<byte>)
    ensures |frame| == FrameSize
    ensures forall i :: 0 <= i < Pixels ==>
              BitOf(frame[..BytesPerChannel], i) == InCircle(cxPos, cyPos, r, i % Width, i / Width)
    ensures forall i :: 0 <= i < Pixels ==>
              BitOf(frame[BytesPerChannel..], i) == InCircle(cxNeg, cyNeg, r, i % Width, i / Width)
  {
    var pos := CircleChannel(cxPos, cyPos, r);
    var neg := CircleChannel(cxNeg, cyNeg, r);
    frame := pos + neg;
    assert frame[..BytesPerChannel] == pos;
    assert frame[BytesPerChannel..] == neg;
  }

  /** The sender's constants agree with the converter's default configuration: the same
      channel and frame sizes, LSB-first bits, positive channel first, row-major order. */
  lemma AgreesWithDefaultConfig()
    ensures Geometry.Default().width == Width && Geometry.Default().height == Height
    ensures Geometry.Default().BytesPerChannel() == BytesPerChannel == 524288
    ensures Geometry.Default().FrameSize() == FrameSize == 1048576
    ensures !Geometry.Default().msbFirst && Geometry.Default().positiveFirst && Geometry.Default().rowMajor
  {
    Geometry.DefaultSizes();
  }

  /** `struct.pack("<I", FRAME_SIZE)`: four bytes holding the frame size, least
      significant first. */
  function Header(): (h: seq<byte>)
    ensures |h| == 4 && LittleEndianValue(h) == FrameSize
  {
    LittleEndian(FrameSize, 4)
  }

  /** The converter configured with a 4-byte header takes the sender's header at its
      word and reads exactly one frame after it. */
  lemma HeaderAccepted()
    ensures var cfg := Geometry.Default().(hasHeader := true);
            TcpReceiver.HeaderLength(cfg) == 4 && TcpReceiver.ChosenFrameSize(cfg, Header()) == FrameSize
  {
  }

  /** What the sender writes for its `k`-th frame: the header if enabled, then
      `frames[k % len(frames)]`. */
  function Unit(frames: seq<seq<byte>>, withHeader: bool, k: nat): (u: seq<byte>)
    requires |frames| > 0
    ensures |u| == (if withHeader then 4 else 0) + |frames[k % |frames|]|
  {
    (if withHeader then Header() else []) + frames[k % |frames|]
  }

  /** The byte stream of the first `n` frames the sender writes. */
  function Sent(frames: seq<seq<byte>>, withHeader: bool, n: nat): seq<byte>
    requires |frames| > 0
  {
    Flatten(seq(n, k requires 0 <= k => Unit(frames, withHeader, k)))
  }

  /** A receiver cutting the sent stream into header-plus-frame units gets, for the `k`-th
      unit, the header (if enabled) and the pre-generated frame `k % len(frames)`:
      the frames cycle in order, and nothing is left over. */
  lemma CyclicDelivery(frames: seq<seq<byte>>, withHeader: bool, n: nat)
    requires |frames| > 0 && forall i :: 0 <= i < |frames| ==> |frames[i]| == FrameSize
    ensures var us := (if withHeader then 4 else 0) + FrameSize;
            && |Demux.Blocks(Sent(frames, withHeader, n), us)| == n
            && (forall k :: 0 <= k < n ==>
                  Demux.Blocks(Sent(frames, withHeader, n), us)[k]
                  == (if withHeader then Header() else []) + frames[k % |frames|])
            && Demux.Remainder(Sent(frames, withHeader, n), us) == []
  {
    var us := (if withHeader then 4 else 0) + FrameSize;
    var parts := seq(n, k requires 0 <= k => Unit(frames, withHeader, k));
    Demux.BlocksOfUniform(parts, us);
  }
}

=== FILE: bytes.dfy ===
/** Byte-level helpers: 2-bit slots, single bits, little-endian integers and sequence sums. */
module Bytes {

  /** One octet of a frame or of the wire stream. */
  type byte = bv8

  /** The shift that brings 2-bit slot `k` of a byte down to bits 1-0: slot 0 lives in
      bits 7-6, slot 1 in bits 5-4, slot 2 in bits 3-2 and slot 3 in bits 1-0. */
  function SlotShift(k: int): (s: int)
    requires 0 <= k < 4
    ensures s in {0, 2, 4, 6}
  {
    6 - 2 * k
  }

  /** The 2-bit value held in slot `k` of `b` (`(b >> shift) & 3`). */
  function Slot(b: byte, k: int): (v: int)
    requires 0 <= k < 4
    ensures 0 <= v < 4
  {
    if k == 0 then ((b >> 6) & 3) as int
    else if k == 1 then ((b >> 4) & 3) as int
    else if k == 2 then ((b >> 2) & 3) as int
    else (b & 3) as int
  }

  /** `b` with slot `k` replaced by `v` and the other three slots kept: the
      `(b & (~(0b11 << shift) & 0xFF)) | (v << shift)` update of the senders, with the
      mask `~(0b11 << shift) & 0xFF` written out for each of the four shifts. */
  function SetSlot(b: byte, k: int, v: int): (r: byte)
    requires 0 <= k < 4 && 0 <= v < 4
    ensures Slot(r, k) == v
    ensures forall j :: 0 <= j < 4 && j != k ==> Slot(r, j) == Slot(b, j)
  {
    var w := TwoBits(v);
    if k == 0 then (b & 0x3F) | (w << 6)
    else if k == 1 then (b & 0xCF) | (w << 4)
    else if k == 2 then (b & 0xF3) | (w << 2)
    else (b & 0xFC) | w
  }

  /** Packs four 2-bit values MSB-first: `(p0 << 6) | (p1 << 4) | (p2 << 2) | p3`. */
  function Pack4(p0: int, p1: int, p2: int, p3: int): (b: byte)
    requires 0 <= p0 < 4 && 0 <= p1 < 4 && 0 <= p2 < 4 && 0 <= p3 < 4
    ensures Slot(b, 0) == p0 && Slot(b, 1) == p1 && Slot(b, 2) == p2 && Slot(b, 3) == p3
  {
    (TwoBits(p0) << 6) | (TwoBits(p1) << 4) | (TwoBits(p2) << 2) | TwoBits(p3)
  }

  /** The byte holding the 2-bit value `v` in its low bits. */
  function TwoBits(v: int): (b: byte)
    requires 0 <= v < 4
    ensures b as int == v && b < 4
  {
    if v == 0 then 0 else if v == 1 then 1 else if v == 2 then 2 else 3
  }

  /** A byte is determined by its four slots. */
  lemma SlotsDetermineByte(a: byte, b: byte)
    requires forall k :: 0 <= k < 4 ==> Slot(a, k) == Slot(b, k)
    ensures a == b
  {
    assert Slot(a, 0) == Slot(b, 0);
    assert Slot(a, 1) == Slot(b, 1);
    assert Slot(a, 2) == Slot(b, 2);
    assert Slot(a, 3) == Slot(b, 3);
  }

  /** A zero byte holds four empty slots, and a byte whose slots are all empty is zero. */
  lemma ZeroByteSlots(b: byte)
    ensures b == 0 <==> (forall k :: 0 <= k < 4 ==> Slot(b, k) == 0)
  {
    if forall k :: 0 <= k < 4 ==> Slot(b, k) == 0 {
      SlotsDetermineByte(b, 0);
    }
  }

  /** Bit `j` of `b`, counting from the least significant bit (`(b >> j) & 1`). */
  predicate BitSet(b: byte, j: int)
    requires 0 <= j < 8
  {
    (b >> j) & 1 == 1
  }

  /** The generic form used by the converter and the viewers, `(b >> (6 - 2*k)) & 3`,
      reads the same slot. */
  lemma SlotIsShiftAndMask(b: byte, k: int)
    requires 0 <= k < 4
    ensures Slot(b, k) == ((b >> SlotShift(k)) & 3) as int
  {
    if k == 0 {
    } else if k == 1 {
    } else if k == 2 {
    } else {
    }
  }

  /** The byte whose unsigned value is `x`, counted up from zero in byte arithmetic. */
  function ByteOf(x: nat): (b: byte)
    requires x < 256
  {
    if x == 0 then 0 else ByteOf(x - 1) + 1
  }

  /** `ByteOf` is the inverse of reading a byte's unsigned value, in both directions. */
  lemma {:induction false} ByteOfValue(x: nat)
    requires x < 256
    ensures ByteOf(x) as int == x
  {
    if x > 0 {
      ByteOfValue(x - 1);
      assert ByteOf(x - 1) < 255;
    }
  }

  lemma ValueOfByte(b: byte)
    ensures b as int < 256 && ByteOf(b as int) == b
  {
    ByteOfValue(b as int);
    SameValueSameByte(ByteOf(b as int), b);
  }

  /** Two bytes with the same unsigned value are equal. */
  lemma SameValueSameByte(a: byte, b: byte)
    requires a as int == b as int
    ensures a == b
  {
  }

  /** Splitting `lo + 256 * hi` back into its low byte and the rest. */
  lemma DivMod256(lo: int, hi: int)
    requires 0 <= lo < 256 && hi >= 0
    ensures (lo + 256 * hi) % 256 == lo && (lo + 256 * hi) / 256 == hi
  {
  }

  /** 256 to the power `n`. */
  function Pow256(n: nat): (p: nat)
    ensures p >= 1
  {
    if n == 0 then 1 else 256 * Pow256(n - 1)
  }

  /** The unsigned value of a byte string read little-endian: byte 0 is least significant. */
  function LittleEndianValue(s: seq<byte>): (v: nat)
    ensures v < Pow256(|s|)
  {
    if |s| == 0 then 0 else s[0] as nat + 256 * LittleEndianValue(s[1..])
  }

  /** The `n`-byte little-endian encoding of `v`; `LittleEndian(v, 4)` is Python's
      `struct.pack("<I", v)`. */
  function LittleEndian(v: nat, n: nat): (s: seq<byte>)
    requires v < Pow256(n)
    ensures |s| == n
    ensures LittleEndianValue(s) == v
  {
    if n == 0 then []
    else
      var lo, hi := v % 256, v / 256;
      assert v == 256 * hi + lo;
      assert hi < Pow256(n - 1);
      ByteOfValue(lo);
      var rest := LittleEndian(hi, n - 1);
      var s := [ByteOf(lo)] + rest;
      assert s[1..] == rest;
      s
  }

  /** Decoding then re-encoding a byte string gives it back. */
  lemma {:induction false} LittleEndianOfValue(s: seq<byte>)
    ensures LittleEndian(LittleEndianValue(s), |s|) == s
  {
    if |s| > 0 {
      var v, tail := LittleEndianValue(s), LittleEndianValue(s[1..]);
      assert v == s[0] as nat + 256 * tail;
      LittleEndianOfValue(s[1..]);
      LittleEndianHead(s[0], tail, v, |s|);
      assert [s[0]] + s[1..] == s;
    }
  }

  /** Encoding `b + 256 * tail` puts `b` first and the encoding of `tail` after it. */
  lemma LittleEndianHead(b: byte, tail: nat, v: nat, n: nat)
    requires n > 0 && tail < Pow256(n - 1) && v == b as nat + 256 * tail
    ensures v < Pow256(n)
    ensures LittleEndian(v, n) == [b] + LittleEndian(tail, n - 1)
  {
    var lo := b as int;
    assert 0 <= lo < 256 && ByteOf(lo) == b by { ValueOfByte(b); }
    assert v < Pow256(n) by {
      assert tail + 1 <= Pow256(n - 1);
      assert 256 * (tail + 1) <= 256 * Pow256(n - 1);
    }
    assert v % 256 == lo && v / 256 == tail by { DivMod256(lo, tail); }
  }
}

=== FILE: canvas.dfy ===
/** Pixel-level view of a packed frame used by the synthetic-frame generators: the value
    at a coordinate, what one `set_pixel` does to every coordinate, and the zeroed frame
    the generators start from. */
module Canvas {
  import opened Bytes
  import opened PackedFrame
  import Geometry

  /** The value of pixel (`x`, `y`) of a `width`-wide frame, or 0 past the data. */
  function PixelOf(data: seq<byte>, width: nat, x: int, y: int): (v: int)
    ensures IsPixelValue(v)
  {
    var p := Geometry.Index(width, x, y);
    if 0 <= p < 4 * |data| then PixelAt(data, p) else 0
  }

  /** Whether `d` and `data` agree on every padding slot past the `width * height`
      pixels of the frame, and have the same length. */
  predicate SamePadding(d: seq<byte>, data: seq<byte>, width: nat, height: nat)
  {
    |d| == |data| &&
    forall q :: width * height <= q < 4 * |data| ==> PixelAt(d, q) == PixelAt(data, q)
  }

  /** `set_pixel` seen at any in-bounds coordinate: the target coordinate reads the new
      value and every other coordinate keeps its value. */
  lemma SetPixelOf(data: seq<byte>, width: nat, height: nat, x0: int, y0: int, polarity: int, x: int, y: int)
    requires width * height <= 4 * |data| && IsPixelValue(polarity)
    requires InBounds(width, height, x, y)
    ensures PixelOf(SetPixel(data, width, height, x0, y0, polarity), width, x, y)
         == if x == x0 && y == y0 then polarity else PixelOf(data, width, x, y)
  {
    Geometry.IndexInBounds(width, height, x, y);
    if InBounds(width, height, x0, y0) && (x != x0 || y != y0) {
      Geometry.IndexCoordinates(width, x, y);
      Geometry.IndexCoordinates(width, x0, y0);
    }
  }

  /** `set_pixel` never touches the padding slots. */
  lemma SetPixelPadding(data: seq<byte>, width: nat, height: nat, x0: int, y0: int, polarity: int)
    requires width * height <= 4 * |data| && IsPixelValue(polarity)
    ensures SamePadding(SetPixel(data, width, height, x0, y0, polarity), data, width, height)
  {
  }

  /** The zeroed frame a generator starts from (`bytearray(FRAME_SIZE)`). */
  function Zeros(n: nat): (data: seq<byte>)
    ensures |data| == n
    ensures forall p :: 0 <= p < 4 * n ==> PixelAt(data, p) == NoEvent
  {
    var data := seq(n, _ => 0 as byte);
    assert forall p :: 0 <= p < 4 * n ==> data[p / 4] == 0;
    ZeroSlots();
    data
  }

  /** Every slot of a zero byte is 0. */
  lemma ZeroSlots()
    ensures forall k :: 0 <= k < 4 ==> Slot(0, k) == 0
  {
    ZeroByteSlots(0);
  }

  /** Columns `lo .. hi` of row `y`, each in-bounds one set to `polarity` by `set_pixel`:
      the inner loop of `draw_circle` and of the text renderer's scaled blocks. */
  method FillSpan(data: seq<byte>, width: nat, height: nat, lo: int, hi: int, y: int, polarity: int)
    returns (d: seq<byte>)
    requires width * height <= 4 * |data| && IsPixelValue(polarity)
    ensures SamePadding(d, data, width, height)
    ensures forall x, y' :: InBounds(width, height, x, y') ==>
              PixelOf(d, width, x, y')
              == if y' == y && lo <= x <= hi then polarity else PixelOf(data, width, x, y')
  {
    d := data;
    var x := lo;
    while x < hi + 1
      invariant lo <= hi + 1 ==> lo <= x <= hi + 1
      invariant lo > hi + 1 ==> x == lo
      invariant SamePadding(d, data, width, height)
      invariant forall x', y' :: InBounds(width, height, x', y') ==>
                  PixelOf(d, width, x', y')
                  == if y' == y && lo <= x' < x then polarity else PixelOf(data, width, x', y')
    {
      if 0 <= x < width {
        var d0 := d;
        d := SetPixel(d, width, height, x, y, polarity);
        SetPixelPadding(d0, width, height, x, y, polarity);
        forall x', y' | InBounds(width, height, x', y')
          ensures PixelOf(d, width, x', y')
                  == if y' == y && lo <= x' < x + 1 then polarity else PixelOf(data, width, x', y')
        {
          SetPixelOf(d0, width, height, x, y, polarity, x', y');
        }
      }
      x := x + 1;
    }
  }
}

=== FILE: circles.dfy ===
/** Filled-circle rasterisation of the synthetic cameras. The TCP camera walks the rows
    of the circle and spans each with `int(sqrt(r² - dy²))`, overwriting; the UDP camera
    walks the clamped bounding box and tests `dx² + dy² <= r²`, and its negative circle
    only fills pixels that are still 0. Both fill exactly the in-bounds pixels of the
    closed disk as long as the span width is the exact integer square root, which the
    TCP camera's float `sqrt` gives for radii below 2^26; every camera draws radius 40. */
module Circles {
  import opened Bytes
  import opened PackedFrame
  import opened Canvas
  import Geometry

  /** `a * a`, by the recursion `(a + 1)² = a² + 2a + 1` in both directions from 0. */
  function Sq(a: int): int
    decreases if a < 0 then -a else a
  {
    if a == 0 then 0
    else if a > 0 then Sq(a - 1) + 2 * a - 1
    else Sq(a + 1) - 2 * a - 1
  }

  /** The recursion computes the product. */
  lemma {:induction false} SqIsProduct(a: int)
    ensures Sq(a) == a * a
    decreases if a < 0 then -a else a
  {
    if a > 0 {
      SqIsProduct(a - 1);
    } else if a < 0 {
      SqIsProduct(a + 1);
    }
  }

  /** A square does not see the sign. */
  lemma SqNeg(a: int)
    ensures Sq(-a) == Sq(a)
  {
    SqIsProduct(a);
    SqIsProduct(-a);
  }

  /** Squaring is monotone on non-negative numbers. */
  lemma {:induction false} SquareMono(a: int, b: int)
    requires 0 <= a <= b
    ensures Sq(a) <= Sq(b)
    decreases b - a
  {
    if a < b {
      SquareMono(a, b - 1);
    }
  }

  /** Whether (`x`, `y`) lies in the closed disk of radius `r` around (`cx`, `cy`):
      `dx² + dy² <= r²`. A negative radius gives an empty range of rows in both cameras,
      so no pixel. */
  predicate InDisk(cx: int, cy: int, r: int, x: int, y: int)
  {
    r >= 0 && Sq(x - cx) + Sq(y - cy) <= Sq(r)
  }

  /** The exact integer square root of `m`. Python's float `int(math.sqrt(m))` agrees
      with it for `m` below 2^52; above that the float root can round up to the next
      integer. */
  function ISqrt(m: nat): (s: nat)
    ensures Sq(s) <= m < Sq(s + 1)
  {
    if m == 0 then 0
    else
      var s := ISqrt(m - 1);
      assert Sq(s + 2) == Sq(s + 1) + 2 * (s + 2) - 1;
      if Sq(s + 1) <= m then s + 1 else s
  }

  /** When `s` is the integer square root of `m`, a square stays within `m` exactly for
      the offsets between `-s` and `s`. */
  lemma RootSpan(m: int, s: int, d: int)
    requires 0 <= s && Sq(s) <= m < Sq(s + 1)
    ensures Sq(d) <= m <==> -s <= d <= s
  {
    var a := if d < 0 then -d else d;
    SqNeg(d);
    assert Sq(d) == Sq(a);
    if a <= s {
      SquareMono(a, s);
    } else {
      SquareMono(s + 1, a);
    }
  }

  /** Row `cy + dy` of the disk (`|dy| <= r`) is the span `|x - cx| <= s`, where `s` is
      the integer square root of `r² - dy²`. */
  lemma DiskRow(cx: int, cy: int, r: int, dy: int, s: int, x: int)
    requires 0 <= r && -r <= dy <= r && 0 <= s
    requires Sq(s) <= Sq(r) - Sq(dy) < Sq(s + 1)
    ensures InDisk(cx, cy, r, x, cy + dy) <==> -s <= x - cx <= s
  {
    var m := Sq(r) - Sq(dy);
    RootSpan(m, s, x - cx);
    var y := cy + dy;
    assert y - cy == dy;
  }

  /** Row `cy + dy` of a disk lies within the radius, so `r² - dy²` is not negative. */
  lemma RowInRadius(r: int, dy: int)
    requires 0 <= r && -r <= dy <= r
    ensures Sq(dy) <= Sq(r)
  {
    var a := if dy < 0 then -dy else dy;
    SqNeg(dy);
    assert Sq(dy) == Sq(a);
    SquareMono(a, r);
  }

  /** A point of the disk is at most `r` rows and `r` columns from the centre. */
  lemma DiskBox(cx: int, cy: int, r: int, x: int, y: int)
    requires InDisk(cx, cy, r, x, y)
    ensures cy - r <= y <= cy + r && cx - r <= x <= cx + r
  {
    var a := if y < cy then cy - y else y - cy;
    var b := if x < cx then cx - x else x - cx;
    SqNeg(y - cy);
    SqNeg(x - cx);
    assert Sq(y - cy) == Sq(a) && Sq(x - cx) == Sq(b);
    SqNonNegative(a);
    SqNonNegative(b);
    if a > r {
      SquareMono(r + 1, a);
    }
    if b > r {
      SquareMono(r + 1, b);
    }
  }

  /** Squares are non-negative. */
  lemma SqNonNegative(a: int)
    ensures Sq(a) >= 0
  {
    SqIsProduct(a);
  }

  // ---------------------------------------------------------------------------
  // fake_camera.py: draw_circle
  // ---------------------------------------------------------------------------

  /** `draw_circle`: every in-bounds pixel of the disk becomes `polarity`, whatever it held;
      every other pixel and the padding keep their values. */
  method DrawCircle(data: seq<byte>, width: nat, height: nat, cx: int, cy: int, radius: int, polarity: int)
    returns (d: seq<byte>)
    requires width * height <= 4 * |data| && IsPixelValue(polarity)
    ensures SamePadding(d, data, width, height)
    ensures forall x, y :: InBounds(width, height, x, y) ==>
              PixelOf(d, width, x, y)
              == if InDisk(cx, cy, radius, x, y) then polarity else PixelOf(data, width, x, y)
  {
    d := data;
    var r2 := radius * radius;
    var dy := -radius;
    forall x, y | InDisk(cx, cy, radius, x, y)
      ensures cy - radius <= y
    {
      DiskBox(cx, cy, radius, x, y);
    }
    while dy < radius + 1
      invariant radius >= 0 ==> -radius <= dy <= radius + 1
      invariant radius < 0 ==> d == data
      invariant SamePadding(d, data, width, height)
      invariant forall x, y :: InBounds(width, height, x, y) ==>
                  PixelOf(d, width, x, y)
                  == if InDisk(cx, cy, radius, x, y) && y < cy + dy then polarity else PixelOf(data, width, x, y)
    {
      var y := cy + dy;
      if 0 <= y < height {
        SqIsProduct(radius);
        SqIsProduct(dy);
        RowInRadius(radius, dy);
        var dxMax := ISqrt(if r2 - dy * dy > 0 then r2 - dy * dy else 0);
        assert Sq(dxMax) <= Sq(radius) - Sq(dy) < Sq(dxMax + 1);
        var d0 := d;
        d := FillSpan(d, width, height, cx - dxMax, cx + dxMax, y, polarity);
        forall x, y' | InBounds(width, height, x, y')
          ensures PixelOf(d, width, x, y')
                  == if InDisk(cx, cy, radius, x, y') && y' < cy + dy + 1 then polarity else PixelOf(data, width, x, y')
        {
          if y' == y {
            DiskRow(cx, cy, radius, dy, dxMax, x);
          }
        }
      }
      dy := dy + 1;
    }
    forall x, y | InBounds(width, height, x, y) && InDisk(cx, cy, radius, x, y)
      ensures y < cy + dy
    {
      DiskBox(cx, cy, radius, x, y);
    }
  }

  /** `create_frame` of the TCP camera: a zeroed 1280x720 frame, a positive circle of
      radius 40 centred at (`cxPos`, 240) and then a negative one centred at (640, `cyNeg`).
      The negative circle is drawn last, so pixels in both read 2. The centres come from
      the sine motion and are parameters here. */
  method CreateFrame(cxPos: int, cyNeg: int) returns (frame: seq<byte>)
    ensures |frame| == 230400
    ensures forall x, y :: InBounds(1280, 720, x, y) ==>
              PixelOf(frame, 1280, x, y)
              == if InDisk(640, cyNeg, 40, x, y) then Negative
                 else if InDisk(cxPos, 240, 40, x, y) then Positive
                 else NoEvent
  {
    var data := Zeros(230400);
    var pos := DrawCircle(data, 1280, 720, cxPos, 720 / 3, 40, Positive);
    frame := DrawCircle(pos, 1280, 720, 1280 / 2, cyNeg, 40, Negative);
  }

  // ---------------------------------------------------------------------------
  // fake_camera_udp.py: create_moving_pattern_frame
  // ---------------------------------------------------------------------------

  /** One circle of `create_moving_pattern_frame`: the bounding box clamped to the frame,
      each pixel with `dx² + dy² <= r²` set to `polarity`; when `onlyEmpty` (the negative
      circle) a pixel is set only if its current value is 0. */
  method DrawDiskBox(data: seq<byte>, width: nat, height: nat, cx: int, cy: int, radius: int,
                     polarity: int, onlyEmpty: bool)
    returns (d: seq<byte>)
    requires width * height <= 4 * |data| && IsPixelValue(polarity)
    ensures SamePadding(d, data, width, height)
    ensures forall x, y :: InBounds(width, height, x, y) ==>
              PixelOf(d, width, x, y)
              == if InDisk(cx, cy, radius, x, y) && (!onlyEmpty || PixelOf(data, width, x, y) == NoEvent)
                 then polarity else PixelOf(data, width, x, y)
  {
    d := data;
    var yLo := if 0 > cy - radius then 0 else cy - radius;
    var yHi := if height < cy + radius + 1 then height else cy + radius + 1;
    var y := yLo;
    forall x, y' | InDisk(cx, cy, radius, x, y')
      ensures cy - radius <= y'
    {
      DiskBox(cx, cy, radius, x, y');
    }
    while y < yHi
      invariant yLo <= yHi ==> yLo <= y <= yHi
      invariant yLo > yHi ==> y == yLo
      invariant SamePadding(d, data, width, height)
      invariant forall x, y' :: InBounds(width, height, x, y') ==>
                  PixelOf(d, width, x, y')
                  == if InDisk(cx, cy, radius, x, y') && y' < y
                        && (!onlyEmpty || PixelOf(data, width, x, y') == NoEvent)
                     then polarity else PixelOf(data, width, x, y')
    {
      var d0 := d;
      d := DrawBoxRow(d, width, height, cx, cy, radius, y, polarity, onlyEmpty);
      forall x, y' | InBounds(width, height, x, y')
        ensures PixelOf(d, width, x, y')
                == if InDisk(cx, cy, radius, x, y') && y' < y + 1
                      && (!onlyEmpty || PixelOf(data, width, x, y') == NoEvent)
                   then polarity else PixelOf(data, width, x, y')
      {
      }
      y := y + 1;
    }
    forall x, y' | InBounds(width, height, x, y') && InDisk(cx, cy, radius, x, y')
      ensures yLo <= y' < y
    {
      DiskBox(cx, cy, radius, x, y');
    }
  }

  /** One row of the bounding box: columns clamped to the frame, each disk pixel of row
      `y` set (only if still 0 when `onlyEmpty`). */
  method DrawBoxRow(data: seq<byte>, width: nat, height: nat, cx: int, cy: int, radius: int,
                    y: int, polarity: int, onlyEmpty: bool)
    returns (d: seq<byte>)
    requires width * height <= 4 * |data| && IsPixelValue(polarity)
    requires 0 <= y < height
    ensures SamePadding(d, data, width, height)
    ensures forall x, y' :: InBounds(width, height, x, y') ==>
              PixelOf(d, width, x, y')
              == if y' == y && InDisk(cx, cy, radius, x, y)
                    && (!onlyEmpty || PixelOf(data, width, x, y) == NoEvent)
                 then polarity else PixelOf(data, width, x, y')
  {
    d := data;
    var xLo := if 0 > cx - radius then 0 else cx - radius;
    var xHi := if width < cx + radius + 1 then width else cx + radius + 1;
    var x := xLo;
    forall x' | InDisk(cx, cy, radius, x', y)
      ensures cx - radius <= x'
    {
      DiskBox(cx, cy, radius, x', y);
    }
    while x < xHi
      invariant xLo <= xHi ==> xLo <= x <= xHi
      invariant xLo > xHi ==> x == xLo
      invariant SamePadding(d, data, width, height)
      invariant forall x', y' :: InBounds(width, height, x', y') ==>
                  PixelOf(d, width, x', y')
                  == if y' == y && x' < x && InDisk(cx, cy, radius, x', y)
                        && (!onlyEmpty || PixelOf(data, width, x', y) == NoEvent)
                     then polarity else PixelOf(data, width, x', y')
    {
      d := BoxPixel(d, data, width, height, cx, cy, radius, x, y, polarity, onlyEmpty);
      x := x + 1;
    }
    forall x' | InBounds(width, height, x', y) && InDisk(cx, cy, radius, x', y)
      ensures x' < x
    {
      DiskBox(cx, cy, radius, x', y);
    }
  }

  /** One pixel of the bounding box: (`x`, `y`) is set when it lies in the disk (and, when
      `onlyEmpty`, still reads 0); the row's earlier columns are already done. */
  method BoxPixel(d0: seq<byte>, data: seq<byte>, width: nat, height: nat, cx: int, cy: int,
                  radius: int, x: int, y: int, polarity: int, onlyEmpty: bool)
    returns (d: seq<byte>)
    requires width * height <= 4 * |data| && IsPixelValue(polarity)
    requires InBounds(width, height, x, y) && cx - radius <= x <= cx + radius
    requires SamePadding(d0, data, width, height)
    requires forall x', y' :: InBounds(width, height, x', y') ==>
               PixelOf(d0, width, x', y')
               == if y' == y && x' < x && InDisk(cx, cy, radius, x', y)
                     && (!onlyEmpty || PixelOf(data, width, x', y) == NoEvent)
                  then polarity else PixelOf(data, width, x', y')
    ensures SamePadding(d, data, width, height)
    ensures forall x', y' :: InBounds(width, height, x', y') ==>
              PixelOf(d, width, x', y')
              == if y' == y && x' < x + 1 && InDisk(cx, cy, radius, x', y)
                    && (!onlyEmpty || PixelOf(data, width, x', y) == NoEvent)
                 then polarity else PixelOf(data, width, x', y')
  {
    d := d0;
    var dx := x - cx;
    var dy := y - cy;
    assert PixelOf(d0, width, x, y) == PixelOf(data, width, x, y);
    SqIsProduct(dx);
    SqIsProduct(dy);
    SqIsProduct(radius);
    if dx * dx + dy * dy <= radius * radius {
      assert InDisk(cx, cy, radius, x, y);
      var write := true;
      if onlyEmpty {
        var currentVal := ReadPixel(d0, width, height, x, y);
        write := currentVal == 0;
      }
      if write {
        d := SetPixel(d0, width, height, x, y, polarity);
        SetPixelPadding(d0, width, height, x, y, polarity);
        forall x', y' | InBounds(width, height, x', y')
          ensures PixelOf(d, width, x', y')
                  == if y' == y && x' < x + 1 && InDisk(cx, cy, radius, x', y)
                        && (!onlyEmpty || PixelOf(data, width, x', y) == NoEvent)
                     then polarity else PixelOf(data, width, x', y')
        {
          SetPixelOf(d0, width, height, x, y, polarity, x', y');
        }
      }
    }
  }

  /** The explicit read of `create_moving_pattern_frame`: the two bits at shift
      `(3 - index % 4) * 2` of byte `index // 4`. */
  method ReadPixel(data: seq<byte>, width: nat, height: nat, x: int, y: int) returns (v: int)
    requires width * height <= 4 * |data| && InBounds(width, height, x, y)
    ensures v == PixelOf(data, width, x, y)
  {
    Geometry.IndexInBounds(width, height, x, y);
    var pixelIndex := y * width + x;
    var byteIndex := pixelIndex / 4;
    var bitPosition := pixelIndex % 4;
    SlotIsShiftAndMask(data[byteIndex], bitPosition);
    v := ((data[byteIndex] >> ((3 - bitPosition) * 2)) & 3) as int;
  }

  /** `create_moving_pattern_frame`: a zeroed 1280x720 frame, the positive circle at
      (`cxPos`, 240), then the negative circle at (640, `cyNeg`) filling only pixels that
      are still 0. Pixels in both circles therefore stay positive, the opposite of the
      TCP camera's overlap rule. */
  method CreateMovingPatternFrame(cxPos: int, cyNeg: int) returns (frame: seq<byte>)
    ensures |frame| == 230400
    ensures forall x, y :: InBounds(1280, 720, x, y) ==>
              PixelOf(frame, 1280, x, y)
              == if InDisk(cxPos, 240, 40, x, y) then Positive
                 else if InDisk(640, cyNeg, 40, x, y) then Negative
                 else NoEvent
  {
    var data := Zeros(230400);
    var pos := DrawDiskBox(data, 1280, 720, cxPos, 720 / 3, 40, Positive, false);
    frame := DrawDiskBox(pos, 1280, 720, 1280 / 2, cyNeg, 40, Negative, true);
  }
}

=== FILE: demux.dfy ===
/** The viewers' receive loop: chunks from `recv` are appended to a byte buffer, and
    while the buffer holds at least `FRAME_SIZE` bytes the first `FRAME_SIZE` bytes are
    cut off as a frame. An empty chunk (the peer closed) ends the session. */
module Demux {
  import opened Bytes
  import opened Seqs
  import Geometry

  /** Reference definition: the stream cut into consecutive blocks of `fs` bytes, as
      many as are complete. */
  function Blocks<T>(s: seq<T>, fs: nat): (bs: seq<seq<T>>)
    requires fs > 0
    ensures forall i :: 0 <= i < |bs| ==> |bs[i]| == fs
    decreases |s|
  {
    if |s| < fs then [] else [s[..fs]] + Blocks(s[fs..], fs)
  }

  /** What is left of the stream after its complete blocks: fewer than `fs` bytes. */
  function Remainder<T>(s: seq<T>, fs: nat): (r: seq<T>)
    requires fs > 0
    ensures |r| < fs
    decreases |s|
  {
    if |s| < fs then s else Remainder(s[fs..], fs)
  }

  /** The number of complete blocks is `len // fs` and the remainder has `len % fs` bytes. */
  lemma {:induction false} BlocksCount<T>(s: seq<T>, fs: nat)
    requires fs > 0
    ensures |Blocks(s, fs)| * fs + |Remainder(s, fs)| == |s|
    ensures |Blocks(s, fs)| == |s| / fs && |Remainder(s, fs)| == |s| % fs
  {
    BlocksThenRemainder(s, fs);
    FlattenUniformLength(Blocks(s, fs), fs);
    Geometry.DivModUnique(|s|, fs, |Blocks(s, fs)|, |Remainder(s, fs)|);
  }

  /** The blocks followed by the remainder give back the stream, byte for byte. */
  lemma {:induction false} BlocksThenRemainder<T>(s: seq<T>, fs: nat)
    requires fs > 0
    ensures Flatten(Blocks(s, fs)) + Remainder(s, fs) == s
    decreases |s|
  {
    if |s| >= fs {
      var t := s[fs..];
      BlocksThenRemainder(t, fs);
      BlocksUnfold(s, fs);
      JoinSplit(s, fs, Flatten(Blocks(t, fs)), Remainder(t, fs));
    }
  }

  /** A stream of at least one block: its first block, then the blocks of the rest, and
      the remainder of the rest. */
  lemma BlocksUnfold<T>(s: seq<T>, fs: nat)
    requires fs > 0 && |s| >= fs
    ensures Flatten(Blocks(s, fs)) == s[..fs] + Flatten(Blocks(s[fs..], fs))
    ensures Remainder(s, fs) == Remainder(s[fs..], fs)
  {
    var bs := Blocks(s, fs);
    assert bs[0] == s[..fs] && bs[1..] == Blocks(s[fs..], fs);
  }

  /** Re-associating the prefix `s[..k]` with two parts that make up `s[k..]`. */
  lemma JoinSplit<T>(s: seq<T>, k: nat, b: seq<T>, c: seq<T>)
    requires k <= |s| && b + c == s[k..]
    ensures (s[..k] + b) + c == s
  {
    assert (s[..k] + b) + c == s[..k] + (b + c);
  }

  /** Block `i` is bytes `i*fs .. i*fs+fs` of the stream. */
  lemma {:induction false} BlockContents<T>(s: seq<T>, fs: nat, i: nat)
    requires fs > 0 && i < |Blocks(s, fs)|
    ensures i * fs + fs <= |s|
    ensures Blocks(s, fs)[i] == s[i * fs..i * fs + fs]
    decreases |s|
  {
    if i > 0 {
      BlockContents(s[fs..], fs, i - 1);
      assert fs + (i - 1) * fs == i * fs;
    }
  }

  /** Cutting the concatenation of parts that are each one block long gives back the
      parts, with nothing left over. */
  lemma {:induction false} BlocksOfUniform<T>(parts: seq<seq<T>>, fs: nat)
    requires fs > 0 && forall i :: 0 <= i < |parts| ==> |parts[i]| == fs
    ensures Blocks(Flatten(parts), fs) == parts
    ensures Remainder(Flatten(parts), fs) == []
  {
    if |parts| > 0 {
      BlocksOfUniform(parts[1..], fs);
      var s := Flatten(parts);
      assert s[..fs] == parts[0];
      assert s[fs..] == Flatten(parts[1..]);
    }
  }

  /** The stream cut into consecutive pieces of `k` items, the last one possibly
      shorter: the complete blocks, then the remainder unless it is empty. This is
      Python's `s[i:i+k] for i in range(0, len(s), k)`. */
  function Pieces<T>(s: seq<T>, k: nat): seq<seq<T>>
    requires k > 0
  {
    Blocks(s, k) + (if |Remainder(s, k)| > 0 then [Remainder(s, k)] else [])
  }

  /** The pieces give back the stream, there are `ceil(len/k)` of them, none is empty,
      all but the last hold exactly `k` items, and piece `i` is items `i*k ..` of the
      stream. */
  lemma PiecesProperties<T>(s: seq<T>, k: nat)
    requires k > 0
    ensures Flatten(Pieces(s, k)) == s
    ensures |Pieces(s, k)| == (|s| + k - 1) / k
    ensures forall i :: 0 <= i < |Pieces(s, k)| ==> 0 < |Pieces(s, k)[i]| <= k
    ensures forall i :: 0 <= i < |Pieces(s, k)| - 1 ==> |Pieces(s, k)[i]| == k
    ensures forall i :: 0 <= i < |Pieces(s, k)| ==>
              i * k < |s| && Pieces(s, k)[i] == s[i * k..if i * k + k <= |s| then i * k + k else |s|]
  {
    PiecesJoin(s, k);
    PiecesCount(s, k);
    forall i | 0 <= i < |Pieces(s, k)|
      ensures i * k < |s| && Pieces(s, k)[i] == s[i * k..if i * k + k <= |s| then i * k + k else |s|]
    {
      PieceAt(s, k, i);
    }
  }

  /** The pieces joined give back the stream. */
  lemma PiecesJoin<T>(s: seq<T>, k: nat)
    requires k > 0
    ensures Flatten(Pieces(s, k)) == s
  {
    var bs, rem := Blocks(s, k), Remainder(s, k);
    BlocksThenRemainder(s, k);
    if |rem| > 0 {
      FlattenAppend(bs, [rem]);
      assert Flatten([rem]) == rem + Flatten([rem][1..]);
    } else {
      assert Pieces(s, k) == bs;
    }
  }

  /** There are `ceil(len/k)` pieces; none is empty and all but the last are full. */
  lemma PiecesCount<T>(s: seq<T>, k: nat)
    requires k > 0
    ensures |Pieces(s, k)| == (|s| + k - 1) / k
    ensures forall i :: 0 <= i < |Pieces(s, k)| ==> 0 < |Pieces(s, k)[i]| <= k
    ensures forall i :: 0 <= i < |Pieces(s, k)| - 1 ==> |Pieces(s, k)[i]| == k
  {
    var bs, rem := Blocks(s, k), Remainder(s, k);
    BlocksCount(s, k);
    var extra := if |rem| > 0 then 1 else 0;
    Geometry.DivModUnique(|s| + k - 1, k, |bs| + extra, if |rem| > 0 then |rem| - 1 else k - 1);
  }

  /** Piece `i` is items `i*k .. i*k+k` of the stream, cut short at its end. */
  lemma PieceAt<T>(s: seq<T>, k: nat, i: nat)
    requires k > 0 && i < |Pieces(s, k)|
    ensures i * k < |s|
    ensures Pieces(s, k)[i] == s[i * k..if i * k + k <= |s| then i * k + k else |s|]
  {
    var bs, rem := Blocks(s, k), Remainder(s, k);
    if i < |bs| {
      BlockContents(s, k, i);
    } else {
      LastPiece(s, k);
    }
  }

  /** A non-empty remainder is the stream from position `|blocks| * k` on. */
  lemma LastPiece<T>(s: seq<T>, k: nat)
    requires k > 0
    ensures |Blocks(s, k)| * k + |Remainder(s, k)| == |s|
    ensures Remainder(s, k) == s[|Blocks(s, k)| * k..]
  {
    var bs, rem := Blocks(s, k), Remainder(s, k);
    BlocksThenRemainder(s, k);
    FlattenUniformLength(bs, k);
    assert |Flatten(bs)| == |bs| * k;
    assert s[|Flatten(bs)|..] == rem;
  }

  /** Piece `i` exists exactly when position `i*k` lies inside the stream. */
  lemma PieceExists<T>(s: seq<T>, k: nat, i: nat)
    requires k > 0
    ensures i < |Pieces(s, k)| <==> i * k < |s|
  {
    var c := |Pieces(s, k)|;
    assert c == (|s| + k - 1) / k by { PiecesCount(s, k); }
    var r := (|s| + k - 1) % k;
    assert |s| + k - 1 == c * k + r && 0 <= r < k;
    if i >= c {
      Geometry.MulMono(c, i, k);
    } else {
      Geometry.MulMono(i + 1, c, k);
      assert (i + 1) * k == i * k + k;
    }
  }

  /** Cutting a stream that continues with more bytes: the blocks of the first part come
      first, then the blocks of its remainder followed by the new bytes. This is what makes
      the output independent of how the stream was chunked. */
  lemma {:induction false} BlocksAppend<T>(s: seq<T>, c: seq<T>, fs: nat)
    requires fs > 0
    ensures Blocks(s + c, fs) == Blocks(s, fs) + Blocks(Remainder(s, fs) + c, fs)
    ensures Remainder(s + c, fs) == Remainder(Remainder(s, fs) + c, fs)
    decreases |s|
  {
    if |s| >= fs {
      assert (s + c)[..fs] == s[..fs];
      assert (s + c)[fs..] == s[fs..] + c;
      BlocksAppend(s[fs..], c, fs);
    }
  }

  /** The inner `while len(buffer) >= FRAME_SIZE` loop: frames are cut from the front of
      the buffer in order. The frames are the buffer's complete blocks and what remains is
      shorter than a frame. */
  method Extract(buffer: seq<byte>, fs: nat) returns (frames: seq<seq<byte>>, rest: seq<byte>)
    requires fs > 0
    ensures frames == Blocks(buffer, fs) && rest == Remainder(buffer, fs)
    ensures |rest| < fs
  {
    frames, rest := [], buffer;
    while |rest| >= fs
      invariant Blocks(buffer, fs) == frames + Blocks(rest, fs)
      invariant Remainder(buffer, fs) == Remainder(rest, fs)
      decreases |rest|
    {
      var frame := rest[..fs];
      rest := rest[fs..];
      frames := frames + [frame];
    }
  }

  /** The viewer's loop state: the pending buffer, the frames cut so far and
      `frame_count`. */
  datatype Session = Session(buffer: seq<byte>, frames: seq<seq<byte>>, frameCount: nat, closed: bool)

  /** The stream a list of `recv` results carries: the chunks before the first empty one. */
  function StreamOf(chunks: seq<seq<byte>>): seq<byte>
  {
    if |chunks| == 0 || |chunks[0]| == 0 then [] else chunks[0] + StreamOf(chunks[1..])
  }

  /** Whether the list of `recv` results contains a close (an empty chunk). */
  predicate HasClose(chunks: seq<seq<byte>>)
  {
    exists i :: 0 <= i < |chunks| && |chunks[i]| == 0
  }

  /** One pass of the receive loop. After a close nothing happens. An empty chunk ends the
      session and the bytes still buffered are dropped. Otherwise the chunk is appended,
      the complete frames are cut and `frame_count` grows by their number. */
  method Step(st: Session, chunk: seq<byte>, fs: nat) returns (st': Session)
    requires fs > 0
    ensures st.closed ==> st' == st
    ensures !st.closed && |chunk| == 0 ==> st' == st.(buffer := [], closed := true)
    ensures !st.closed && |chunk| > 0 ==>
              && !st'.closed
              && st'.frames == st.frames + Blocks(st.buffer + chunk, fs)
              && st'.buffer == Remainder(st.buffer + chunk, fs)
              && st'.frameCount == st.frameCount + |Blocks(st.buffer + chunk, fs)|
    ensures |st'.buffer| < fs || st'.buffer == st.buffer
  {
    if st.closed {
      return st;
    }
    if |chunk| == 0 {
      return st.(buffer := [], closed := true);
    }
    var buffer := st.buffer + chunk;
    var frames, rest := Extract(buffer, fs);
    st' := Session(rest, st.frames + frames, st.frameCount + |frames|, false);
  }

  /** A receive session over a list of `recv` results, starting from an empty buffer. */
  method Run(chunks: seq<seq<byte>>, fs: nat) returns (st: Session)
    requires fs > 0
    ensures st.frames == Blocks(StreamOf(chunks), fs)
    ensures st.frameCount == |st.frames|
    ensures st.closed <==> HasClose(chunks)
    ensures st.closed ==> st.buffer == []
    ensures !st.closed ==> st.buffer == Remainder(StreamOf(chunks), fs)
  {
    st := Session([], [], 0, false);
    var i := 0;
    assert chunks[..0] == [] && chunks[0..] == chunks;
    while i < |chunks|
      invariant 0 <= i <= |chunks|
      invariant Received(chunks, i, st, fs)
    {
      st := ReceiveOne(chunks, i, st, fs);
      i := i + 1;
    }
    assert chunks[..|chunks|] == chunks;
  }

  /** The loop state after the first `i` results: closed exactly when one of them was a
      close, then with an empty buffer and nothing further in the stream; otherwise the
      frames and buffer are the blocks and remainder of the stream so far. */
  predicate Received(chunks: seq<seq<byte>>, i: nat, st: Session, fs: nat)
    requires i <= |chunks| && fs > 0
  {
    && (st.closed <==> HasClose(chunks[..i]))
    && (!st.closed ==> StreamOf(chunks) == StreamOf(chunks[..i]) + StreamOf(chunks[i..]))
    && (st.closed ==> StreamOf(chunks) == StreamOf(chunks[..i]))
    && st.frames == Blocks(StreamOf(chunks[..i]), fs)
    && st.frameCount == |st.frames|
    && (st.closed ==> st.buffer == [])
    && (!st.closed ==> st.buffer == Remainder(StreamOf(chunks[..i]), fs))
  }

  /** One pass of the receive loop keeps the loop state in step with the results read. */
  method ReceiveOne(chunks: seq<seq<byte>>, i: nat, st: Session, fs: nat) returns (st': Session)
    requires i < |chunks| && fs > 0 && Received(chunks, i, st, fs)
    ensures Received(chunks, i + 1, st', fs)
  {
    StreamOfStep(chunks, i);
    if !st.closed && |chunks[i]| > 0 {
      BlocksAppend(StreamOf(chunks[..i]), chunks[i], fs);
    }
    st' := Step(st, chunks[i], fs);
  }

  /** How the stream and the close flag grow by one `recv` result. */
  lemma {:induction false} StreamOfStep(chunks: seq<seq<byte>>, i: nat)
    requires i < |chunks|
    ensures HasClose(chunks[..i + 1]) <==> HasClose(chunks[..i]) || |chunks[i]| == 0
    ensures !HasClose(chunks[..i]) ==>
              StreamOf(chunks) == StreamOf(chunks[..i]) + StreamOf(chunks[i..])
    ensures !HasClose(chunks[..i]) && |chunks[i]| > 0 ==>
              StreamOf(chunks[..i + 1]) == StreamOf(chunks[..i]) + chunks[i]
    ensures !HasClose(chunks[..i]) && |chunks[i]| == 0 ==>
              StreamOf(chunks) == StreamOf(chunks[..i + 1]) == StreamOf(chunks[..i])
    ensures HasClose(chunks[..i]) ==> StreamOf(chunks[..i + 1]) == StreamOf(chunks[..i])
  {
    assert chunks[..i + 1][..i] == chunks[..i];
    if HasClose(chunks[..i]) {
      StreamOfPrefix(chunks[..i + 1], i);
    } else {
      StreamOfSplit(chunks, i);
      StreamOfSplit(chunks[..i + 1], i);
      assert chunks[..i + 1][i..] == [chunks[i]];
      assert chunks[i..][1..] == chunks[i + 1..];
      if |chunks[i]| > 0 {
        assert StreamOf([chunks[i]]) == chunks[i] + StreamOf([chunks[i]][1..]);
      }
    }
  }

  /** Splitting the results before a close splits the stream. */
  lemma {:induction false} StreamOfSplit(chunks: seq<seq<byte>>, i: nat)
    requires i <= |chunks| && !HasClose(chunks[..i])
    ensures StreamOf(chunks) == StreamOf(chunks[..i]) + StreamOf(chunks[i..])
  {
    if i > 0 {
      assert |chunks[0]| > 0 by { assert chunks[..i][0] == chunks[0]; }
      assert chunks[1..][..i - 1] == chunks[..i][1..];
      StreamOfSplit(chunks[1..], i - 1);
      assert chunks[1..][i - 1..] == chunks[i..];
    } else {
      assert chunks[..0] == [];
      assert chunks[0..] == chunks;
    }
  }

  /** Once a close occurs among the first `i` results, results after them add nothing. */
  lemma {:induction false} StreamOfPrefix(chunks: seq<seq<byte>>, i: nat)
    requires i <= |chunks| && HasClose(chunks[..i])
    ensures StreamOf(chunks) == StreamOf(chunks[..i])
  {
    if |chunks[0]| > 0 {
      var tail := chunks[1..];
      assert HasClose(tail[..i - 1]) by {
        var j :| 0 <= j < i && |chunks[..i][j]| == 0;
        assert j > 0;
        assert tail[..i - 1][j - 1] == chunks[..i][j];
      }
      StreamOfPrefix(tail, i - 1);
      assert StreamOf(chunks[..i]) == chunks[0] + StreamOf(tail[..i - 1]) by {
        assert chunks[..i][0] == chunks[0];
        assert chunks[..i][1..] == tail[..i - 1];
      }
    }
  }
}

=== FILE: geometry.dfy ===
/** Frame geometry of the converter's configuration record and the pixel-index arithmetic
    shared by every sender and receiver. */
module Geometry {

  /** The converter's configuration record, reduced to the fields the frame path reads.
      Socket addresses, ports, the receive-buffer size and the statistics interval only
      feed socket set-up and printing and are not part of this model. */
  datatype Config = Config(
    width: nat,
    height: nat,
    hasHeader: bool,
    headerSize: nat,
    msbFirst: bool,
    positiveFirst: bool,
    rowMajor: bool,
    frameIntervalUs: int)
  {
    /** Pixels in one polarity channel (`pixels_per_channel()`); the unpacker's
        `total_pixels()` is the same count. */
    function PixelsPerChannel(): nat
    {
      width * height
    }

    /** Bytes of one 1-bit-per-pixel channel, rounded down (`bytes_per_channel()`). */
    function BytesPerChannel(): (n: nat)
      ensures 8 * n <= PixelsPerChannel() < 8 * n + 8
    {
      PixelsPerChannel() / 8
    }

    /** Bytes of one frame: two channels (`frame_size()`). The result is even and
        four times it falls within eight pixels below the pixel count. */
    function FrameSize(): (n: nat)
      ensures n % 2 == 0
      ensures 4 * n <= PixelsPerChannel() < 4 * n + 8
    {
      2 * BytesPerChannel()
    }
  }

  /** The configuration's compiled-in defaults. */
  function Default(): Config
  {
    Config(width := 2048, height := 2048, hasHeader := false, headerSize := 4,
           msbFirst := false, positiveFirst := true, rowMajor := true, frameIntervalUs := 2000)
  }

  /** Bytes needed for `n` pixels at 2 bits each, `(n + 3) / 4`: the smallest byte count
      whose four slots per byte cover every pixel. */
  function PackedSize(n: nat): (s: nat)
    ensures 4 * s >= n && 4 * s < n + 4
  {
    (n + 3) / 4
  }

  /** The converter's two-channel size equals the 2-bit packed size exactly when the
      pixel count is a multiple of eight. */
  lemma FrameSizeIsPackedSizeIff(c: Config)
    ensures c.FrameSize() == PackedSize(c.PixelsPerChannel()) <==> c.PixelsPerChannel() % 8 == 0
  {
    var n := c.PixelsPerChannel();
    var q, r := n / 8, n % 8;
    assert n == 8 * q + r;
    assert c.FrameSize() == 2 * q;
    assert PackedSize(n) == (8 * q + r + 3) / 4;
    if r == 0 {
      assert PackedSize(n) == 2 * q;
    } else {
      assert PackedSize(n) > 2 * q;
    }
  }

  /** The default 2048x2048 configuration has 524,288-byte channels and 1,048,576-byte
      frames, and a 1280x720 geometry gives the 230,400-byte frames the senders use,
      which is also its 2-bit packed size. By default no size header is expected, and an
      enabled header is four bytes long. */
  lemma DefaultSizes()
    ensures !Default().hasHeader && Default().headerSize == 4
    ensures Default().BytesPerChannel() == 524288
    ensures Default().FrameSize() == 1048576
    ensures Default().(width := 1280, height := 720).FrameSize() == 230400
    ensures PackedSize(1280 * 720) == 230400
  {
  }

  /** Row-major pixel index of column `x` in row `y` (`y * WIDTH + x`). */
  function Index(width: nat, x: int, y: int): int
  {
    y * width + x
  }

  /** An in-bounds coordinate has an index below the pixel count. */
  lemma IndexInBounds(width: nat, height: nat, x: int, y: int)
    requires 0 <= x < width && 0 <= y < height
    ensures 0 <= Index(width, x, y) < width * height
  {
    assert y * width <= (height - 1) * width;
  }

  /** The index of an in-bounds coordinate gives the coordinate back:
      `index % width == x` and `index / width == y`. */
  lemma IndexCoordinates(width: nat, x: int, y: int)
    requires 0 <= x < width && 0 <= y
    ensures Index(width, x, y) % width == x
    ensures Index(width, x, y) / width == y
  {
    var p := Index(width, x, y);
    var q, r := p / width, p % width;
    assert (q - y) * width == x - r;
    SmallMultipleIsZero(q - y, width);
  }

  /** `q` and `r` are the floor quotient and the remainder of `n` by `d > 0` as soon as
      `n == q * d + r` with `0 <= r < d`. */
  lemma DivModUnique(n: int, d: int, q: int, r: int)
    requires d > 0 && 0 <= r < d && n == q * d + r
    ensures n / d == q && n % d == r
  {
    var q', r' := n / d, n % d;
    assert (q - q') * d == r' - r;
    SmallMultipleIsZero(q - q', d);
  }

  /** Multiplying by a non-negative factor keeps the order. */
  lemma MulMono(a: int, b: int, c: int)
    requires a <= b && c >= 0
    ensures a * c <= b * c
  {
    assert b * c - a * c == (b - a) * c;
  }

  /** A multiple of `w` strictly between `-w` and `w` is zero. */
  lemma SmallMultipleIsZero(k: int, w: int)
    requires w > 0 && -w < k * w < w
    ensures k == 0
  {
    if k >= 1 {
      assert false;
    } else if k <= -1 {
      assert false;
    }
  }

  /** Every pixel index below the pixel count splits into an in-bounds coordinate. */
  lemma CoordinatesOfIndex(width: nat, height: nat, p: int)
    requires 0 <= p < width * height
    ensures width > 0
    ensures 0 <= p % width < width && 0 <= p / width < height
    ensures Index(width, p % width, p / width) == p
  {
  }
}

=== FILE: packed_frame.dfy ===
/** The 2-bit packed event-frame format used by every sender and viewer: each pixel is
    two bits, four pixels per byte, MSB-first, pixels in row-major order. Pixel values
    are 0 (no event), 1 (positive), 2 (negative) and 3 (unused). */
module PackedFrame {
  import opened Bytes
  import opened Wrappers
  import Geometry

  const NoEvent := 0
  const Positive := 1
  const Negative := 2
  const Unused := 3

  /** A 2-bit pixel value. */
  predicate IsPixelValue(v: int)
  {
    0 <= v < 4
  }

  /** Every entry of a pixel list is a 2-bit value. */
  predicate ValidPixels(px: seq<int>)
  {
    forall i :: 0 <= i < |px| ==> IsPixelValue(px[i])
  }

  /** The value of pixel `p` of a packed frame: slot `p % 4` of byte `p / 4`. */
  function PixelAt(data: seq<byte>, p: int): (v: int)
    requires 0 <= p < 4 * |data|
    ensures IsPixelValue(v)
  {
    Slot(data[p / 4], p % 4)
  }

  /** Pixel `i` of a pixel list, or 0 for the padding slots past its end. */
  function PixelOrPad(px: seq<int>, i: int): (v: int)
    requires ValidPixels(px)
    ensures IsPixelValue(v)
  {
    if 0 <= i < |px| then px[i] else 0
  }

  /** The byte holding pixels `4j .. 4j+3` of a pixel list, padding with 0. */
  function PackedByte(px: seq<int>, j: int): byte
    requires ValidPixels(px)
  {
    Pack4(PixelOrPad(px, 4 * j), PixelOrPad(px, 4 * j + 1), PixelOrPad(px, 4 * j + 2), PixelOrPad(px, 4 * j + 3))
  }

  /** Slot `p % 4` of the byte packed for group `p / 4` holds pixel `p`. */
  lemma PackedBytePixel(px: seq<int>, p: int)
    requires ValidPixels(px) && p >= 0
    ensures Slot(PackedByte(px, p / 4), p % 4) == PixelOrPad(px, p)
  {
    var j, k := p / 4, p % 4;
    assert p == 4 * j + k;
  }

  /** Packs a pixel list into bytes: each group of four pixels goes MSB-first into one
      byte, and the unused slots of the last byte are 0 (`_pack_frame`'s padding and
      grouping). Every pixel reads back at its index and every padding slot reads 0. */
  function Encode(px: seq<int>): (data: seq<byte>)
    requires ValidPixels(px)
    ensures |data| == Geometry.PackedSize(|px|)
    ensures forall p :: 0 <= p < |px| ==> PixelAt(data, p) == px[p]
    ensures forall p :: |px| <= p < 4 * |data| ==> PixelAt(data, p) == NoEvent
  {
    var n := Geometry.PackedSize(|px|);
    var data := seq(n, j requires 0 <= j < n => PackedByte(px, j));
    assert forall p :: 0 <= p < 4 * n ==> PixelAt(data, p) == PixelOrPad(px, p) by {
      forall p | 0 <= p < 4 * n
        ensures PixelAt(data, p) == PixelOrPad(px, p)
      {
        PackedBytePixel(px, p);
      }
    }
    data
  }

  /** The first `n` pixels of a packed frame, in index order (the viewers' unpacking
      followed by truncation to `WIDTH * HEIGHT`). */
  function Decode(data: seq<byte>, n: nat): (px: seq<int>)
    requires n <= 4 * |data|
    ensures |px| == n && ValidPixels(px)
  {
    seq(n, p requires 0 <= p < n => PixelAt(data, p))
  }

  /** Decoding an encoded pixel list gives it back. */
  lemma DecodeEncode(px: seq<int>)
    requires ValidPixels(px)
    ensures Decode(Encode(px), |px|) == px
  {
  }

  /** A frame of the packed size whose padding slots are 0 is the encoding of its own
      pixels: the format has no other degrees of freedom. */
  lemma EncodeDecode(data: seq<byte>, n: nat)
    requires |data| == Geometry.PackedSize(n)
    requires forall p :: n <= p < 4 * |data| ==> PixelAt(data, p) == NoEvent
    ensures Encode(Decode(data, n)) == data
  {
    var px := Decode(data, n);
    var e := Encode(px);
    forall j | 0 <= j < |data|
      ensures e[j] == data[j]
    {
      forall k | 0 <= k < 4
        ensures Slot(e[j], k) == Slot(data[j], k)
      {
        var p := 4 * j + k;
        assert p / 4 == j && p % 4 == k;
        assert PixelAt(e, p) == PixelAt(data, p);
      }
      SlotsDetermineByte(e[j], data[j]);
    }
  }

  /** The four pixels [1, 2, 0, 1] pack into the single byte 0x61 (01 10 00 01), and
      that byte unpacks to them. */
  lemma LiteralExample()
    ensures Encode([1, 2, 0, 1]) == [0x61]
    ensures Decode([0x61], 4) == [1, 2, 0, 1]
  {
    assert Encode([1, 2, 0, 1])[0] == 0x61;
  }

  /** Whether column `x` of row `y` lies inside a `width` x `height` frame. */
  predicate InBounds(width: nat, height: nat, x: int, y: int)
  {
    0 <= x < width && 0 <= y < height
  }

  /** The senders' `set_pixel`: an out-of-range coordinate is ignored; otherwise the 2-bit
      slot of pixel `y * width + x` becomes `polarity` and every other pixel, including the
      three sharing its byte, keeps its value. */
  function SetPixel(data: seq<byte>, width: nat, height: nat, x: int, y: int, polarity: int): (r: seq<byte>)
    requires width * height <= 4 * |data|
    requires IsPixelValue(polarity)
    ensures |r| == |data|
    ensures !InBounds(width, height, x, y) ==> r == data
    ensures InBounds(width, height, x, y) ==>
              0 <= Geometry.Index(width, x, y) < width * height &&
              PixelAt(r, Geometry.Index(width, x, y)) == polarity
    ensures forall q :: 0 <= q < 4 * |data| && q != Geometry.Index(width, x, y) ==> PixelAt(r, q) == PixelAt(data, q)
  {
    if x < 0 || x >= width || y < 0 || y >= height then data
    else
      var p := Geometry.Index(width, x, y);
      Geometry.IndexInBounds(width, height, x, y);
      UpdateSlotPixels(data, p, polarity);
      data[p / 4 := SetSlot(data[p / 4], p % 4, polarity)]
  }

  /** Rewriting the slot of pixel `p` changes pixel `p` and no other pixel. */
  lemma UpdateSlotPixels(data: seq<byte>, p: int, v: int)
    requires 0 <= p < 4 * |data| && IsPixelValue(v)
    ensures var r := data[p / 4 := SetSlot(data[p / 4], p % 4, v)];
      PixelAt(r, p) == v &&
      forall q :: 0 <= q < 4 * |data| && q != p ==> PixelAt(r, q) == PixelAt(data, q)
  {
    var r := data[p / 4 := SetSlot(data[p / 4], p % 4, v)];
    forall q | 0 <= q < 4 * |data| && q != p
      ensures PixelAt(r, q) == PixelAt(data, q)
    {
      if q / 4 == p / 4 {
        assert q % 4 != p % 4;
      }
    }
  }

  /** `set_pixel` changes at most the one byte holding the pixel. */
  lemma SetPixelTouchesOneByte(data: seq<byte>, width: nat, height: nat, x: int, y: int, polarity: int)
    requires width * height <= 4 * |data|
    requires IsPixelValue(polarity)
    ensures forall i :: 0 <= i < |data| && i != Geometry.Index(width, x, y) / 4 ==>
              SetPixel(data, width, height, x, y, polarity)[i] == data[i]
  {
  }

  /** Setting a pixel of a decoded frame is a single update of the pixel list. */
  lemma DecodeSetPixel(data: seq<byte>, width: nat, height: nat, x: int, y: int, polarity: int)
    requires width * height <= 4 * |data|
    requires IsPixelValue(polarity)
    requires InBounds(width, height, x, y)
    ensures Geometry.Index(width, x, y) < width * height
    ensures Decode(SetPixel(data, width, height, x, y, polarity), width * height)
         == Decode(data, width * height)[Geometry.Index(width, x, y) := polarity]
  {
    Geometry.IndexInBounds(width, height, x, y);
  }

  /** The value `_pack_frame` gives a pixel: the negative mask is assigned last, so it wins. */
  function Classify(pos: bool, neg: bool): int
  {
    if neg then Negative else if pos then Positive else NoEvent
  }

  /** `_pack_frame`: turns a positive and a negative mask (row-major, one entry per pixel)
      into a packed frame. A pixel in the negative mask reads 2, one only in the positive
      mask reads 1, any other reads 0; the value 3 never appears and padding slots are 0. */
  function PackFrame(pos: seq<bool>, neg: seq<bool>): (data: seq<byte>)
    requires |pos| == |neg|
    ensures |data| == Geometry.PackedSize(|pos|)
    ensures forall p :: 0 <= p < |pos| ==>
              PixelAt(data, p) == (if neg[p] then Negative else if pos[p] then Positive else NoEvent)
    ensures forall p :: |pos| <= p < 4 * |data| ==> PixelAt(data, p) == NoEvent
    ensures forall p :: 0 <= p < 4 * |data| ==> PixelAt(data, p) != Unused
  {
    Encode(seq(|pos|, i requires 0 <= i < |pos| => Classify(pos[i], neg[i])))
  }

  /** The only way a decode can fail: the viewers reshape to `HEIGHT x WIDTH`, which
      fails when the frame holds fewer than `WIDTH * HEIGHT` pixels. */
  datatype FrameError = ReshapeError

  /** A positive and a negative mask over the pixels of a frame. */
  datatype Masks = Masks(pos: seq<bool>, neg: seq<bool>)

  /** `unpack_frame` of the professional viewer: the positive mask marks the pixels equal
      to 1 and the negative mask those equal to 2, over the first `width * height` pixels.
      It fails only when the frame is too short to reshape. */
  function UnpackMasks(data: seq<byte>, width: nat, height: nat): (r: Result<Masks, FrameError>)
    ensures r.Ok? <==> width * height <= 4 * |data|
    ensures r.Ok? ==> |r.value.pos| == width * height && |r.value.neg| == width * height
    ensures r.Ok? ==> forall p :: 0 <= p < width * height ==>
              (r.value.pos[p] <==> PixelAt(data, p) == Positive) &&
              (r.value.neg[p] <==> PixelAt(data, p) == Negative)
  {
    var n := width * height;
    if n > 4 * |data| then Err(ReshapeError)
    else
      var px := Decode(data, n);
      Ok(Masks(seq(n, p requires 0 <= p < n => px[p] == Positive),
               seq(n, p requires 0 <= p < n => px[p] == Negative)))
  }

  /** No pixel is in both masks, and a pixel holding the unused value 3 is in neither. */
  lemma MasksDisjoint(data: seq<byte>, width: nat, height: nat)
    requires width * height <= 4 * |data|
    ensures var m := UnpackMasks(data, width, height).value;
      forall p :: 0 <= p < width * height ==>
        !(m.pos[p] && m.neg[p]) && (PixelAt(data, p) == Unused ==> !m.pos[p] && !m.neg[p])
  {
  }

  /** Packing two disjoint masks with `_pack_frame` and unpacking with the viewer gives
      the masks back; with overlap, the overlapping pixels come back only as negative. */
  lemma MasksRoundTrip(pos: seq<bool>, neg: seq<bool>, width: nat, height: nat)
    requires |pos| == |neg| == width * height
    ensures var r := UnpackMasks(PackFrame(pos, neg), width, height);
      && r.Ok?
      && r.value.neg == neg
      && (forall p :: 0 <= p < |pos| ==> (r.value.pos[p] <==> pos[p] && !neg[p]))
    ensures (forall p :: 0 <= p < |pos| ==> !(pos[p] && neg[p])) ==>
      UnpackMasks(PackFrame(pos, neg), width, height) == Ok(Masks(pos, neg))
  {
    var r := UnpackMasks(PackFrame(pos, neg), width, height);
    assert r.value.neg == neg;
    if forall p :: 0 <= p < |pos| ==> !(pos[p] && neg[p]) {
      assert r.value.pos == pos;
    }
  }

  /** The simple viewer's grey level for a pixel value: 0 -> 128, 1 -> 255, 2 -> 0, 3 -> 128. */
  function Gray(v: int): int
    requires IsPixelValue(v)
  {
    [128, 255, 0, 128][v]
  }

  /** `unpack_frame` of the simple viewer: the grey level of each of the first
      `width * height` pixels, failing only when the frame is too short to reshape. */
  function GrayImage(data: seq<byte>, width: nat, height: nat): (r: Result<seq<int>, FrameError>)
    ensures r.Ok? <==> width * height <= 4 * |data|
    ensures r.Ok? ==> |r.value| == width * height
  {
    var n := width * height;
    if n > 4 * |data| then Err(ReshapeError)
    else
      var px := Decode(data, n);
      Ok(seq(n, p requires 0 <= p < n => Gray(px[p])))
  }

  /** The two viewers agree: a pixel is white exactly when it is in the positive mask,
      black exactly when it is in the negative mask, and grey otherwise, so the reserved
      value 3 renders like "no event". */
  lemma GrayAgreesWithMasks(data: seq<byte>, width: nat, height: nat)
    requires width * height <= 4 * |data|
    ensures var g := GrayImage(data, width, height).value;
      var m := UnpackMasks(data, width, height).value;
      forall p :: 0 <= p < width * height ==>
        (g[p] == 255 <==> m.pos[p]) &&
        (g[p] == 0 <==> m.neg[p]) &&
        (g[p] == 128 <==> !m.pos[p] && !m.neg[p])
  {
  }

  /** Reshapes a row-major pixel list into `height` rows of `width` entries: entry `x` of
      row `y` is pixel `y * width + x`. */
  function Reshape<T>(flat: seq<T>, width: nat, height: nat): (rows: seq<seq<T>>)
    requires |flat| == width * height
    ensures |rows| == height
    ensures forall y :: 0 <= y < height ==> |rows[y]| == width
    ensures forall y, x :: 0 <= y < height && 0 <= x < width ==>
              Geometry.Index(width, x, y) < |flat| && rows[y][x] == flat[Geometry.Index(width, x, y)]
  {
    var rows := seq(height, y requires 0 <= y < height => RowOf(flat, width, height, y));
    assert forall y, x :: 0 <= y < height && 0 <= x < width ==>
        Geometry.Index(width, x, y) < |flat| && rows[y][x] == flat[Geometry.Index(width, x, y)] by {
      forall y, x | 0 <= y < height && 0 <= x < width
        ensures Geometry.Index(width, x, y) < |flat| && rows[y][x] == flat[Geometry.Index(width, x, y)]
      {
        Geometry.IndexInBounds(width, height, x, y);
        assert rows[y] == RowOf(flat, width, height, y);
      }
    }
    rows
  }

  /** Row `y` of a row-major pixel list. */
  function RowOf<T>(flat: seq<T>, width: nat, height: nat, y: nat): (row: seq<T>)
    requires |flat| == width * height && y < height
    ensures |row| == width
    ensures forall x :: 0 <= x < width ==>
              Geometry.Index(width, x, y) < |flat| && row[x] == flat[Geometry.Index(width, x, y)]
  {
    assert (y + 1) * width <= height * width;
    flat[y * width .. y * width + width]
  }
}

=== FILE: receiver.dfy ===
/** The converter's TCP receiver (server mode): its connection flags and counters,
    the exact-read loop and the optional size header in front of each frame.
    The socket calls are oracles: `recv` is a queue of results the peer delivers,
    and the outcome of socket/bind/listen/accept is a parameter of `Connect`. */
module TcpReceiver {
  import opened Bytes
  import Geometry

  /** A socket handle: `INVALID_SOCK` or an open descriptor. */
  datatype Socket = Invalid | Open(fd: nat)

  /** The receiver's state. The counters are unbounded here. */
  datatype Receiver = Receiver(
    cfg: Geometry.Config,
    server: Socket,
    client: Socket,
    connected: bool,
    totalBytes: nat,
    totalFrames: nat)

  /** The receiver's invariant: a connected receiver holds an open listening socket and
      an open client socket. */
  predicate Consistent(r: Receiver)
  {
    r.connected ==> r.server.Open? && r.client.Open?
  }

  /** The constructor: no sockets, disconnected, counters zero. */
  function New(cfg: Geometry.Config): (r: Receiver)
    ensures Consistent(r) && !r.connected
    ensures r.server == Invalid && r.client == Invalid
    ensures r.totalBytes == 0 && r.totalFrames == 0 && r.cfg == cfg
  {
    Receiver(cfg, Invalid, Invalid, false, 0, 0)
  }

  // ---------------------------------------------------------------------------
  // recv as an oracle
  // ---------------------------------------------------------------------------

  /** What the peer delivers to successive `recv` calls: a chunk of bytes (an empty chunk
      is an orderly close, `recv` returning 0) or an error (`recv` returning -1). An
      exhausted queue also reads as a close. */
  datatype RecvResult = Chunk(bytes: seq<byte>) | Error

  /** The bytes the peer delivers before the connection ends: the chunks up to the first
      empty chunk or error. */
  function Delivered(q: seq<RecvResult>): seq<byte>
  {
    if |q| == 0 then []
    else match q[0]
      case Error => []
      case Chunk(d) => if |d| == 0 then [] else d + Delivered(q[1..])
  }

  /** The outcome of one `recv`: its return value, the bytes it stored and the queue left. */
  datatype Received = Received(count: int, bytes: seq<byte>, rest: seq<RecvResult>)

  /** One `recv` asking for at most `n` bytes. A chunk longer than `n` is split: the first
      `n` bytes are returned and the remainder stays queued, as on a TCP stream. A positive
      return value means that many bytes were taken from the front of the stream; a
      non-positive one means the stream had ended. */
  function Recv(q: seq<RecvResult>, n: nat): (r: Received)
    requires n > 0
    ensures r.count > 0 <==> |Delivered(q)| > 0
    ensures r.count > 0 ==>
              && r.count <= n && |r.bytes| == r.count
              && Delivered(q) == r.bytes + Delivered(r.rest)
  {
    if |q| == 0 then Received(0, [], [])
    else match q[0]
      case Error => Received(-1, [], q[1..])
      case Chunk(d) =>
        if |d| == 0 then Received(0, [], q[1..])
        else if |d| <= n then Received(|d|, d, q[1..])
        else
          var rest := [Chunk(d[n..])] + q[1..];
          assert rest[1..] == q[1..];
          assert d == d[..n] + d[n..];
          Received(n, d[..n], rest)
  }

  // ---------------------------------------------------------------------------
  // receiveExact
  // ---------------------------------------------------------------------------

  /** `receiveExact` into a buffer of `|buf|` bytes. It succeeds exactly when the peer
      delivers at least `|buf|` bytes; the buffer then holds the first `|buf|` of them and
      the stream continues right after them. On failure the received bytes fill a prefix of
      the buffer and the receiver is marked disconnected. Every byte received counts into
      `totalBytes`, those before a failure included; nothing else changes. */
  method ReceiveExact(r: Receiver, q: seq<RecvResult>, buf: seq<byte>)
    returns (ok: bool, r': Receiver, q': seq<RecvResult>, buf': seq<byte>)
    ensures ok <==> |Delivered(q)| >= |buf|
    ensures |buf'| == |buf|
    ensures ok ==> && buf' == Delivered(q)[..|buf|]
                   && Delivered(q') == Delivered(q)[|buf|..]
                   && r' == r.(totalBytes := r.totalBytes + |buf|)
    ensures !ok ==> && buf' == Delivered(q) + buf[|Delivered(q)|..]
                    && r' == r.(connected := false, totalBytes := r.totalBytes + |Delivered(q)|)
    ensures Consistent(r) ==> Consistent(r')
  {
    var total := 0;
    r', q', buf' := r, q, buf;
    while total < |buf|
      invariant 0 <= total <= |buf| && total <= |Delivered(q)| && |buf'| == |buf|
      invariant buf'[..total] == Delivered(q)[..total] && buf'[total..] == buf[total..]
      invariant Delivered(q') == Delivered(q)[total..]
      invariant r' == r.(totalBytes := r.totalBytes + total)
      decreases |buf| - total
    {
      var res := Recv(q', |buf| - total);
      if res.count <= 0 {
        assert Delivered(q) == Delivered(q)[..total];
        r' := r'.(connected := false);
        return false, r', q', buf';
      }
      buf' := buf'[..total] + res.bytes + buf'[total + res.count..];
      assert Delivered(q)[total..total + res.count] == res.bytes;
      assert Delivered(q)[..total + res.count] == Delivered(q)[..total] + res.bytes;
      assert Delivered(q)[total + res.count..] == Delivered(res.rest);
      total := total + res.count;
      r' := r'.(totalBytes := r'.totalBytes + res.count);
      q' := res.rest;
    }
    ok := true;
  }

  // ---------------------------------------------------------------------------
  // receiveFrame
  // ---------------------------------------------------------------------------

  /** The number of header bytes read in front of each frame. */
  function HeaderLength(cfg: Geometry.Config): nat
  {
    if cfg.hasHeader then cfg.headerSize else 0
  }

  /** Header values accepted as a frame size: `0 < h < 100,000,000`. */
  const MaxHeaderFrameSize: nat := 100000000

  /** The size of the frame that follows `header`: the header's value (little-endian, the
      `uint32_t` it is read into starts at zero) when headers are on and the value is
      accepted, the configured `frame_size()` otherwise. */
  function ChosenFrameSize(cfg: Geometry.Config, header: seq<byte>): (n: nat)
    ensures n < MaxHeaderFrameSize || n == cfg.FrameSize()
    ensures !cfg.hasHeader ==> n == cfg.FrameSize()
    ensures cfg.hasHeader && 0 < LittleEndianValue(header) < MaxHeaderFrameSize ==> n == LittleEndianValue(header)
    ensures !(cfg.hasHeader && 0 < LittleEndianValue(header) < MaxHeaderFrameSize) ==> n == cfg.FrameSize()
  {
    var h := LittleEndianValue(header);
    if cfg.hasHeader && 0 < h < MaxHeaderFrameSize then h else cfg.FrameSize()
  }

  /** Whether a stream holds a whole header and the whole frame it announces. */
  predicate FrameAvailable(cfg: Geometry.Config, stream: seq<byte>)
  {
    var hl := HeaderLength(cfg);
    |stream| >= hl && |stream| >= hl + ChosenFrameSize(cfg, stream[..hl])
  }

  /** `std::vector::resize`: keeps the first `n` elements and pads with zeros. */
  function Resize(buf: seq<byte>, n: nat): (r: seq<byte>)
    ensures |r| == n
    ensures forall i :: 0 <= i < n ==> r[i] == (if i < |buf| then buf[i] else 0)
  {
    if n <= |buf| then buf[..n] else buf + seq(n - |buf|, _ => 0)
  }

  /** `receiveFrame`. When disconnected it fails at once and reads nothing. Otherwise it
      succeeds exactly when the stream holds the header (if any) and the whole frame whose
      size the header chose; the buffer then holds that frame, the stream continues after
      it, `totalBytes` grows by header plus frame and `totalFrames` by one. On failure the
      receiver ends disconnected with every received byte counted and the frame counter
      unchanged; a failure inside the header leaves the buffer as it was, a later one
      leaves it resized to the chosen size. */
  method ReceiveFrame(r: Receiver, q: seq<RecvResult>, buf: seq<byte>)
    returns (ok: bool, r': Receiver, q': seq<RecvResult>, buf': seq<byte>)
    requires r.cfg.hasHeader ==> r.cfg.headerSize <= 4
    ensures !r.connected ==> !ok && r' == r && q' == q && buf' == buf
    ensures r.connected ==> (ok <==> FrameAvailable(r.cfg, Delivered(q)))
    ensures ok ==>
              var d := Delivered(q);
              var hl := HeaderLength(r.cfg);
              var fs := ChosenFrameSize(r.cfg, d[..hl]);
              && buf' == d[hl..hl + fs]
              && Delivered(q') == d[hl + fs..]
              && r' == r.(totalBytes := r.totalBytes + hl + fs, totalFrames := r.totalFrames + 1)
    ensures r.connected && !ok ==>
              && r' == r.(connected := false, totalBytes := r.totalBytes + |Delivered(q)|)
              && (|Delivered(q)| < HeaderLength(r.cfg) ==> buf' == buf)
              && (|Delivered(q)| >= HeaderLength(r.cfg) ==>
                    |buf'| == ChosenFrameSize(r.cfg, Delivered(q)[..HeaderLength(r.cfg)]))
    ensures Consistent(r) ==> Consistent(r')
  {
    if !r.connected {
      return false, r, q, buf;
    }
    var headerOk, frameSize;
    headerOk, r', q', frameSize := ReadHeader(r, q);
    if !headerOk {
      return false, r', q', buf;
    }
    var d := Delivered(q);
    var hl := HeaderLength(r.cfg);
    buf' := Resize(buf, frameSize);
    ok, r', q', buf' := ReceiveExact(r', q', buf');
    if ok {
      assert d[hl..][..frameSize] == d[hl..hl + frameSize];
      assert d[hl..][frameSize..] == d[hl + frameSize..];
      r' := r'.(totalFrames := r'.totalFrames + 1);
    }
  }

  /** The header step of `receiveFrame`: with headers on, read `header_size` bytes into a
      zeroed `uint32_t` and choose the frame size from them; with headers off, choose the
      configured size without reading. */
  method ReadHeader(r: Receiver, q: seq<RecvResult>)
    returns (ok: bool, r': Receiver, q': seq<RecvResult>, frameSize: nat)
    requires r.cfg.hasHeader ==> r.cfg.headerSize <= 4
    ensures ok <==> |Delivered(q)| >= HeaderLength(r.cfg)
    ensures ok ==> && frameSize == ChosenFrameSize(r.cfg, Delivered(q)[..HeaderLength(r.cfg)])
                   && Delivered(q') == Delivered(q)[HeaderLength(r.cfg)..]
                   && r' == r.(totalBytes := r.totalBytes + HeaderLength(r.cfg))
    ensures !ok ==> r' == r.(connected := false, totalBytes := r.totalBytes + |Delivered(q)|)
  {
    frameSize := r.cfg.FrameSize();
    r', q' := r, q;
    ok := true;
    if r.cfg.hasHeader {
      var header;
      ok, r', q', header := ReceiveExact(r, q, seq(r.cfg.headerSize, _ => 0));
      if ok {
        var h := LittleEndianValue(header);
        if 0 < h < MaxHeaderFrameSize {
          frameSize := h;
        }
      }
    }
  }

  // ---------------------------------------------------------------------------
  // connect, disconnect and moves
  // ---------------------------------------------------------------------------

  /** `disconnect`: both sockets closed and invalid, disconnected; counters kept. */
  function Disconnect(r: Receiver): (d: Receiver)
    ensures d.server == Invalid && d.client == Invalid && !d.connected
    ensures d.cfg == r.cfg && d.totalBytes == r.totalBytes && d.totalFrames == r.totalFrames
    ensures Consistent(d)
  {
    r.(server := Invalid, client := Invalid, connected := false)
  }

  /** Disconnecting twice is the same as disconnecting once. */
  lemma DisconnectIdempotent(r: Receiver)
    ensures Disconnect(Disconnect(r)) == Disconnect(r)
  {
  }

  /** The outcome of the socket set-up calls of `connect`, the step that failed or the
      descriptors of the listening and the accepted socket. */
  datatype SetupOutcome =
    | SocketFailed
    | BindFailed
    | ListenFailed
    | AcceptFailed
    | Accepted(serverFd: nat, clientFd: nat)

  datatype ConnectResult = ConnectResult(ok: bool, receiver: Receiver)

  /** `connect`. Already connected: succeeds and changes nothing. Otherwise the old
      sockets are closed first; a failing set-up step leaves the receiver disconnected
      with no sockets and the counters as they were, and an accepted connection marks it
      connected with both counters reset. */
  function Connect(r: Receiver, setup: SetupOutcome): (res: ConnectResult)
    ensures r.connected ==> res.ok && res.receiver == r
    ensures !r.connected ==> (res.ok <==> setup.Accepted?)
    ensures !r.connected && res.ok ==>
              && res.receiver.connected
              && res.receiver.totalBytes == 0 && res.receiver.totalFrames == 0
              && res.receiver.cfg == r.cfg
    ensures !res.ok ==> res.receiver == Disconnect(r)
    ensures Consistent(r) ==> Consistent(res.receiver)
  {
    if r.connected then ConnectResult(true, r)
    else
      var closed := Disconnect(r);
      match setup
        case Accepted(s, c) =>
          ConnectResult(true, closed.(server := Open(s), client := Open(c), connected := true,
                                      totalBytes := 0, totalFrames := 0))
        case _ => ConnectResult(false, closed)
  }

  datatype Moved = Moved(target: Receiver, source: Receiver)

  /** The move constructor: the new receiver takes over the source's sockets, flag and
      counters; the source is left with no sockets and disconnected. */
  function MoveConstruct(other: Receiver): (m: Moved)
    ensures m.target == other
    ensures m.source == Disconnect(other)
  {
    Moved(other, other.(server := Invalid, client := Invalid, connected := false))
  }

  /** Move assignment. Assigning a receiver to itself changes nothing. Otherwise the
      target closes its own sockets and takes over the source's sockets, flag and counters
      (it keeps its own configuration reference), and the source is left with no sockets
      and disconnected. */
  function MoveAssign(self: Receiver, other: Receiver, aliased: bool): (m: Moved)
    requires aliased ==> self == other
    ensures aliased ==> m.target == self && m.source == other
    ensures !aliased ==> m.target == other.(cfg := self.cfg) && m.source == Disconnect(other)
    ensures Consistent(other) ==> Consistent(m.target) && Consistent(m.source)
  {
    if aliased then Moved(self, other)
    else
      var closed := Disconnect(self);
      Moved(closed.(server := other.server, client := other.client, connected := other.connected,
                    totalBytes := other.totalBytes, totalFrames := other.totalFrames),
            other.(server := Invalid, client := Invalid, connected := false))
  }
}

=== FILE: sender.dfy ===
/** The test senders' side of the byte stream: cyclic choice of pre-generated frames,
    the demo sender's batches and its counting send loop with a frame target, and the
    UDP sender's datagram split with its argument checks. */
module Sender {
  import opened Wrappers
  import opened Bytes
  import opened Seqs
  import Geometry
  import Demux

  /** `xs[i % len(xs)]`: the senders' cyclic choice of a pre-generated frame, batch or
      noise pattern. */
  function Cyclic<T>(xs: seq<T>, i: nat): (x: T)
    requires |xs| > 0
    ensures i < |xs| ==> x == xs[i]
  {
    xs[i % |xs|]
  }

  /** Choices `|xs|` apart are the same. */
  lemma CyclicPeriod<T>(xs: seq<T>, i: nat)
    requires |xs| > 0
    ensures Cyclic(xs, i + |xs|) == Cyclic(xs, i)
  {
    Geometry.DivModUnique(i + |xs|, |xs|, i / |xs| + 1, i % |xs|);
  }

  /** The first `n` cyclic choices, in sending order. */
  function Cycle<T>(xs: seq<T>, n: nat): seq<T>
    requires |xs| > 0
  {
    seq(n, i requires 0 <= i => Cyclic(xs, i))
  }

  /** `q` copies of `s` back to back. */
  function Repeat<T>(s: seq<T>, q: nat): seq<T>
  {
    if q == 0 then [] else Repeat(s, q - 1) + s
  }

  /** `q` full rounds of cyclic choices send every item once per round, in order. */
  lemma {:induction false} CycleRounds<T>(xs: seq<seq<T>>, q: nat)
    requires |xs| > 0
    ensures Flatten(Cycle(xs, q * |xs|)) == Repeat(Flatten(xs), q)
  {
    if q > 0 {
      var m := |xs|;
      CycleRounds(xs, q - 1);
      CycleLastRound(xs, q);
      FlattenAppend(Cycle(xs, (q - 1) * m), xs);
    }
  }

  /** Round `q` of cyclic choices is the items themselves. */
  lemma CycleLastRound<T>(xs: seq<T>, q: nat)
    requires |xs| > 0 && q > 0
    ensures Cycle(xs, q * |xs|) == Cycle(xs, (q - 1) * |xs|) + xs
  {
    var m := |xs|;
    var base := (q - 1) * m;
    assert q * m == base + m;
    forall i | base <= i < base + m
      ensures Cyclic(xs, i) == xs[i - base]
    {
      Geometry.DivModUnique(i, m, q - 1, i - base);
    }
  }

  /** One more cyclic choice appends that item to the stream. */
  lemma CycleStep<T>(xs: seq<seq<T>>, j: nat)
    requires |xs| > 0
    ensures Flatten(Cycle(xs, j + 1)) == Flatten(Cycle(xs, j)) + Cyclic(xs, j)
  {
    var x := Cyclic(xs, j);
    assert Cycle(xs, j + 1) == Cycle(xs, j) + [x];
    FlattenAppend(Cycle(xs, j), [x]);
    assert Flatten([x]) == x + Flatten([x][1..]);
  }

  /** `create_batches`: `b''.join(frames[i:i+b])` for `i` in `range(0, len(frames), b)`.
      A zero batch size is Python's `ValueError`; a negative one gives no batches. */
  method CreateBatches(frames: seq<seq<byte>>, b: int) returns (r: Result<seq<seq<byte>>, string>)
    ensures r.Err? <==> b == 0
    ensures b < 0 ==> r == Ok([])
    ensures b > 0 ==> r.Ok? && |r.value| == |Demux.Pieces(frames, b)|
    ensures b > 0 ==> forall k :: 0 <= k < |r.value| ==> r.value[k] == Flatten(Demux.Pieces(frames, b)[k])
  {
    if b == 0 {
      return Err("range() arg 3 must not be zero");
    }
    if b < 0 {
      return Ok([]);
    }
    var pieces := Demux.Pieces(frames, b);
    var batches := [];
    var i := 0;
    while i < |frames|
      invariant |batches| <= |pieces|
      invariant i == |batches| * b
      invariant forall k :: 0 <= k < |batches| ==> batches[k] == Flatten(pieces[k])
      decreases |frames| - i
    {
      ghost var n := |batches|;
      Demux.PieceExists(frames, b, n);
      Demux.PieceAt(frames, b, n);
      var end := if i + b <= |frames| then i + b else |frames|;
      batches := batches + [Flatten(frames[i..end])];
      i := i + b;
      assert i == (n + 1) * b;
    }
    Demux.PieceExists(frames, b, |batches|);
    return Ok(batches);
  }

  /** What `create_batches` promises: the batches joined give the frames joined, there
      are `ceil(n/b)` of them, and each batch but the last joins exactly `b` frames. */
  lemma BatchesProperties(frames: seq<seq<byte>>, b: nat, batches: seq<seq<byte>>)
    requires b > 0 && |batches| == |Demux.Pieces(frames, b)|
    requires forall k :: 0 <= k < |batches| ==> batches[k] == Flatten(Demux.Pieces(frames, b)[k])
    ensures Flatten(batches) == Flatten(frames)
    ensures |batches| == (|frames| + b - 1) / b
    ensures forall k :: 0 <= k < |batches| - 1 ==>
              k * b + b <= |frames| && batches[k] == Flatten(frames[k * b..k * b + b])
  {
    BatchesJoin(frames, b, batches);
    BatchesFull(frames, b, batches);
  }

  /** The batches join to the frames joined, and there are `ceil(n/b)` of them. */
  lemma BatchesJoin(frames: seq<seq<byte>>, b: nat, batches: seq<seq<byte>>)
    requires b > 0 && |batches| == |Demux.Pieces(frames, b)|
    requires forall k :: 0 <= k < |batches| ==> batches[k] == Flatten(Demux.Pieces(frames, b)[k])
    ensures Flatten(batches) == Flatten(frames)
    ensures |batches| == (|frames| + b - 1) / b
  {
    Demux.PiecesJoin(frames, b);
    Demux.PiecesCount(frames, b);
    FlattenOfFlattens(Demux.Pieces(frames, b), batches);
  }

  /** Each batch but the last joins exactly `b` consecutive frames. */
  lemma BatchesFull(frames: seq<seq<byte>>, b: nat, batches: seq<seq<byte>>)
    requires b > 0 && |batches| == |Demux.Pieces(frames, b)|
    requires forall k :: 0 <= k < |batches| ==> batches[k] == Flatten(Demux.Pieces(frames, b)[k])
    ensures forall k :: 0 <= k < |batches| - 1 ==>
              k * b + b <= |frames| && batches[k] == Flatten(frames[k * b..k * b + b])
  {
    forall k | 0 <= k < |batches| - 1
      ensures k * b + b <= |frames| && batches[k] == Flatten(frames[k * b..k * b + b])
    {
      FullPiece(frames, b, k);
    }
  }

  /** A piece before the last is the full slice `k*b .. k*b+b`. */
  lemma FullPiece<T>(s: seq<T>, b: nat, k: nat)
    requires b > 0 && k + 1 < |Demux.Pieces(s, b)|
    ensures k * b + b <= |s| && Demux.Pieces(s, b)[k] == s[k * b..k * b + b]
  {
    Demux.PieceAt(s, b, k);
    Demux.PieceAt(s, b, k + 1);
    assert (k + 1) * b == k * b + b;
  }

  /** Joining joined groups is joining all their members. */
  lemma {:induction false} FlattenOfFlattens<T>(groups: seq<seq<seq<T>>>, joined: seq<seq<T>>)
    requires |joined| == |groups| && forall k :: 0 <= k < |groups| ==> joined[k] == Flatten(groups[k])
    ensures Flatten(joined) == Flatten(Flatten(groups))
  {
    if |groups| > 0 {
      FlattenOfFlattens(groups[1..], joined[1..]);
      FlattenAppend(groups[0], Flatten(groups[1..]));
    }
  }

  /** Sending the batches cyclically for `q` full rounds puts on the wire exactly the
      bytes of `q` cyclic rounds of the frames: batching does not change the stream. */
  lemma BatchedRoundsSendFrames(frames: seq<seq<byte>>, batches: seq<seq<byte>>, q: nat)
    requires |frames| > 0 && |batches| > 0 && Flatten(batches) == Flatten(frames)
    ensures Flatten(Cycle(batches, q * |batches|)) == Flatten(Cycle(frames, q * |frames|))
  {
    CycleRounds(batches, q);
    CycleRounds(frames, q);
  }

  /** A viewer cutting that stream into `FRAME_SIZE` blocks recovers the frames in cyclic
      order, with nothing left over. */
  lemma ViewerSeesCyclicFrames(frames: seq<seq<byte>>, batches: seq<seq<byte>>, fs: nat, q: nat)
    requires |frames| > 0 && |batches| > 0 && fs > 0 && Flatten(batches) == Flatten(frames)
    requires forall i :: 0 <= i < |frames| ==> |frames[i]| == fs
    ensures Demux.Blocks(Flatten(Cycle(batches, q * |batches|)), fs) == Cycle(frames, q * |frames|)
    ensures Demux.Remainder(Flatten(Cycle(batches, q * |batches|)), fs) == []
  {
    BatchedRoundsSendFrames(frames, batches, q);
    Demux.BlocksOfUniform(Cycle(frames, q * |frames|), fs);
  }

  /** `target_frames = ceil(target_bytes / FRAME_SIZE)`: the fewest frames that carry at
      least `target_bytes` bytes. */
  function TargetFrames(targetBytes: nat, fs: nat): (n: nat)
    requires fs > 0
    ensures n * fs >= targetBytes
    ensures n > 0 ==> (n - 1) * fs < targetBytes
  {
    var n := (targetBytes + fs - 1) / fs;
    assert targetBytes + fs - 1 == n * fs + (targetBytes + fs - 1) % fs;
    n
  }

  /** Frames counted after the first `j` cyclic batch sends: each batch adds
      `len(batch) // FRAME_SIZE`. */
  function FramesSent(batches: seq<seq<byte>>, fs: nat, j: nat): nat
    requires |batches| > 0 && fs > 0
  {
    if j == 0 then 0 else FramesSent(batches, fs, j - 1) + |Cyclic(batches, j - 1)| / fs
  }

  /** When every batch is whole frames, the frame count is the byte count in frames. */
  lemma {:induction false} FramesSentExact(batches: seq<seq<byte>>, fs: nat, j: nat)
    requires |batches| > 0 && fs > 0
    requires forall k :: 0 <= k < |batches| ==> |batches[k]| % fs == 0
    ensures FramesSent(batches, fs, j) * fs == |Flatten(Cycle(batches, j))|
  {
    if j > 0 {
      FramesSentExact(batches, fs, j - 1);
      var b := Cyclic(batches, j - 1);
      CycleStep(batches, j - 1);
      WholeFrames(FramesSent(batches, fs, j - 1), |b|, fs);
    }
  }

  /** Adding the frame count of a whole-frame batch adds its bytes. */
  lemma WholeFrames(before: nat, len: nat, fs: nat)
    requires fs > 0 && len % fs == 0
    ensures (before + len / fs) * fs == before * fs + len
  {
    assert len == (len / fs) * fs;
    assert (before + len / fs) * fs == before * fs + (len / fs) * fs;
  }

  /** The demo sender's counters. */
  datatype SendState = SendState(batchIdx: nat, totalFrames: nat, totalBytes: nat, stream: seq<byte>)

  /** The demo sender's batch loop, for at most `sends` sends (the duration limit, a
      signal or a lost connection stop it from outside). Before each send it stops once a
      positive frame target is reached; each send writes `batches[batch_idx % len]` and
      adds its frame and byte counts. */
  method SendLoop(batches: seq<seq<byte>>, fs: nat, targetFrames: int, sends: nat)
    returns (st: SendState, reached: bool)
    requires |batches| > 0 && fs > 0
    ensures st.batchIdx <= sends
    ensures st.stream == Flatten(Cycle(batches, st.batchIdx))
    ensures st.totalBytes == |st.stream|
    ensures st.totalFrames == FramesSent(batches, fs, st.batchIdx)
    ensures reached ==> targetFrames > 0 && st.totalFrames >= targetFrames
    ensures !reached ==> st.batchIdx == sends
    ensures targetFrames > 0 ==>
              forall j :: 0 <= j < st.batchIdx ==> FramesSent(batches, fs, j) < targetFrames
  {
    st := SendState(0, 0, 0, []);
    reached := false;
    while st.batchIdx < sends
      invariant st.batchIdx <= sends
      invariant Accounted(batches, fs, st)
      invariant targetFrames > 0 ==>
                  forall j :: 0 <= j < st.batchIdx ==> FramesSent(batches, fs, j) < targetFrames
      decreases sends - st.batchIdx
    {
      if targetFrames > 0 && st.totalFrames >= targetFrames {
        reached := true;
        return;
      }
      st := SendOne(batches, fs, st);
    }
  }

  /** The sender's totals agree with what it has sent: the stream is the cyclic batches
      so far, the byte total its length and the frame total the frames of those batches. */
  predicate Accounted(batches: seq<seq<byte>>, fs: nat, st: SendState)
    requires |batches| > 0 && fs > 0
  {
    && st.stream == Flatten(Cycle(batches, st.batchIdx))
    && st.totalBytes == |st.stream|
    && st.totalFrames == FramesSent(batches, fs, st.batchIdx)
  }

  /** One send: `batches[batch_idx % len]` goes on the wire and the totals grow by its
      bytes and its whole frames. */
  function SendOne(batches: seq<seq<byte>>, fs: nat, st: SendState): (r: SendState)
    requires |batches| > 0 && fs > 0 && Accounted(batches, fs, st)
    ensures r.batchIdx == st.batchIdx + 1 && Accounted(batches, fs, r)
  {
    var batch := batches[st.batchIdx % |batches|];
    CycleStep(batches, st.batchIdx);
    SendState(st.batchIdx + 1, st.totalFrames + |batch| / fs, st.totalBytes + |batch|, st.stream + batch)
  }

  /** `packets_per_frame`: datagrams needed for `frameSize` bytes at `packetSize` each. */
  function PacketsPerFrame(frameSize: nat, packetSize: nat): nat
    requires packetSize > 0
  {
    (frameSize + packetSize - 1) / packetSize
  }

  /** `send_frame_udp`: consecutive slices of at most `packetSize` bytes, advanced by the
      length actually sliced. They are the frame's pieces: they join back to the frame,
      there are `packets_per_frame` of them, none is empty and all but the last are full. */
  method SendFrameUdp(frame: seq<byte>, packetSize: nat) returns (datagrams: seq<seq<byte>>)
    requires packetSize > 0
    ensures datagrams == Demux.Pieces(frame, packetSize)
    ensures Flatten(datagrams) == frame
    ensures |datagrams| == PacketsPerFrame(|frame|, packetSize)
    ensures forall k :: 0 <= k < |datagrams| ==> 0 < |datagrams[k]| <= packetSize
    ensures forall k :: 0 <= k < |datagrams| - 1 ==> |datagrams[k]| == packetSize
  {
    var pieces := Demux.Pieces(frame, packetSize);
    datagrams := [];
    var offset := 0;
    while offset < |frame|
      invariant |datagrams| <= |pieces|
      invariant datagrams == pieces[..|datagrams|]
      invariant |datagrams| < |pieces| ==> offset == |datagrams| * packetSize
      invariant |datagrams| == |pieces| ==> offset == |frame|
      decreases |frame| - offset
    {
      var end := if offset + packetSize <= |frame| then offset + packetSize else |frame|;
      var chunk := frame[offset..end];
      ghost var n := |datagrams|;
      Demux.PieceExists(frame, packetSize, n);
      Demux.PieceAt(frame, packetSize, n);
      if n + 1 < |pieces| {
        FullPiece(frame, packetSize, n);
      }
      datagrams := datagrams + [chunk];
      offset := offset + |chunk|;
      assert n + 1 < |pieces| ==> offset == (n + 1) * packetSize;
      if n + 1 == |pieces| {
        Demux.PieceExists(frame, packetSize, n + 1);
        assert (n + 1) * packetSize == n * packetSize + packetSize;
      }
    }
    Demux.PieceExists(frame, packetSize, |datagrams|);
    assert datagrams == pieces;
    Demux.PiecesProperties(frame, packetSize);
  }

  /** Why the UDP sender refuses to start. */
  datatype ArgError = FpsNotPositive(fps: int) | PacketSizeOutOfRange(packetSize: int)

  /** The largest UDP payload the sender accepts. */
  const MaxPacketSize: int := 65535

  /** The UDP sender's argument checks, the frame rate first, and on success the number
      of datagrams per 230,400-byte frame. */
  function ValidateUdpArgs(fps: int, packetSize: int): (r: Result<nat, ArgError>)
    ensures r.Ok? <==> fps > 0 && 1 <= packetSize <= MaxPacketSize
    ensures fps <= 0 ==> r == Err(FpsNotPositive(fps))
    ensures fps > 0 && !(1 <= packetSize <= MaxPacketSize) ==> r == Err(PacketSizeOutOfRange(packetSize))
    ensures r.Ok? ==> r.value * packetSize >= Geometry.PackedSize(1280 * 720)
                      && (r.value - 1) * packetSize < Geometry.PackedSize(1280 * 720)
  {
    if fps <= 0 then Err(FpsNotPositive(fps))
    else if packetSize <= 0 || packetSize > MaxPacketSize then Err(PacketSizeOutOfRange(packetSize))
    else Ok(TargetFrames(Geometry.PackedSize(1280 * 720), packetSize))
  }

  /** The TCP sender pre-generates `min(fps * 2, 500)` frames: two seconds' worth, at
      most 500. */
  function PregenerateCount(fps: int): (n: int)
    ensures n <= 500
    ensures n == 500 || n == fps * 2
    ensures fps * 2 <= 500 ==> n == fps * 2
  {
    if fps * 2 < 500 then fps * 2 else 500
  }
}

=== FILE: seqs.dfy ===
/** Sequence helpers: concatenating a list of byte strings and summing integers. */
module Seqs {

  /** All parts concatenated in order (Python's `b''.join(parts)`). */
  function Flatten<T>(parts: seq<seq<T>>): seq<T>
  {
    if |parts| == 0 then [] else parts[0] + Flatten(parts[1..])
  }

  /** Concatenating two lists of parts is concatenating their flattenings. */
  lemma {:induction false} FlattenAppend<T>(a: seq<seq<T>>, b: seq<seq<T>>)
    ensures Flatten(a + b) == Flatten(a) + Flatten(b)
  {
    if |a| == 0 {
      assert a + b == b;
    } else {
      assert (a + b)[1..] == a[1..] + b;
      FlattenAppend(a[1..], b);
    }
  }

  /** Flattening a list of parts that all have length `k` gives `k` items per part. */
  lemma {:induction false} FlattenUniformLength<T>(parts: seq<seq<T>>, k: nat)
    requires forall i :: 0 <= i < |parts| ==> |parts[i]| == k
    ensures |Flatten(parts)| == k * |parts|
  {
    if |parts| > 0 {
      FlattenUniformLength(parts[1..], k);
    }
  }

  /** The sum of a list of integers. */
  function Sum(xs: seq<int>): int
  {
    if |xs| == 0 then 0 else xs[0] + Sum(xs[1..])
  }

  /** The sum of a concatenation is the sum of the sums. */
  lemma {:induction false} SumAppend(a: seq<int>, b: seq<int>)
    ensures Sum(a + b) == Sum(a) + Sum(b)
  {
    if |a| == 0 {
      assert a + b == b;
    } else {
      assert (a + b)[1..] == a[1..] + b;
      SumAppend(a[1..], b);
    }
  }

  /** The lengths of a list of parts. */
  function Lengths<T>(parts: seq<seq<T>>): (ls: seq<int>)
    ensures |ls| == |parts|
    ensures forall i :: 0 <= i < |parts| ==> ls[i] == |parts[i]|
  {
    seq(|parts|, i requires 0 <= i < |parts| => |parts[i]|)
  }

  /** The flattening is as long as all parts together. */
  lemma {:induction false} FlattenLength<T>(parts: seq<seq<T>>)
    ensures |Flatten(parts)| == Sum(Lengths(parts))
  {
    if |parts| > 0 {
      assert Lengths(parts)[1..] == Lengths(parts[1..]);
      FlattenLength(parts[1..]);
    }
  }
}

=== FILE: text.dfy ===
/** The demo sender's bitmap-font text frames: a 5x7 glyph per character, each lit glyph
    cell drawn as a `scale` x `scale` block with `set_pixel`, characters advanced by six
    cells. Which pixels a text lights is stated by `TextCovered`, a reference definition
    in terms of the glyphs and floor division. */
module Text {
  import opened Bytes
  import opened PackedFrame
  import opened Canvas
  import Geometry
  import opened Wrappers

  /** A glyph: seven rows of five cells, `#` for a lit cell. */
  type Glyph = seq<string>

  const CharWidth: int := 5
  const CharHeight: int := 7
  const CharSpacing: int := 1

  /** The demo's 1280x720 frame. */
  const Width: nat := 1280
  const Height: nat := 720
  const FrameSize: nat := (Width * Height + 3) / 4

  /** The font: upper-case letters, digits, space and three punctuation marks, `None` for
      any other character. */
  function Font(c: char): Option<Glyph>
  {
    match c
      case 'A' => Some(["  #  ", " # # ", "#   #", "#####", "#   #", "#   #", "#   #"])
      case 'B' => Some(["#### ", "#   #", "#   #", "#### ", "#   #", "#   #", "#### "])
      case 'C' => Some([" ### ", "#   #", "#    ", "#    ", "#    ", "#   #", " ### "])
      case 'D' => Some(["#### ", "#   #", "#   #", "#   #", "#   #", "#   #", "#### "])
      case 'E' => Some(["#####", "#    ", "#    ", "#### ", "#    ", "#    ", "#####"])
      case 'F' => Some(["#####", "#    ", "#    ", "#### ", "#    ", "#    ", "#    "])
      case 'G' => Some([" ### ", "#   #", "#    ", "# ###", "#   #", "#   #", " ### "])
      case 'H' => Some(["#   #", "#   #", "#   #", "#####", "#   #", "#   #", "#   #"])
      case 'I' => Some(["#####", "  #  ", "  #  ", "  #  ", "  #  ", "  #  ", "#####"])
      case 'J' => Some(["#####", "    #", "    #", "    #", "#   #", "#   #", " ### "])
      case 'K' => Some(["#   #", "#  # ", "# #  ", "##   ", "# #  ", "#  # ", "#   #"])
      case 'L' => Some(["#    ", "#    ", "#    ", "#    ", "#    ", "#    ", "#####"])
      case 'M' => Some(["#   #", "## ##", "# # #", "#   #", "#   #", "#   #", "#   #"])
      case 'N' => Some(["#   #", "##  #", "# # #", "#  ##", "#   #", "#   #", "#   #"])
      case 'O' => Some([" ### ", "#   #", "#   #", "#   #", "#   #", "#   #", " ### "])
      case 'P' => Some(["#### ", "#   #", "#   #", "#### ", "#    ", "#    ", "#    "])
      case 'Q' => Some([" ### ", "#   #", "#   #", "#   #", "# # #", "#  # ", " ## #"])
      case 'R' => Some(["#### ", "#   #", "#   #", "#### ", "# #  ", "#  # ", "#   #"])
      case 'S' => Some([" ### ", "#   #", "#    ", " ### ", "    #", "#   #", " ### "])
      case 'T' => Some(["#####", "  #  ", "  #  ", "  #  ", "  #  ", "  #  ", "  #  "])
      case 'U' => Some(["#   #", "#   #", "#   #", "#   #", "#   #", "#   #", " ### "])
      case 'V' => Some(["#   #", "#   #", "#   #", "#   #", " # # ", " # # ", "  #  "])
      case 'W' => Some(["#   #", "#   #", "#   #", "#   #", "# # #", "## ##", "#   #"])
      case 'X' => Some(["#   #", "#   #", " # # ", "  #  ", " # # ", "#   #", "#   #"])
      case 'Y' => Some(["#   #", "#   #", " # # ", "  #  ", "  #  ", "  #  ", "  #  "])
      case 'Z' => Some(["#####", "    #", "   # ", "  #  ", " #   ", "#    ", "#####"])
      case '0' => Some([" ### ", "#   #", "#  ##", "# # #", "##  #", "#   #", " ### "])
      case '1' => Some(["  #  ", " ##  ", "  #  ", "  #  ", "  #  ", "  #  ", "#####"])
      case '2' => Some([" ### ", "#   #", "    #", "  ## ", " #   ", "#    ", "#####"])
      case '3' => Some([" ### ", "#   #", "    #", "  ## ", "    #", "#   #", " ### "])
      case '4' => Some(["#   #", "#   #", "#   #", "#####", "    #", "    #", "    #"])
      case '5' => Some(["#####", "#    ", "#### ", "    #", "    #", "#   #", " ### "])
      case '6' => Some([" ### ", "#    ", "#    ", "#### ", "#   #", "#   #", " ### "])
      case '7' => Some(["#####", "    #", "   # ", "  #  ", "  #  ", "  #  ", "  #  "])
      case '8' => Some([" ### ", "#   #", "#   #", " ### ", "#   #", "#   #", " ### "])
      case '9' => Some([" ### ", "#   #", "#   #", " ####", "    #", "    #", " ### "])
      case ' ' => Some(["     ", "     ", "     ", "     ", "     ", "     ", "     "])
      case '-' => Some(["     ", "     ", "     ", "#####", "     ", "     ", "     "])
      case '.' => Some(["     ", "     ", "     ", "     ", "     ", "  #  ", "  #  "])
      case '!' => Some(["  #  ", "  #  ", "  #  ", "  #  ", "  #  ", "     ", "  #  "])
      case _ => None
  }

  /** Every glyph of the font has seven rows of five cells. */
  lemma FontShape(c: char)
    ensures Font(c).Some? ==> WellShaped(Font(c).value)
  {
    if c == 'A' || c == 'B' || c == 'C' || c == 'D' || c == 'E' || c == 'F' || c == 'G' || c == 'H' {
      FontShapeGroup1(c);
    } else if c == 'I' || c == 'J' || c == 'K' || c == 'L' || c == 'M' || c == 'N' || c == 'O' || c == 'P' {
      FontShapeGroup2(c);
    } else if c == 'Q' || c == 'R' || c == 'S' || c == 'T' || c == 'U' || c == 'V' || c == 'W' || c == 'X' {
      FontShapeGroup3(c);
    } else if c == 'Y' || c == 'Z' || c == '0' || c == '1' || c == '2' || c == '3' || c == '4' || c == '5' {
      FontShapeGroup4(c);
    } else if c == '6' || c == '7' || c == '8' || c == '9' || c == ' ' || c == '-' || c == '.' || c == '!' {
      FontShapeGroup5(c);
    }
  }

  /** The space glyph is blank. */
  lemma BlankGlyph()
    ensures Font(' ').Some? && Unlit(Font(' ').value)
  {
  }

  /** The shape of the glyphs 'A', 'B', 'C', 'D', 'E', 'F', 'G', 'H'. */
  lemma FontShapeGroup1(c: char)
    requires c == 'A' || c == 'B' || c == 'C' || c == 'D' || c == 'E' || c == 'F' || c == 'G' || c == 'H'
    ensures Font(c).Some? && WellShaped(Font(c).value)
  {
  }

  /** The shape of the glyphs 'I', 'J', 'K', 'L', 'M', 'N', 'O', 'P'. */
  lemma FontShapeGroup2(c: char)
    requires c == 'I' || c == 'J' || c == 'K' || c == 'L' || c == 'M' || c == 'N' || c == 'O' || c == 'P'
    ensures Font(c).Some? && WellShaped(Font(c).value)
  {
  }

  /** The shape of the glyphs 'Q', 'R', 'S', 'T', 'U', 'V', 'W', 'X'. */
  lemma FontShapeGroup3(c: char)
    requires c == 'Q' || c == 'R' || c == 'S' || c == 'T' || c == 'U' || c == 'V' || c == 'W' || c == 'X'
    ensures Font(c).Some? && WellShaped(Font(c).value)
  {
  }

  /** The shape of the glyphs 'Y', 'Z', '0', '1', '2', '3', '4', '5'. */
  lemma FontShapeGroup4(c: char)
    requires c == 'Y' || c == 'Z' || c == '0' || c == '1' || c == '2' || c == '3' || c == '4' || c == '5'
    ensures Font(c).Some? && WellShaped(Font(c).value)
  {
  }

  /** The shape of the glyphs '6', '7', '8', '9', ' ', '-', '.', '!'. */
  lemma FontShapeGroup5(c: char)
    requires c == '6' || c == '7' || c == '8' || c == '9' || c == ' ' || c == '-' || c == '.' || c == '!'
    ensures Font(c).Some? && WellShaped(Font(c).value)
  {
  }

  /** Seven rows of five cells. */
  predicate WellShaped(g: Glyph)
  {
    |g| == CharHeight && forall r :: 0 <= r < |g| ==> |g[r]| == CharWidth
  }

  /** No cell of the glyph is lit. */
  predicate Unlit(g: Glyph)
  {
    forall r, k :: 0 <= r < |g| && 0 <= k < |g[r]| ==> g[r][k] != '#'
  }

  /** Python's `str.upper` on one character, for the characters whose upper case is in
      the font: ASCII letters, and the two non-ASCII letters (dotless i, long s) whose
      upper case is an ASCII letter. Every other character is returned unchanged. */
  function Upper(c: char): (u: char)
    ensures Font(u).Some? && c != u ==> ('a' <= c <= 'z' || c == '\U{0131}' || c == '\U{017F}')
    ensures 'a' <= c <= 'z' ==> Font(u).Some? && u as int == c as int - 32
  {
    if 'a' <= c <= 'z' then (c as int - 32) as char
    else if c == '\U{0131}' then 'I'
    else if c == '\U{017F}' then 'S'
    else c
  }

  /** The glyph `render_char` draws: the upper-cased character's, or the blank one when
      the upper-cased character is not in the font. */
  function GlyphOf(c: char): (g: Glyph)
    ensures WellShaped(g)
    ensures Font(Upper(c)).Some? ==> g == Font(Upper(c)).value
    ensures Font(Upper(c)).None? ==> Unlit(g)
  {
    FontShape(Upper(c));
    FontShape(' ');
    BlankGlyph();
    match Font(Upper(c))
    case Some(g) => g
    case None => Font(' ').value
  }

  /** Whether pixel (`x`, `y`) lies in a lit cell of glyph `g` drawn at (`x0`, `y0`) with
      `s` x `s` blocks: its cell is row `(y-y0)/s`, column `(x-x0)/s`. */
  predicate Covered(g: Glyph, x0: int, y0: int, s: int, x: int, y: int)
  {
    && s > 0 && x >= x0 && y >= y0
    && (y - y0) / s < |g|
    && (x - x0) / s < |g[(y - y0) / s]|
    && g[(y - y0) / s][(x - x0) / s] == '#'
  }

  /** How far `render_text` moves right after each character. */
  function Advance(s: int): int
  {
    (CharWidth + CharSpacing) * s
  }

  /** Whether character `i` of the text, drawn at `x0 + i * Advance(s)`, covers pixel
      (`x`, `y`). */
  predicate CharCovers(text: string, i: int, x0: int, y0: int, s: int, x: int, y: int)
    requires 0 <= i < |text|
  {
    Covered(GlyphOf(text[i]), x0 + i * Advance(s), y0, s, x, y)
  }

  /** Whether one of the first `n` characters covers pixel (`x`, `y`). */
  predicate CoveredBefore(text: string, n: int, x0: int, y0: int, s: int, x: int, y: int)
    requires n <= |text|
  {
    exists i :: 0 <= i < n && CharCovers(text, i, x0, y0, s, x, y)
  }

  /** Reference definition of a rendered text: pixel (`x`, `y`) is lit iff it is covered
      by the glyph of some character. */
  predicate TextCovered(text: string, x0: int, y0: int, s: int, x: int, y: int)
  {
    CoveredBefore(text, |text|, x0, y0, s, x, y)
  }

  /** A value lies in block `k` of size `s` starting at `v0` iff its floor offset
      quotient is `k`. */
  lemma BlockIff(v: int, v0: int, k: int, s: int)
    requires s > 0 && k >= 0
    ensures (v0 + k * s <= v < v0 + k * s + s) <==> (v >= v0 && (v - v0) / s == k)
  {
    if v0 + k * s <= v < v0 + k * s + s {
      Geometry.DivModUnique(v - v0, s, k, v - v0 - k * s);
    }
    if v >= v0 && (v - v0) / s == k {
      assert v - v0 == k * s + (v - v0) % s;
    }
  }

  /** The two `range(scale)` loops for one lit cell: the `s` x `s` block with top-left
      corner (`left`, `top`), clipped to the frame, set to `polarity`. */
  method FillBlock(data: seq<byte>, width: nat, height: nat, left: int, top: int, s: int, polarity: int)
    returns (d: seq<byte>)
    requires width * height <= 4 * |data| && IsPixelValue(polarity)
    ensures SamePadding(d, data, width, height)
    ensures forall x, y :: InBounds(width, height, x, y) ==>
              PixelOf(d, width, x, y)
              == if left <= x < left + s && top <= y < top + s then polarity else PixelOf(data, width, x, y)
  {
    d := data;
    var sy := 0;
    while sy < s
      invariant s > 0 ==> 0 <= sy <= s
      invariant s <= 0 ==> sy == 0
      invariant SamePadding(d, data, width, height)
      invariant forall x, y :: InBounds(width, height, x, y) ==>
                  PixelOf(d, width, x, y)
                  == if left <= x < left + s && top <= y < top + sy then polarity else PixelOf(data, width, x, y)
    {
      d := FillSpan(d, width, height, left, left + s - 1, top + sy, polarity);
      sy := sy + 1;
    }
  }

  /** `render_char`: exactly the pixels covered by the character's glyph (the blank glyph
      for characters outside the font) are set to `polarity`. */
  method RenderChar(data: seq<byte>, width: nat, height: nat, c: char, x0: int, y0: int, s: int, polarity: int)
    returns (d: seq<byte>)
    requires width * height <= 4 * |data| && IsPixelValue(polarity)
    ensures SamePadding(d, data, width, height)
    ensures forall x, y :: InBounds(width, height, x, y) ==>
              PixelOf(d, width, x, y)
              == if Covered(GlyphOf(c), x0, y0, s, x, y) then polarity else PixelOf(data, width, x, y)
  {
    var g := GlyphOf(c);
    d := data;
    var row := 0;
    while row < |g|
      invariant 0 <= row <= |g|
      invariant SamePadding(d, data, width, height)
      invariant forall x, y :: InBounds(width, height, x, y) ==>
                  PixelOf(d, width, x, y)
                  == if Covered(g, x0, y0, s, x, y) && (y - y0) / s < row then polarity
                     else PixelOf(data, width, x, y)
    {
      d := RenderRow(d, data, width, height, g, row, x0, y0, s, polarity);
      row := row + 1;
    }
  }

  /** One glyph row of `render_char`: its lit cells, left to right. */
  method RenderRow(d0: seq<byte>, data: seq<byte>, width: nat, height: nat, g: Glyph, row: nat,
                   x0: int, y0: int, s: int, polarity: int)
    returns (d: seq<byte>)
    requires width * height <= 4 * |data| && IsPixelValue(polarity) && row < |g|
    requires SamePadding(d0, data, width, height)
    requires forall x, y :: InBounds(width, height, x, y) ==>
               PixelOf(d0, width, x, y)
               == if Covered(g, x0, y0, s, x, y) && (y - y0) / s < row then polarity
                  else PixelOf(data, width, x, y)
    ensures SamePadding(d, data, width, height)
    ensures forall x, y :: InBounds(width, height, x, y) ==>
              PixelOf(d, width, x, y)
              == if Covered(g, x0, y0, s, x, y) && (y - y0) / s < row + 1 then polarity
                 else PixelOf(data, width, x, y)
  {
    d := d0;
    var col := 0;
    while col < |g[row]|
      invariant 0 <= col <= |g[row]|
      invariant SamePadding(d, data, width, height)
      invariant forall x, y :: InBounds(width, height, x, y) ==>
                  PixelOf(d, width, x, y)
                  == if Covered(g, x0, y0, s, x, y)
                        && ((y - y0) / s < row || ((y - y0) / s == row && (x - x0) / s < col))
                     then polarity
                     else PixelOf(data, width, x, y)
    {
      if g[row][col] == '#' {
        var d1 := d;
        d := FillBlock(d, width, height, x0 + col * s, y0 + row * s, s, polarity);
        forall x, y | InBounds(width, height, x, y)
          ensures PixelOf(d, width, x, y)
                  == if Covered(g, x0, y0, s, x, y)
                        && ((y - y0) / s < row || ((y - y0) / s == row && (x - x0) / s < col + 1))
                     then polarity
                     else PixelOf(data, width, x, y)
        {
          if s > 0 {
            BlockIff(x, x0, col, s);
            BlockIff(y, y0, row, s);
          }
        }
      }
      col := col + 1;
    }
    forall x, y | InBounds(width, height, x, y) && Covered(g, x0, y0, s, x, y) && (y - y0) / s == row
      ensures (x - x0) / s < |g[row]|
    {
    }
  }

  /** One more character adds exactly that character's glyph. */
  lemma CoveredBeforeStep(text: string, i: nat, x0: int, y0: int, s: int, x: int, y: int)
    requires i < |text|
    ensures CoveredBefore(text, i + 1, x0, y0, s, x, y)
            <==> CoveredBefore(text, i, x0, y0, s, x, y) || CharCovers(text, i, x0, y0, s, x, y)
  {
    if CoveredBefore(text, i + 1, x0, y0, s, x, y) {
      var j :| 0 <= j < i + 1 && CharCovers(text, j, x0, y0, s, x, y);
      if j < i {
        assert CoveredBefore(text, i, x0, y0, s, x, y);
      }
    }
  }

  /** `render_text`: exactly the pixels covered by some character's glyph are set. */
  method RenderText(data: seq<byte>, width: nat, height: nat, text: string, x0: int, y0: int, s: int, polarity: int)
    returns (d: seq<byte>)
    requires width * height <= 4 * |data| && IsPixelValue(polarity)
    ensures SamePadding(d, data, width, height)
    ensures forall x, y :: InBounds(width, height, x, y) ==>
              PixelOf(d, width, x, y)
              == if TextCovered(text, x0, y0, s, x, y) then polarity else PixelOf(data, width, x, y)
  {
    d := data;
    var xPos := x0;
    var i := 0;
    while i < |text|
      invariant 0 <= i <= |text|
      invariant xPos == x0 + i * Advance(s)
      invariant SamePadding(d, data, width, height)
      invariant forall x, y :: InBounds(width, height, x, y) ==>
                  PixelOf(d, width, x, y)
                  == if CoveredBefore(text, i, x0, y0, s, x, y) then polarity else PixelOf(data, width, x, y)
    {
      var d0 := d;
      d := RenderChar(d, width, height, text[i], xPos, y0, s, polarity);
      forall x, y | InBounds(width, height, x, y)
        ensures PixelOf(d, width, x, y)
                == if CoveredBefore(text, i + 1, x0, y0, s, x, y) then polarity else PixelOf(data, width, x, y)
      {
        CoveredBeforeStep(text, i, x0, y0, s, x, y);
      }
      xPos := xPos + Advance(s);
      i := i + 1;
    }
  }

  /** `get_text_width`: the advance of every character but the last spacing. */
  function TextWidth(text: string, s: int): (w: int)
    ensures |text| > 0 && s > 0 ==> w == (|text| - 1) * Advance(s) + CharWidth * s
  {
    |text| * (CharWidth + CharSpacing) * s - CharSpacing * s
  }

  /** A rendered text lies in the `TextWidth` x `7*s` box at its start. */
  lemma TextExtent(text: string, x0: int, y0: int, s: int, x: int, y: int)
    requires TextCovered(text, x0, y0, s, x, y)
    ensures x0 <= x < x0 + TextWidth(text, s)
    ensures y0 <= y < y0 + CharHeight * s
  {
    var i :| 0 <= i < |text| && CharCovers(text, i, x0, y0, s, x, y);
    GlyphExtent(GlyphOf(text[i]), x0 + i * Advance(s), y0, s, x, y);
    Geometry.MulMono(i, |text| - 1, Advance(s));
  }

  /** A glyph drawn at (`x0`, `y0`) lies in the `5*s` x `7*s` box there. */
  lemma GlyphExtent(g: Glyph, x0: int, y0: int, s: int, x: int, y: int)
    requires WellShaped(g) && Covered(g, x0, y0, s, x, y)
    ensures x0 <= x < x0 + CharWidth * s
    ensures y0 <= y < y0 + CharHeight * s
  {
    BelowBlock(x - x0, s, CharWidth);
    BelowBlock(y - y0, s, CharHeight);
  }

  /** A non-negative value whose quotient by `s` is below `n` is below `n * s`. */
  lemma BelowBlock(v: int, s: int, n: int)
    requires s > 0 && v >= 0 && v / s < n
    ensures v < n * s
  {
    assert v == (v / s) * s + v % s;
    assert (v / s) * s <= (n - 1) * s by {
      Geometry.MulMono(v / s, n - 1, s);
    }
  }

  /** Characters outside the font light nothing. */
  lemma UnknownCharLightsNothing(c: char, x0: int, y0: int, s: int, x: int, y: int)
    requires Font(Upper(c)).None?
    ensures !Covered(GlyphOf(c), x0, y0, s, x, y)
  {
  }

  /** The blink mode's polarity: 1 for twenty frames, then 2 for twenty frames. */
  function BlinkPolarity(i: nat): (p: int)
    ensures p == Positive <==> (i / 20) % 2 == 0
    ensures p == Positive || p == Negative
  {
    if (i / 20) % 2 == 0 then Positive else Negative
  }

  /** The blink pattern repeats every forty frames. */
  lemma BlinkPeriod(i: nat)
    ensures BlinkPolarity(i + 40) == BlinkPolarity(i)
  {
    Geometry.DivModUnique(i + 40, 20, i / 20 + 2, i % 20);
  }

  /** Where the demo places a text: centred in the frame, with floor division. */
  function Origin(text: string, s: int): (o: (int, int))
  {
    ((Width as int - TextWidth(text, s)) / 2, (Height as int - CharHeight * s) / 2)
  }

  /** A text no wider and no taller than the frame, centred, lies inside the frame: no
      pixel of it is clipped. */
  lemma CentredTextInFrame(text: string, s: int, x: int, y: int)
    requires TextWidth(text, s) <= Width && CharHeight * s <= Height
    ensures TextCovered(text, Origin(text, s).0, Origin(text, s).1, s, x, y) ==> InBounds(Width, Height, x, y)
  {
    if TextCovered(text, Origin(text, s).0, Origin(text, s).1, s, x, y) {
      TextExtent(text, Origin(text, s).0, Origin(text, s).1, s, x, y);
    }
  }

  /** A zeroed demo frame with the centred text drawn in `polarity`. */
  method CentredTextFrame(text: string, s: int, polarity: int) returns (frame: seq<byte>)
    requires IsPixelValue(polarity)
    ensures |frame| == FrameSize
    ensures forall x, y :: InBounds(Width, Height, x, y) ==>
              PixelOf(frame, Width, x, y)
              == if TextCovered(text, Origin(text, s).0, Origin(text, s).1, s, x, y) then polarity else NoEvent
  {
    var blank := Zeros(FrameSize);
    frame := RenderText(blank, Width, Height, text, Origin(text, s).0, Origin(text, s).1, s, polarity);
  }

  /** `create_blink_frames`: `n` frames (none for `n <= 0`), frame `i` showing the centred
      text in `BlinkPolarity(i)`. */
  method CreateBlinkFrames(text: string, s: int, n: int) returns (frames: seq<seq<byte>>)
    ensures |frames| == if n > 0 then n else 0
    ensures forall i :: 0 <= i < |frames| ==> |frames[i]| == FrameSize
    ensures forall i, x, y :: 0 <= i < |frames| && InBounds(Width, Height, x, y) ==>
              PixelOf(frames[i], Width, x, y)
              == if TextCovered(text, Origin(text, s).0, Origin(text, s).1, s, x, y)
                 then BlinkPolarity(i) else NoEvent
  {
    frames := [];
    while |frames| < n
      invariant |frames| <= if n > 0 then n else 0
      invariant forall i :: 0 <= i < |frames| ==> |frames[i]| == FrameSize
      invariant forall i, x, y :: 0 <= i < |frames| && InBounds(Width, Height, x, y) ==>
                  PixelOf(frames[i], Width, x, y)
                  == if TextCovered(text, Origin(text, s).0, Origin(text, s).1, s, x, y)
                     then BlinkPolarity(i) else NoEvent
    {
      var frame := CentredTextFrame(text, s, BlinkPolarity(|frames|));
      frames := frames + [frame];
    }
  }

  /** `create_static_frames`: one frame with the centred text in polarity 1, repeated `n`
      times (none for `n <= 0`). */
  method CreateStaticFrames(text: string, s: int, n: int) returns (frames: seq<seq<byte>>)
    ensures |frames| == if n > 0 then n else 0
    ensures forall i :: 0 <= i < |frames| ==> frames[i] == frames[0]
    ensures forall i :: 0 <= i < |frames| ==> |frames[i]| == FrameSize
    ensures forall i, x, y :: 0 <= i < |frames| && InBounds(Width, Height, x, y) ==>
              PixelOf(frames[i], Width, x, y)
              == if TextCovered(text, Origin(text, s).0, Origin(text, s).1, s, x, y)
                 then Positive else NoEvent
  {
    var frame := CentredTextFrame(text, s, Positive);
    frames := seq(if n > 0 then n else 0, _ => frame);
  }
}

=== FILE: unpacker.dfy ===
/** The converter's frame unpacker: turns one 2-bit packed frame into an ordered list of
    `(timestamp, x, y, polarity)` events. */
module FrameUnpacker {
  import opened Bytes
  import Geometry
  import PackedFrame

  /** One output event. `polarity` is true for a positive (01) pixel. */
  datatype Event = Event(timestamp: int, x: int, y: int, polarity: bool)

  /** An unpacker: its configuration, the frame size it expects and the constructor's
      table of base pixel indices, one per byte. */
  datatype Unpacker = Unpacker(cfg: Geometry.Config, expected: nat, baseTable: seq<int>)
  {
    /** The constructor's invariant: one table entry per expected byte, entry `i` being
        the index `4 * i` of the first pixel stored in byte `i`. */
    predicate Valid()
    {
      |baseTable| == expected && forall i :: 0 <= i < |baseTable| ==> baseTable[i] == 4 * i
    }
  }

  /** Builds the table of base pixel indices for `size` bytes. */
  method BuildBaseTable(size: nat) returns (table: seq<int>)
    ensures |table| == size
    ensures forall i :: 0 <= i < size ==> table[i] == 4 * i
  {
    table := [];
    var byteIdx := 0;
    while byteIdx < size
      invariant 0 <= byteIdx <= size
      invariant |table| == byteIdx
      invariant forall i :: 0 <= i < byteIdx ==> table[i] == 4 * i
    {
      table := table + [byteIdx * 4];
      byteIdx := byteIdx + 1;
    }
  }

  /** The constructor as written: it expects `frame_size()` bytes, the converter's
      two-channel size `2 * floor(width * height / 8)`. */
  method New(cfg: Geometry.Config) returns (u: Unpacker)
    ensures u.Valid() && u.cfg == cfg
    ensures u.expected == cfg.FrameSize()
  {
    var table := BuildBaseTable(cfg.FrameSize());
    u := Unpacker(cfg, cfg.FrameSize(), table);
  }

  /** The constructor with the size the format documents, `(width * height + 3) / 4`,
      which covers every pixel. */
  method NewCorrected(cfg: Geometry.Config) returns (u: Unpacker)
    ensures u.Valid() && u.cfg == cfg
    ensures u.expected == Geometry.PackedSize(cfg.PixelsPerChannel())
  {
    var size := Geometry.PackedSize(cfg.PixelsPerChannel());
    var table := BuildBaseTable(size);
    u := Unpacker(cfg, size, table);
  }

  /** The `static_cast<int16_t>` of a coordinate: two's-complement truncation to 16 bits. */
  function Int16(v: int): (r: int)
    ensures -32768 <= r < 32768
    ensures (r - v) % 65536 == 0
  {
    (v + 32768) % 65536 - 32768
  }

  /** A value that fits in 16 bits is unchanged by the cast. */
  lemma Int16Identity(v: int)
    requires -32768 <= v < 32768
    ensures Int16(v) == v
  {
  }

  /** Whether pixel `p` produces an event: it lies inside the frame and its value is
      01 or 10 (00 is "no event" and 11 is unused). */
  predicate Emits(cfg: Geometry.Config, data: seq<byte>, p: int)
    requires 0 <= p < 4 * |data|
  {
    && p < cfg.PixelsPerChannel()
    && (PackedFrame.PixelAt(data, p) == PackedFrame.Positive || PackedFrame.PixelAt(data, p) == PackedFrame.Negative)
  }

  /** The timestamp every event of frame `frameNumber` carries. */
  function Timestamp(cfg: Geometry.Config, frameNumber: nat): int
  {
    frameNumber * cfg.frameIntervalUs
  }

  /** The event of pixel `p`: column `p % width`, row `p / width`, positive iff the
      pixel is 01. */
  function MakeEvent(cfg: Geometry.Config, data: seq<byte>, p: int, frameNumber: nat): Event
    requires 0 <= p < 4 * |data| && p < cfg.PixelsPerChannel()
  {
    var w := cfg.width;
    assert w > 0;
    Event(Timestamp(cfg, frameNumber), Int16(p % w), Int16(p / w), PackedFrame.PixelAt(data, p) == PackedFrame.Positive)
  }

  /** Reference definition: the indices below `n` of the pixels that produce events, in
      increasing order. Every listed pixel emits, and every emitting pixel is listed. */
  function EventPixels(cfg: Geometry.Config, data: seq<byte>, n: nat): (ps: seq<int>)
    requires n <= 4 * |data|
    ensures forall i :: 0 <= i < |ps| ==> 0 <= ps[i] < n && Emits(cfg, data, ps[i])
    ensures forall i, j :: 0 <= i < j < |ps| ==> ps[i] < ps[j]
    ensures forall p :: 0 <= p < n && Emits(cfg, data, p) ==> p in ps
  {
    if n == 0 then []
    else EventPixels(cfg, data, n - 1) + (if Emits(cfg, data, n - 1) then [n - 1] else [])
  }

  /** The events of the pixels below `n`, in pixel order. */
  function EventsBelow(cfg: Geometry.Config, data: seq<byte>, n: nat, frameNumber: nat): (es: seq<Event>)
    requires n <= 4 * |data|
  {
    var ps := EventPixels(cfg, data, n);
    seq(|ps|, i requires 0 <= i < |ps| => MakeEvent(cfg, data, ps[i], frameNumber))
  }

  /** Extending the scanned range by one pixel appends that pixel's event, if any. */
  lemma EventsBelowStep(cfg: Geometry.Config, data: seq<byte>, n: nat, frameNumber: nat)
    requires n < 4 * |data|
    ensures EventsBelow(cfg, data, n + 1, frameNumber)
         == EventsBelow(cfg, data, n, frameNumber)
            + (if Emits(cfg, data, n) then [MakeEvent(cfg, data, n, frameNumber)] else [])
  {
  }

  /** No pixel of a zero byte emits. */
  lemma ZeroPixel(cfg: Geometry.Config, data: seq<byte>, i: nat, p: nat)
    requires i < |data| && data[i] == 0 && 4 * i <= p < 4 * i + 4
    ensures !Emits(cfg, data, p)
  {
    ZeroByteSlots(data[i]);
    assert p / 4 == i;
  }

  /** A zero byte holds no events: scanning its four pixels adds nothing. */
  lemma ZeroByteAddsNothing(cfg: Geometry.Config, data: seq<byte>, i: nat, frameNumber: nat)
    requires i < |data| && data[i] == 0
    ensures EventsBelow(cfg, data, 4 * i + 4, frameNumber) == EventsBelow(cfg, data, 4 * i, frameNumber)
  {
    var b := 4 * i;
    forall p | b <= p < b + 4
      ensures !Emits(cfg, data, p)
    {
      ZeroPixel(cfg, data, i, p);
    }
    SilentPixels(cfg, data, b, b + 4);
    SamePixelsSameEvents(cfg, data, b + 4, b, frameNumber);
  }

  /** Scanning pixels none of which emits adds no event pixel. */
  lemma {:induction false} SilentPixels(cfg: Geometry.Config, data: seq<byte>, lo: nat, hi: nat)
    requires lo <= hi <= 4 * |data|
    requires forall p :: lo <= p < hi ==> !Emits(cfg, data, p)
    ensures EventPixels(cfg, data, hi) == EventPixels(cfg, data, lo)
    decreases hi - lo
  {
    if lo < hi {
      SilentPixels(cfg, data, lo, hi - 1);
      SilentPixel(cfg, data, hi - 1);
    }
  }

  /** A pixel that does not emit adds no event pixel. */
  lemma SilentPixel(cfg: Geometry.Config, data: seq<byte>, n: nat)
    requires n < 4 * |data| && !Emits(cfg, data, n)
    ensures EventPixels(cfg, data, n + 1) == EventPixels(cfg, data, n)
  {
    assert EventPixels(cfg, data, n + 1) == EventPixels(cfg, data, n) + [];
  }

  /** The events are a function of the event pixels. */
  lemma SamePixelsSameEvents(cfg: Geometry.Config, data: seq<byte>, n: nat, m: nat, frameNumber: nat)
    requires n <= 4 * |data| && m <= 4 * |data|
    requires EventPixels(cfg, data, n) == EventPixels(cfg, data, m)
    ensures EventsBelow(cfg, data, n, frameNumber) == EventsBelow(cfg, data, m, frameNumber)
  {
  }

  /** `unpack`. A frame shorter than the expected size is rejected before the output is
      touched: the result is 0 and the previous events are returned unchanged. Otherwise
      the output is cleared and holds, in pixel order, one event for every pixel of the
      first `expected` bytes that emits, and the result is their number. */
  method Unpack(u: Unpacker, data: seq<byte>, frameNumber: nat, prior: seq<Event>)
    returns (count: nat, events: seq<Event>)
    requires u.Valid()
    ensures |data| < u.expected ==> count == 0 && events == prior
    ensures |data| >= u.expected ==>
              4 * u.expected <= 4 * |data| &&
              events == EventsBelow(u.cfg, data, 4 * u.expected, frameNumber) &&
              count == |events|
  {
    if |data| < u.expected {
      return 0, prior;
    }
    events := [];
    var byteIdx := 0;
    while byteIdx < u.expected
      invariant 0 <= byteIdx <= u.expected
      invariant events == EventsBelow(u.cfg, data, 4 * byteIdx, frameNumber)
    {
      events := ScanByte(u, data, byteIdx, frameNumber, events);
      byteIdx := byteIdx + 1;
    }
    count := |events|;
  }

  /** One iteration of the outer loop of `unpack`: a zero byte is skipped without
      looking at its pixels, any other byte goes through the inner loop. */
  method ScanByte(u: Unpacker, data: seq<byte>, byteIdx: nat, frameNumber: nat, before: seq<Event>)
    returns (events: seq<Event>)
    requires u.Valid() && byteIdx < u.expected && byteIdx < |data|
    requires before == EventsBelow(u.cfg, data, 4 * byteIdx, frameNumber)
    ensures events == EventsBelow(u.cfg, data, 4 * (byteIdx + 1), frameNumber)
  {
    var byteVal := data[byteIdx];
    if byteVal == 0 {
      ZeroByteAddsNothing(u.cfg, data, byteIdx, frameNumber);
      events := before;
    } else {
      events := UnpackByte(u, data, byteIdx, frameNumber, before);
    }
  }

  /** The inner loop of `unpack`: the four pixels of byte `byteIdx`, most significant
      pair first, each appending its event when it emits. */
  method UnpackByte(u: Unpacker, data: seq<byte>, byteIdx: nat, frameNumber: nat, before: seq<Event>)
    returns (events: seq<Event>)
    requires u.Valid() && byteIdx < u.expected && byteIdx < |data|
    requires before == EventsBelow(u.cfg, data, 4 * byteIdx, frameNumber)
    ensures events == EventsBelow(u.cfg, data, 4 * byteIdx + 4, frameNumber)
  {
    events := before;
    var byteVal := data[byteIdx];
    var timestamp := Timestamp(u.cfg, frameNumber);
    var basePixel := u.baseTable[byteIdx];
    assert basePixel == 4 * byteIdx;
    var pxInByte := 0;
    while pxInByte < 4
      invariant 0 <= pxInByte <= 4
      invariant events == EventsBelow(u.cfg, data, basePixel + pxInByte, frameNumber)
    {
      var pixelIdx := basePixel + pxInByte;
      var pixelVal := ((byteVal >> (6 - pxInByte * 2)) & 3) as int;
      assert pixelVal == PackedFrame.PixelAt(data, pixelIdx) by {
        ShiftAndMaskIsPixel(data, byteIdx, pxInByte, pixelIdx);
      }
      events := UnpackPixel(u.cfg, data, pixelIdx, pixelVal, timestamp, frameNumber, events);
      pxInByte := pxInByte + 1;
    }
  }

  /** The inner loop's shift-and-mask of byte `byteIdx` reads pixel `4 * byteIdx + k`. */
  lemma ShiftAndMaskIsPixel(data: seq<byte>, byteIdx: nat, k: nat, pixelIdx: nat)
    requires byteIdx < |data| && k < 4 && pixelIdx == 4 * byteIdx + k
    ensures pixelIdx < 4 * |data|
    ensures ((data[byteIdx] >> (6 - k * 2)) & 3) as int == PackedFrame.PixelAt(data, pixelIdx)
  {
    assert pixelIdx / 4 == byteIdx && pixelIdx % 4 == k;
    SlotIsShiftAndMask(data[byteIdx], k);
  }

  /** One step of the inner loop: pixel `pixelIdx`, whose 2-bit value is `pixelVal`, is
      skipped when it is 00 or 11 or lies past the frame, and appends its event otherwise. */
  method UnpackPixel(cfg: Geometry.Config, data: seq<byte>, pixelIdx: nat, pixelVal: int,
                     timestamp: int, frameNumber: nat, before: seq<Event>)
    returns (events: seq<Event>)
    requires pixelIdx < 4 * |data| && pixelVal == PackedFrame.PixelAt(data, pixelIdx)
    requires timestamp == Timestamp(cfg, frameNumber)
    requires before == EventsBelow(cfg, data, pixelIdx, frameNumber)
    ensures events == EventsBelow(cfg, data, pixelIdx + 1, frameNumber)
  {
    EventsBelowStep(cfg, data, pixelIdx, frameNumber);
    events := before;
    if pixelVal == 0 || pixelVal == 3 {
      assert !Emits(cfg, data, pixelIdx);
    } else if pixelIdx >= cfg.PixelsPerChannel() {
      assert !Emits(cfg, data, pixelIdx);
    } else {
      assert Emits(cfg, data, pixelIdx);
      var width := cfg.width;
      var x := Int16(pixelIdx % width);
      var y := Int16(pixelIdx / width);
      var polarity := pixelVal == 1;
      assert Event(timestamp, x, y, polarity) == MakeEvent(cfg, data, pixelIdx, frameNumber);
      events := events + [Event(timestamp, x, y, polarity)];
    }
  }

  /** Only the first `e` bytes are read: bytes after them never affect the events. */
  lemma {:induction false} TrailingBytesIgnored(cfg: Geometry.Config, data: seq<byte>, e: nat, n: nat)
    requires e <= |data| && n <= 4 * e
    ensures EventPixels(cfg, data, n) == EventPixels(cfg, data[..e], n)
  {
    if n > 0 {
      TrailingBytesIgnored(cfg, data, e, n - 1);
      assert Emits(cfg, data, n - 1) == Emits(cfg, data[..e], n - 1) by {
        PixelInPrefix(data, e, n - 1);
      }
    }
  }

  /** A pixel stored in the first `e` bytes reads the same from those bytes alone. */
  lemma PixelInPrefix(data: seq<byte>, e: nat, p: nat)
    requires e <= |data| && p < 4 * e
    ensures PackedFrame.PixelAt(data, p) == PackedFrame.PixelAt(data[..e], p)
  {
    assert p / 4 < e;
    assert data[..e][p / 4] == data[p / 4];
  }

  /** Hence the unpacked events of a frame equal those of its first `e` bytes. */
  lemma TrailingBytesIgnoredEvents(cfg: Geometry.Config, data: seq<byte>, e: nat, frameNumber: nat)
    requires e <= |data|
    ensures EventsBelow(cfg, data, 4 * e, frameNumber) == EventsBelow(cfg, data[..e], 4 * e, frameNumber)
  {
    TrailingBytesIgnored(cfg, data, e, 4 * e);
    var ps := EventPixels(cfg, data, 4 * e);
    forall i | 0 <= i < |ps|
      ensures MakeEvent(cfg, data, ps[i], frameNumber) == MakeEvent(cfg, data[..e], ps[i], frameNumber)
    {
      assert ps[i] / 4 < e;
    }
  }

  /** The row-major pixel index an event stands for. */
  function EventIndex(cfg: Geometry.Config, ev: Event): int
  {
    Geometry.Index(cfg.width, ev.x, ev.y)
  }

  /** For frames whose coordinates fit the 16-bit event fields, event `i` of the output
      stands for pixel `EventPixels[i]`: its column and row are that pixel's, its polarity
      is true exactly for a 01 pixel, its timestamp is `frameNumber * frameIntervalUs`, and
      it lies inside the frame. */
  lemma EventFields(cfg: Geometry.Config, data: seq<byte>, n: nat, frameNumber: nat, i: nat)
    requires cfg.width <= 32768 && cfg.height <= 32768
    requires n <= 4 * |data|
    requires i < |EventPixels(cfg, data, n)|
    ensures var p := EventPixels(cfg, data, n)[i];
      var ev := EventsBelow(cfg, data, n, frameNumber)[i];
      && ev.x == p % cfg.width && ev.y == p / cfg.width
      && 0 <= ev.x < cfg.width && 0 <= ev.y < cfg.height
      && EventIndex(cfg, ev) == p
      && (ev.polarity <==> PackedFrame.PixelAt(data, p) == PackedFrame.Positive)
      && ev.timestamp == frameNumber * cfg.frameIntervalUs
  {
    var p := EventPixels(cfg, data, n)[i];
    Geometry.CoordinatesOfIndex(cfg.width, cfg.height, p);
    Int16Identity(p % cfg.width);
    Int16Identity(p / cfg.width);
  }

  /** Events come out in strictly increasing pixel-index order. */
  lemma EventsInPixelOrder(cfg: Geometry.Config, data: seq<byte>, n: nat, frameNumber: nat)
    requires cfg.width <= 32768 && cfg.height <= 32768
    requires n <= 4 * |data|
    ensures var es := EventsBelow(cfg, data, n, frameNumber);
      forall i, j :: 0 <= i < j < |es| ==> EventIndex(cfg, es[i]) < EventIndex(cfg, es[j])
  {
    var es := EventsBelow(cfg, data, n, frameNumber);
    forall i, j | 0 <= i < j < |es|
      ensures EventIndex(cfg, es[i]) < EventIndex(cfg, es[j])
    {
      EventFields(cfg, data, n, frameNumber, i);
      EventFields(cfg, data, n, frameNumber, j);
    }
  }

  /** The number of pixels of a pixel list that are events (value 1 or 2): the viewers'
      `popcount(pos_mask) + popcount(neg_mask)`. */
  function CountEvents(px: seq<int>): nat
  {
    if |px| == 0 then 0
    else CountEvents(px[..|px| - 1])
         + (if px[|px| - 1] == PackedFrame.Positive || px[|px| - 1] == PackedFrame.Negative then 1 else 0)
  }

  /** The number of events produced for the pixels below `n` is the number of event
      pixels among them. */
  lemma {:induction false} EventCount(cfg: Geometry.Config, data: seq<byte>, n: nat)
    requires n <= 4 * |data| && n <= cfg.PixelsPerChannel()
    ensures |EventPixels(cfg, data, n)| == CountEvents(PackedFrame.Decode(data, n))
  {
    if n > 0 {
      EventCount(cfg, data, n - 1);
      assert PackedFrame.Decode(data, n)[..n - 1] == PackedFrame.Decode(data, n - 1);
    }
  }

  /** Once the expected size covers the frame (`4 * expected >= width * height`) the
      event pixels are exactly the pixels of the frame that hold 01 or 10, and the count
      is the number of such pixels. */
  lemma {:induction false} FullCoverage(cfg: Geometry.Config, data: seq<byte>, expected: nat)
    requires expected <= |data| && cfg.PixelsPerChannel() <= 4 * expected
    ensures var ps := EventPixels(cfg, data, 4 * expected);
      var total := cfg.PixelsPerChannel();
      && (forall p :: 0 <= p < total ==>
            (p in ps <==> PackedFrame.PixelAt(data, p) in {PackedFrame.Positive, PackedFrame.Negative}))
      && |ps| == CountEvents(PackedFrame.Decode(data, total))
  {
    var total := cfg.PixelsPerChannel();
    NoEventsPastFrame(cfg, data, total, 4 * expected);
    EventCount(cfg, data, total);
  }

  /** Pixels at or past the pixel count never emit, so scanning further adds nothing. */
  lemma {:induction false} NoEventsPastFrame(cfg: Geometry.Config, data: seq<byte>, total: nat, n: nat)
    requires total == cfg.PixelsPerChannel() && total <= n <= 4 * |data|
    ensures EventPixels(cfg, data, n) == EventPixels(cfg, data, total)
  {
    if n > total {
      NoEventsPastFrame(cfg, data, total, n - 1);
    }
  }

  /** A 2x2 frame whose pixel (0,0) is positive: the converter's size for it is
      `2 * floor(4 / 8) == 0` bytes, so the as-written unpacker produces no events, while
      the documented size of 1 byte produces the one event. */
  lemma AsWrittenSizeDropsPixels()
    ensures var cfg := Geometry.Default().(width := 2, height := 2);
      && cfg.FrameSize() == 0
      && Geometry.PackedSize(cfg.PixelsPerChannel()) == 1
      && PackedFrame.PixelAt([0x40], 0) == PackedFrame.Positive
      && EventsBelow(cfg, [0x40], 4 * cfg.FrameSize(), 0) == []
      && EventsBelow(cfg, [0x40], 4 * Geometry.PackedSize(cfg.PixelsPerChannel()), 0)
         == [Event(0, 0, 0, true)]
  {
    var cfg := Geometry.Default().(width := 2, height := 2);
    assert cfg.FrameSize() == 0 && cfg.PixelsPerChannel() == 4;
    assert Geometry.PackedSize(4) == 1;
    OnePositivePixel(cfg);
  }

  /** In the byte 0x40 only pixel 0 is an event, and it is positive. */
  lemma OnePositivePixel(cfg: Geometry.Config)
    requires cfg.width == 2 && cfg.PixelsPerChannel() == 4 && cfg.frameIntervalUs >= 0
    ensures PackedFrame.PixelAt([0x40], 0) == PackedFrame.Positive
    ensures EventsBelow(cfg, [0x40], 4, 0) == [Event(0, 0, 0, true)]
  {
    var data: seq<byte> := [0x40];
    Byte40Pixels();
    assert EventPixels(cfg, data, 1) == [0] by {
      assert Emits(cfg, data, 0);
      assert EventPixels(cfg, data, 0) == [];
    }
    SilentPixels(cfg, data, 1, 4);
    assert MakeEvent(cfg, data, 0, 0) == Event(0, 0, 0, true);
  }

  /** The four pixels of the byte 0x40: 01, 00, 00, 00. */
  lemma Byte40Pixels()
    ensures PackedFrame.PixelAt([0x40], 0) == PackedFrame.Positive
    ensures forall p :: 1 <= p < 4 ==> PackedFrame.PixelAt([0x40], p) == PackedFrame.NoEvent
  {
    var data: seq<byte> := [0x40];
    assert Slot(0x40, 0) == 1 && Slot(0x40, 1) == 0 && Slot(0x40, 2) == 0 && Slot(0x40, 3) == 0;
    forall p | 1 <= p < 4
      ensures PackedFrame.PixelAt(data, p) == PackedFrame.NoEvent
    {
      assert p / 4 == 0 && data[p / 4] == 0x40;
    }
  }

  /** With the corrected size every pixel of every frame is covered: the events are
      exactly the frame's 01 and 10 pixels, whatever the geometry. */
  lemma CorrectedSizeCoversEveryPixel(cfg: Geometry.Config, data: seq<byte>)
    requires Geometry.PackedSize(cfg.PixelsPerChannel()) <= |data|
    ensures var ps := EventPixels(cfg, data, 4 * Geometry.PackedSize(cfg.PixelsPerChannel()));
      forall p :: 0 <= p < cfg.PixelsPerChannel() ==>
        (p in ps <==> PackedFrame.PixelAt(data, p) in {PackedFrame.Positive, PackedFrame.Negative})
  {
    FullCoverage(cfg, data, Geometry.PackedSize(cfg.PixelsPerChannel()));
  }

  /** The as-written size covers every pixel exactly when the pixel count is a multiple
      of eight, the case of the default 2048x2048 geometry. */
  lemma AsWrittenSizeCoversIff(cfg: Geometry.Config)
    ensures cfg.PixelsPerChannel() <= 4 * cfg.FrameSize() <==> cfg.PixelsPerChannel() % 8 == 0
  {
  }
}

=== FILE: viewer.dfy ===
/** The integer state of the professional viewer: frame and event counters, the logical
    tick and the two time surfaces it stamps, the bounded event-rate history,
    `reset_stats`, the view-mode keys, the standard rendering and the runtime label. */
module Viewer {
  import opened Wrappers
  import opened Bytes
  import opened PackedFrame
  import FrameUnpacker

  /** The view modes selected with the keys 1 to 4. */
  const ModeStandard: int := 1
  const ModeTimeSurface: int := 2
  const ModeHeatmap: int := 3
  const ModeSplit: int := 4

  /** `deque(maxlen=100)`. */
  const HistoryCapacity: nat := 100

  /** The viewer's integer state. The time surfaces hold, per pixel in row-major order,
      the tick of the last frame in which the pixel was positive (negative). */
  datatype Visualizer = Visualizer(
    width: nat,
    height: nat,
    mode: int,
    currentTime: nat,
    timePos: seq<nat>,
    timeNeg: seq<nat>,
    frameCount: nat,
    totalEvents: nat,
    eventsThisSecond: nat,
    fpsFrameCount: nat,
    history: seq<int>)

  /** The state invariant: surfaces cover the frame, no stamp lies in the future and
      the history is within its capacity. */
  predicate Valid(v: Visualizer)
  {
    && |v.timePos| == v.width * v.height
    && |v.timeNeg| == v.width * v.height
    && (forall p :: 0 <= p < |v.timePos| ==> v.timePos[p] <= v.currentTime)
    && (forall p :: 0 <= p < |v.timeNeg| ==> v.timeNeg[p] <= v.currentTime)
    && |v.history| <= HistoryCapacity
  }

  /** The freshly constructed viewer: standard mode, tick 0, zeroed surfaces and
      counters, empty history. */
  function Init(width: nat, height: nat): (v: Visualizer)
    ensures Valid(v)
    ensures v.mode == ModeStandard && v.currentTime == 0 && v.frameCount == 0 && v.totalEvents == 0
  {
    Visualizer(width, height, ModeStandard, 0, seq(width * height, _ => 0), seq(width * height, _ => 0),
               0, 0, 0, 0, [])
  }

  /** `events_history.append(x)` on a deque bounded to 100 entries: when full, the oldest
      entry is dropped. */
  function AppendBounded(h: seq<int>, x: int): (r: seq<int>)
    requires |h| <= HistoryCapacity
    ensures |r| <= HistoryCapacity && |r| > 0 && r[|r| - 1] == x
    ensures |h| < HistoryCapacity ==> r == h + [x]
    ensures |h| == HistoryCapacity ==> r == h[1..] + [x]
  {
    if |h| < HistoryCapacity then h + [x] else h[1..] + [x]
  }

  /** The history after appending `xs` to an empty deque. */
  function HistoryOf(xs: seq<int>): (h: seq<int>)
    ensures |h| <= HistoryCapacity
  {
    if |xs| == 0 then [] else AppendBounded(HistoryOf(xs[..|xs| - 1]), xs[|xs| - 1])
  }

  /** The bounded history is always the latest `min(n, 100)` rates, oldest first. */
  lemma {:induction false} HistoryKeepsLatest(xs: seq<int>)
    ensures |HistoryOf(xs)| == if |xs| < HistoryCapacity then |xs| else HistoryCapacity
    ensures HistoryOf(xs) == xs[|xs| - |HistoryOf(xs)|..]
  {
    if |xs| > 0 {
      HistoryKeepsLatest(xs[..|xs| - 1]);
      KeepLatestStep(xs, HistoryOf(xs[..|xs| - 1]));
    }
  }

  /** One append keeps a history that is the latest part of the input the latest part
      of the longer input. */
  lemma KeepLatestStep(xs: seq<int>, h: seq<int>)
    requires |xs| > 0
    requires |h| == if |xs| - 1 < HistoryCapacity then |xs| - 1 else HistoryCapacity
    requires h == xs[..|xs| - 1][|xs| - 1 - |h|..]
    ensures var r := AppendBounded(h, xs[|xs| - 1]);
            |r| == (if |xs| < HistoryCapacity then |xs| else HistoryCapacity)
            && r == xs[|xs| - |r|..]
  {
    var r := AppendBounded(h, xs[|xs| - 1]);
    if |h| < HistoryCapacity {
      assert xs[|xs| - |r|..] == h + [xs[|xs| - 1]];
    } else {
      assert xs[|xs| - |r|..] == h[1..] + [xs[|xs| - 1]];
    }
  }

  /** The number of set entries of a mask (`np.sum`). */
  function Popcount(mask: seq<bool>): nat
  {
    if |mask| == 0 then 0 else Popcount(mask[..|mask| - 1]) + (if mask[|mask| - 1] then 1 else 0)
  }

  /** Whether each pixel has value `v`. */
  function ValueMask(px: seq<int>, v: int): (m: seq<bool>)
    ensures |m| == |px| && forall p :: 0 <= p < |px| ==> (m[p] <==> px[p] == v)
  {
    seq(|px|, p requires 0 <= p < |px| => px[p] == v)
  }

  /** Counting the two masks counts the pixels that carry an event. */
  lemma {:induction false} MaskCounts(px: seq<int>)
    ensures Popcount(ValueMask(px, Positive)) + Popcount(ValueMask(px, Negative))
            == FrameUnpacker.CountEvents(px)
  {
    if |px| > 0 {
      var init := px[..|px| - 1];
      MaskCounts(init);
      assert ValueMask(px, Positive)[..|px| - 1] == ValueMask(init, Positive);
      assert ValueMask(px, Negative)[..|px| - 1] == ValueMask(init, Negative);
    }
  }

  /** The viewer counts as many events in a frame as the converter emits for it. */
  lemma ViewerCountMatchesConverter(data: seq<byte>, width: nat, height: nat)
    requires width * height <= 4 * |data|
    ensures var m := UnpackMasks(data, width, height).value;
            Popcount(m.pos) + Popcount(m.neg) == FrameUnpacker.CountEvents(Decode(data, width * height))
  {
    var m := UnpackMasks(data, width, height).value;
    var px := Decode(data, width * height);
    assert m.pos == ValueMask(px, Positive);
    assert m.neg == ValueMask(px, Negative);
    MaskCounts(px);
  }

  /** What the once-a-second rate check decided for this frame: the clock-driven test
      and the floating-point rate are outside the model and come in as this value. */
  datatype SecondTick = SameSecond | NewSecond(eventsPerSecond: int)

  /** The surfaces after stamping: the new tick where the mask is set, unchanged
      elsewhere. */
  function Stamp(surface: seq<nat>, mask: seq<bool>, tick: nat): (r: seq<nat>)
    requires |mask| == |surface|
    ensures |r| == |surface|
    ensures forall p :: 0 <= p < |surface| ==> r[p] == if mask[p] then tick else surface[p]
  {
    seq(|surface|, p requires 0 <= p < |surface| => if mask[p] then tick else surface[p])
  }

  /** `process_frame`: unpack the frame, count its events into the counters, on a new
      second push the rate to the history and restart the per-second counters, advance
      the tick by one and stamp it into both surfaces. Fails when the frame is too short
      to reshape. */
  function ProcessFrame(v: Visualizer, data: seq<byte>, tick: SecondTick)
    : (r: Result<(Visualizer, Masks, nat), FrameError>)
    requires Valid(v)
    ensures r.Ok? <==> v.width * v.height <= 4 * |data|
    ensures r.Ok? ==>
              var (v', m, n) := r.value;
              && m == UnpackMasks(data, v.width, v.height).value
              && n == Popcount(m.pos) + Popcount(m.neg)
              && Valid(v')
              && v'.width == v.width && v'.height == v.height && v'.mode == v.mode
              && v'.frameCount == v.frameCount + 1
              && v'.totalEvents == v.totalEvents + n
              && v'.currentTime == v.currentTime + 1
              && (forall p :: 0 <= p < |v.timePos| ==>
                    v'.timePos[p] == (if m.pos[p] then v'.currentTime else v.timePos[p]))
              && (forall p :: 0 <= p < |v.timeNeg| ==>
                    v'.timeNeg[p] == (if m.neg[p] then v'.currentTime else v.timeNeg[p]))
              && (tick.SameSecond? ==>
                    && v'.eventsThisSecond == v.eventsThisSecond + n
                    && v'.fpsFrameCount == v.fpsFrameCount + 1
                    && v'.history == v.history)
              && (tick.NewSecond? ==>
                    && v'.eventsThisSecond == 0 && v'.fpsFrameCount == 0
                    && v'.history == AppendBounded(v.history, tick.eventsPerSecond))
  {
    match UnpackMasks(data, v.width, v.height)
    case Err(e) => Err(e)
    case Ok(m) =>
      var n := Popcount(m.pos) + Popcount(m.neg);
      var counted := v.(frameCount := v.frameCount + 1, totalEvents := v.totalEvents + n,
                        eventsThisSecond := v.eventsThisSecond + n, fpsFrameCount := v.fpsFrameCount + 1);
      var rated := match tick
        case SameSecond => counted
        case NewSecond(rate) =>
          counted.(history := AppendBounded(counted.history, rate), fpsFrameCount := 0, eventsThisSecond := 0);
      var t := v.currentTime + 1;
      Ok((rated.(currentTime := t, timePos := Stamp(v.timePos, m.pos, t), timeNeg := Stamp(v.timeNeg, m.neg, t)),
          m, n))
  }

  /** Time-surface stamps never decrease, and a pixel's stamp is the current tick exactly
      when the pixel fired in the frame just processed (a stamp from earlier is older). */
  lemma StampsMonotone(v: Visualizer, data: seq<byte>, tick: SecondTick, p: nat)
    requires Valid(v) && v.width * v.height <= 4 * |data| && p < v.width * v.height
    ensures var (v', m, _) := ProcessFrame(v, data, tick).value;
            && v'.timePos[p] >= v.timePos[p] && v'.timeNeg[p] >= v.timeNeg[p]
            && (v'.timePos[p] == v'.currentTime <==> PixelAt(data, p) == Positive)
            && (v'.timeNeg[p] == v'.currentTime <==> PixelAt(data, p) == Negative)
  {
  }

  /** `reset_stats`: the counters, the history and both time surfaces are zeroed; the
      tick and the view mode are kept. */
  function ResetStats(v: Visualizer): (r: Visualizer)
    requires Valid(v)
    ensures Valid(r)
    ensures r.frameCount == 0 && r.totalEvents == 0 && r.eventsThisSecond == 0 && r.fpsFrameCount == 0
    ensures r.history == []
    ensures forall p :: 0 <= p < |r.timePos| ==> r.timePos[p] == 0
    ensures forall p :: 0 <= p < |r.timeNeg| ==> r.timeNeg[p] == 0
    ensures r.currentTime == v.currentTime && r.mode == v.mode
    ensures r.width == v.width && r.height == v.height
  {
    v.(frameCount := 0, totalEvents := 0, eventsThisSecond := 0, fpsFrameCount := 0, history := [],
       timePos := seq(|v.timePos|, _ => 0), timeNeg := seq(|v.timeNeg|, _ => 0))
  }

  /** After a reset the next frame is stamped with a tick above every stamp, so old and
      new events stay ordered. */
  lemma ResetKeepsTicksIncreasing(v: Visualizer, data: seq<byte>, tick: SecondTick)
    requires Valid(v) && v.width * v.height <= 4 * |data|
    ensures var r := ResetStats(v);
            var (v', _, _) := ProcessFrame(r, data, tick).value;
            v'.currentTime == v.currentTime + 1
            && (forall p :: 0 <= p < |v.timePos| ==> v.timePos[p] < v'.currentTime)
  {
  }

  /** The viewer's key commands: q, Esc, a digit, r, space, s (screenshot), and the rest. */
  datatype Key = Quit | Escape | Digit(d: int) | Reset | Pause | Screenshot | Other

  /** The viewer loop's flags next to the visualizer. `shown` records whether a frame
      has been displayed yet, which is when the loop's image variable is first bound. */
  datatype Session = Session(v: Visualizer, running: bool, paused: bool, shown: bool)

  /** The key handling of the main loop: q or Esc stops, 1 to 4 select a view mode,
      r resets the statistics, space toggles pause. A screenshot writes the last
      displayed image; before any frame was displayed there is no image, the write
      raises, and the loop's error handler ends the session. Anything else changes
      nothing. */
  function HandleKey(s: Session, k: Key): (r: Session)
    requires Valid(s.v) && s.running
    ensures Valid(r.v)
    ensures !r.running <==> k == Quit || k == Escape || (k == Screenshot && !s.shown)
    ensures k.Digit? && 1 <= k.d <= 4 ==> r == s.(v := s.v.(mode := k.d))
    ensures k == Reset ==> r == s.(v := ResetStats(s.v))
    ensures k == Pause ==> r == s.(paused := !s.paused)
    ensures k == Screenshot && s.shown ==> r == s
    ensures k == Screenshot && !s.shown ==> r == s.(running := false)
    ensures k == Other || (k.Digit? && !(1 <= k.d <= 4)) ==> r == s
  {
    match k
    case Quit => s.(running := false)
    case Escape => s.(running := false)
    case Digit(d) => if 1 <= d <= 4 then s.(v := s.v.(mode := d)) else s
    case Reset => s.(v := ResetStats(s.v))
    case Pause => s.(paused := !s.paused)
    case Screenshot => if s.shown then s else s.(running := false)
    case Other => s
  }

  /** A BGR colour. */
  datatype Color = Color(b: int, g: int, r: int)

  const Background: Color := Color(30, 30, 30)
  const PositiveColor: Color := Color(255, 180, 50)
  const NegativeColor: Color := Color(50, 50, 255)

  /** The colour a pixel value gets in the standard view. */
  function ColorOf(v: int): Color
  {
    if v == Negative then NegativeColor else if v == Positive then PositiveColor else Background
  }

  /** `render_standard`: fill with the background, paint the positive mask, then paint the
      negative mask; where both are set the negative colour, written last, remains. */
  method RenderStandard(m: Masks) returns (img: seq<Color>)
    requires |m.pos| == |m.neg|
    ensures |img| == |m.pos|
    ensures forall p :: 0 <= p < |img| ==>
              img[p] == if m.neg[p] then NegativeColor else if m.pos[p] then PositiveColor else Background
  {
    img := seq(|m.pos|, _ => Background);
    var p := 0;
    while p < |img|
      invariant 0 <= p <= |img| == |m.pos|
      invariant forall q :: 0 <= q < |img| ==>
                  img[q] == if q < p && m.pos[q] then PositiveColor else Background
    {
      if m.pos[p] {
        img := img[p := PositiveColor];
      }
      p := p + 1;
    }
    p := 0;
    while p < |img|
      invariant 0 <= p <= |img| == |m.pos|
      invariant forall q :: 0 <= q < |img| ==>
                  img[q] == if q < p && m.neg[q] then NegativeColor
                            else if m.pos[q] then PositiveColor else Background
    {
      if m.neg[p] {
        img := img[p := NegativeColor];
      }
      p := p + 1;
    }
  }

  /** The standard view of an unpacked frame colours each pixel by its 2-bit value: 1 and
      2 get their polarity colours and 0 and the unused 3 the background. */
  lemma StandardViewOfFrame(data: seq<byte>, width: nat, height: nat, img: seq<Color>)
    requires width * height <= 4 * |data|
    requires var m := UnpackMasks(data, width, height).value;
             |img| == |m.pos| &&
             forall p :: 0 <= p < |img| ==>
               img[p] == if m.neg[p] then NegativeColor else if m.pos[p] then PositiveColor else Background
    ensures forall p :: 0 <= p < |img| ==> img[p] == ColorOf(PixelAt(data, p))
  {
  }

  /** The decimal digits of `n`, most significant first, without leading zeros. */
  function DecimalString(n: nat): (s: string)
    ensures |s| > 0 && forall i :: 0 <= i < |s| ==> '0' <= s[i] <= '9'
  {
    if n < 10 then [DigitChar(n)] else DecimalString(n / 10) + [DigitChar(n % 10)]
  }

  function DigitChar(d: nat): (c: char)
    requires d < 10
    ensures '0' <= c <= '9' && c as int - '0' as int == d
  {
    ('0' as int + d) as char
  }

  /** The value of the two decimal digits `a` and `b`, read as a field. */
  function PairValue(a: char, b: char): int
  {
    (a as int - '0' as int) * 10 + (b as int - '0' as int)
  }

  /** `f"{n:02d}"`: at least two digits, zero-padded; below 100 exactly the two digits
      of `n`. */
  function TwoDigits(n: nat): (s: string)
    ensures |s| >= 2 && forall i :: 0 <= i < |s| ==> '0' <= s[i] <= '9'
    ensures n < 100 ==> |s| == 2 && PairValue(s[0], s[1]) == n
  {
    if n < 10 then "0" + DecimalString(n)
    else
      assert n < 100 ==> DecimalString(n) == DecimalString(n / 10) + [DigitChar(n % 10)];
      DecimalString(n)
  }

  /** `_format_runtime` for `elapsed` whole seconds: `H:MM:SS` from one hour on, `M:SS`
      below. */
  function FormatRuntime(elapsed: nat): (s: string)
  {
    var hours := elapsed / 3600;
    var minutes := (elapsed % 3600) / 60;
    var seconds := elapsed % 60;
    if hours > 0 then DecimalString(hours) + ":" + TwoDigits(minutes) + ":" + TwoDigits(seconds)
    else DecimalString(minutes) + ":" + TwoDigits(seconds)
  }

  /** Reading a clock label left to right: the total of the finished fields (each `:`
      multiplies by 60) and the value of the field being read. */
  function ClockParse(s: string): (nat, nat)
  {
    if |s| == 0 then (0, 0)
    else
      var (total, field) := ClockParse(s[..|s| - 1]);
      var c := s[|s| - 1];
      if c == ':' then ((total + field) * 60, 0)
      else if '0' <= c <= '9' then (total, field * 10 + (c as int - '0' as int))
      else (total, field)
  }

  /** The number of seconds a clock label such as `1:02:03` denotes. */
  function ClockValue(s: string): nat
  {
    ClockParse(s).0 + ClockParse(s).1
  }

  /** Number of `:` separators in a label. */
  function Colons(s: string): nat
  {
    if |s| == 0 then 0 else Colons(s[..|s| - 1]) + (if s[|s| - 1] == ':' then 1 else 0)
  }

  /** Reading the digits of `n` after a separator yields `n` as the current field. */
  lemma {:induction false} ParseDigits(p: string, n: nat)
    requires ClockParse(p).1 == 0
    ensures ClockParse(p + DecimalString(n)) == (ClockParse(p).0, n)
    ensures Colons(p + DecimalString(n)) == Colons(p)
  {
    var d := DigitChar(n % 10);
    if n < 10 {
      assert (p + [d])[..|p|] == p;
    } else {
      ParseDigits(p, n / 10);
      var q := p + DecimalString(n / 10);
      assert p + DecimalString(n) == q + [d];
      assert (q + [d])[..|q|] == q;
    }
  }

  /** Reading a zero-padded two-digit field after a separator yields its value. */
  lemma ParseTwoDigits(p: string, n: nat)
    requires ClockParse(p).1 == 0
    ensures ClockParse(p + TwoDigits(n)) == (ClockParse(p).0, n)
    ensures Colons(p + TwoDigits(n)) == Colons(p)
  {
    if n < 10 {
      var q := p + "0";
      assert q[..|p|] == p;
      assert p + TwoDigits(n) == q + DecimalString(n);
      ParseDigits(q, n);
    } else {
      ParseDigits(p, n);
    }
  }

  /** A separator closes the current field. */
  lemma ParseColon(p: string)
    ensures ClockParse(p + ":") == ((ClockParse(p).0 + ClockParse(p).1) * 60, 0)
    ensures Colons(p + ":") == Colons(p) + 1
  {
    assert (p + ":")[..|p|] == p;
  }

  /** The runtime label reads back as the elapsed seconds, with two separators exactly
      from one hour on. */
  lemma RuntimeRoundTrip(elapsed: nat)
    ensures ClockValue(FormatRuntime(elapsed)) == elapsed
    ensures Colons(FormatRuntime(elapsed)) == if elapsed >= 3600 then 2 else 1
  {
    var hours := elapsed / 3600;
    var minutes := (elapsed % 3600) / 60;
    var seconds := elapsed % 60;
    assert elapsed == (hours * 60 + minutes) * 60 + seconds;
    if hours > 0 {
      LongLabel(hours, minutes, seconds);
    } else {
      ShortLabel(minutes, seconds);
    }
  }

  /** The runtime label ends in `:SS`, two digits holding the seconds below 60, and from
      one hour on the `:MM` before them holds the minutes below 60; below one hour the
      label is `M:SS` with the whole minutes in front. */
  lemma RuntimeFields(elapsed: nat)
    ensures var s := FormatRuntime(elapsed);
            |s| >= 4 && s[|s| - 3] == ':' &&
            '0' <= s[|s| - 2] <= '9' && '0' <= s[|s| - 1] <= '9' &&
            PairValue(s[|s| - 2], s[|s| - 1]) == elapsed % 60 < 60
    ensures var s := FormatRuntime(elapsed);
            elapsed >= 3600 ==>
              |s| >= 7 && s[|s| - 6] == ':' &&
              '0' <= s[|s| - 5] <= '9' && '0' <= s[|s| - 4] <= '9' &&
              PairValue(s[|s| - 5], s[|s| - 4]) == (elapsed % 3600) / 60 < 60 &&
              ClockValue(s[..|s| - 6]) == elapsed / 3600 && Colons(s[..|s| - 6]) == 0
    ensures var s := FormatRuntime(elapsed);
            elapsed < 3600 ==> ClockValue(s[..|s| - 3]) == elapsed / 60 && Colons(s[..|s| - 3]) == 0
  {
    var hours := elapsed / 3600;
    var minutes := (elapsed % 3600) / 60;
    var seconds := elapsed % 60;
    if hours > 0 {
      var h := DecimalString(hours);
      var head := h + ":" + TwoDigits(minutes);
      assert FormatRuntime(elapsed) == head + ":" + TwoDigits(seconds);
      LastField(head, seconds);
      LastField(h, minutes);
      var s := FormatRuntime(elapsed);
      assert s[..|s| - 6] == h by {
        assert s[..|s| - 6] == s[..|s| - 3][..|head| - 3];
      }
      HeadField(h, hours);
    } else {
      var m := DecimalString(minutes);
      assert FormatRuntime(elapsed) == m + ":" + TwoDigits(seconds);
      LastField(m, seconds);
      HeadField(m, minutes);
    }
  }

  /** A `:NN` field appended to a label: the separator three from the end, then the two
      digits of `n`, with the label before it untouched. */
  lemma LastField(p: string, n: nat)
    requires n < 60
    ensures var s := p + ":" + TwoDigits(n);
            |s| == |p| + 3 && s[|s| - 3] == ':' &&
            '0' <= s[|s| - 2] <= '9' && '0' <= s[|s| - 1] <= '9' &&
            PairValue(s[|s| - 2], s[|s| - 1]) == n && s[..|s| - 3] == p
  {
  }

  /** The leading field of a label reads back as its number, with no separator. */
  lemma HeadField(h: string, n: nat)
    requires h == DecimalString(n)
    ensures ClockValue(h) == n && Colons(h) == 0
  {
    ParseDigits([], n);
    assert [] + h == h;
  }

  /** `H:MM:SS` reads back as its three fields. */
  lemma LongLabel(hours: nat, minutes: nat, seconds: nat)
    ensures var s := DecimalString(hours) + ":" + TwoDigits(minutes) + ":" + TwoDigits(seconds);
            ClockValue(s) == (hours * 60 + minutes) * 60 + seconds && Colons(s) == 2
  {
    var a := DecimalString(hours);
    var b := a + ":";
    var c := b + TwoDigits(minutes);
    var d := c + ":";
    var e := d + TwoDigits(seconds);
    assert ClockParse(a) == (0, hours) && Colons(a) == 0 by {
      ParseDigits([], hours);
      assert [] + a == a;
    }
    assert ClockParse(b) == (hours * 60, 0) && Colons(b) == 1 by { ParseColon(a); }
    assert ClockParse(c) == (hours * 60, minutes) && Colons(c) == 1 by { ParseTwoDigits(b, minutes); }
    assert ClockParse(d) == ((hours * 60 + minutes) * 60, 0) && Colons(d) == 2 by { ParseColon(c); }
    assert ClockParse(e) == ((hours * 60 + minutes) * 60, seconds) && Colons(e) == 2 by {
      ParseTwoDigits(d, seconds);
    }
  }

  /** `M:SS` reads back as its two fields. */
  lemma ShortLabel(minutes: nat, seconds: nat)
    ensures var s := DecimalString(minutes) + ":" + TwoDigits(seconds);
            ClockValue(s) == minutes * 60 + seconds && Colons(s) == 1
  {
    var a := DecimalString(minutes);
    var b := a + ":";
    var c := b + TwoDigits(seconds);
    assert ClockParse(a) == (0, minutes) && Colons(a) == 0 by {
      ParseDigits([], minutes);
      assert [] + a == a;
    }
    assert ClockParse(b) == (minutes * 60, 0) && Colons(b) == 1 by { ParseColon(a); }
    assert ClockParse(c) == (minutes * 60, seconds) && Colons(c) == 1 by { ParseTwoDigits(b, seconds); }
  }
}

=== FILE: wrappers.dfy ===
/** Failure-carrying result types shared by every module of the model. */
module Wrappers {

  /** An optional value. */
  datatype Option<+T> = None | Some(value: T)

  /** Either a value or an error; models the places where the source raises or returns early. */
  datatype Result<+T, +E> = Ok(value: T) | Err(error: E)
}
